=== FILE: README.md ===
# StateMachine: determinization, renaming and minimization of finite automata

A Dafny model of the automaton operations of `StateMachine.Graph` (Java). The
three operations are:

- `determinize(deleteUnused)` turns an automaton with epsilon moves into a
  deterministic one. Its two recursive passes are `simpleBuild` and `complexBuild`.
  With `deleteUnused`, states the second pass never reached are dropped.
- `rename` gives the states the one-letter names `A`, `B`, ….
- `minimize` runs Moore's partition refinement. Its helpers are `equalGroup` and
  `getGroupElemNumber`.

The Java primitives they rest on are also modelled: `NodeName.equals`,
`Node.getNodeIndex`, `Node.makeUnused`, `Node.makeEdgesUnused` and
`Edge.getEdgeIndex`.

The model works as follows:

- **States.** An automaton is a value of type `Automaton.Graph`. Its states live
  in an arena, a `seq<Node>` in list order. A state's name is a set of original
  identifiers (`Names.Name`), as `NodeName` is a `TreeSet<String>`.
- **Edges.** An edge names its target. `Automaton.WellFormed` states what Java's
  object references guarantee: names are unique and every edge target is a state.
- **Runtime errors.** Three are modelled as `Result` failures:
  - `StackOverflow`: unbounded recursion.
  - `IndexOutOfBounds`: an array index of -1.
  - `NoSuchElement`: `first()` of an empty set.
- **Mutable flags.** The `used` flags on nodes and edges, and the shared
  `BooleanHolder`, are threaded through the recursion explicitly
  (`SimplePass.Walk`).
- **Stack depth.** Java recursion depth is a `stack` budget. Running out of it is
  the `StackOverflowError` the source can hit on an epsilon cycle that avoids the
  root.
- **Two root loops.** `Determinize.Determinize` is `determinize` as written: the
  node flags are cleared once before the loop over roots. `Determinize.DeterminizeCorrected`
  clears them before every root (see "## Findings"). Both share the second pass
  (`Determinize.SecondPass`).

Modules, in dependency order:

- `Wrappers`
- `Names`: the `TreeSet<String>` order and `NodeName.equals`.
- `Automaton`: arena lookups, `getNodeIndex`, `getEdgeIndex`, and edge registration.
- `SimplePass`: the first pass of `determinize`, one `simpleBuild` walk per original state.
- `WalkClosure`: what one walk collects over epsilon paths of any length.
- `WalkDepth`: how much stack the walk needs, and an epsilon cycle that overflows it.
- `ComplexPass`: the second pass.
- `Determinize`: both passes, the `deleteUnused` filter, and reachability.
- `Rename`
- `Minimize`

## Model

| member | source | states |
|---|---|---|
| Names.Equals | src/stateMachine/StateMachine.java:130-145 | Comparing two names by size and then element by element in sorted order answers true exactly when the two sets of identifiers are equal. |
| Names.Sort | src/stateMachine/StateMachine.java:137-139 | The iteration order of a name lists each identifier exactly once, in strictly ascending `compareTo` order. |
| Names.SortDetermines | src/stateMachine/StateMachine.java:137-144 | Two names with the same iteration order are the same name. This is why an element-wise comparison decides equality. |
| Names.Min | src/stateMachine/StateMachine.java:359 | `first()` of a non-empty name is one of its identifiers, and smaller than every other one. |
| Automaton.IndexOf | src/stateMachine/StateMachine.java:37-44 | The lookup returns the first position whose name equals the given one, and -1 exactly when no state has that name. |
| Automaton.GetNodeIndex | src/stateMachine/StateMachine.java:35-47 | The returned position holds the requested name. Its final flag is set when asked or already set. The list only grows, by at most one state. |
| Automaton.GetNodeIndexFrame | src/stateMachine/StateMachine.java:35-47 | An existing name is found at its own position and nothing is appended. A missing name is appended with no edges. No other state changes its edges, and only the found state changes its final flag. |
| Automaton.GetNodeIndexIdempotent | src/stateMachine/StateMachine.java:35-47 | Looking a name up a second time returns the same position and appends nothing. |
| Automaton.GetNodeIndexKeepsUnique | src/stateMachine/StateMachine.java:45-46 | Appending a state only for a name not yet present keeps names unique. |
| Automaton.UniqueIndexOf | src/stateMachine/StateMachine.java:37-44 | With unique names, looking up the name of the state at position i returns i. |
| Automaton.EdgeIndex | src/stateMachine/StateMachine.java:120-127 | The symbol index is -1 exactly when the symbol is not in the alphabet. Otherwise it is the first position holding the symbol. |
| Automaton.EdgeIndexOfLabel | src/stateMachine/StateMachine.java:120-127 | In a duplicate-free alphabet, the index of the i-th symbol is i. |
| Automaton.Register | src/stateMachine/StateMachine.java:209-217 | Registering the root's closure only grows the arena, and the position `getNodeIndex` returns for the root holds the root's name. Edges and flags are stated in `RegisterAt`, `RegisterElsewhere` and `RegisterAppends`. |
| Automaton.RegisterAt | src/stateMachine/StateMachine.java:210-217 | Registering a state gives it its old edges followed by one edge per non-null slot. Its final flag is the requested flag or its old one. |
| Automaton.RegisterElsewhere | src/stateMachine/StateMachine.java:210-217 | Registering a state leaves every other pre-existing state unchanged. |
| Automaton.RegisterAppends | src/stateMachine/StateMachine.java:213 | States appended for slot targets have no edges and are not final. |
| Automaton.AddEdgesRegisters | src/stateMachine/StateMachine.java:211-216 | Every non-null slot's name is a state after its edge is added. |
| Automaton.SlotEdgesOrdered | src/stateMachine/StateMachine.java:211-216 | The edges added from the slots follow the alphabet order, so no symbol appears twice. |
| Automaton.SlotEdgesContents | src/stateMachine/StateMachine.java:211-216 | An edge on symbol j is added exactly when slot j is non-null, and it leads to the slot's name. |
| SimplePass.Visit | src/stateMachine/StateMachine.java:163-207 | One recursive `simpleBuild` call keeps one slot per symbol. What it collects is stated in `VisitGrows`, `WalkClosure.VisitClosure`, `WalkClosure.VisitChosen` and `WalkClosure.VisitFound`. |
| SimplePass.VisitEdges | src/stateMachine/StateMachine.java:172-205 | The loop over a state's edges keeps one slot per symbol. Its effect is stated in `VisitGrows`, `VisitSparesRoot` and `WalkClosure.VisitClosure`. |
| SimplePass.Enter | src/stateMachine/StateMachine.java:178-203 | Taking one edge keeps the number of slots. Its effect is stated in `EnterGrows` and `WalkClosure.EnterFound`. |
| SimplePass.RootWalk | src/stateMachine/StateMachine.java:163-207 | The outermost call, with edge flags clear and no slot filled, returns one slot per symbol. What it collects is stated in `WalkClosure.RootWalkCloses` and `WalkClosure.RootWalkFound`. |
| SimplePass.EnterGrows | src/stateMachine/StateMachine.java:182-203 | Taking an edge only widens the slots and never clears the final flag. It can only clear node flags (`makeUnused`). |
| SimplePass.VisitGrows | src/stateMachine/StateMachine.java:163-207 | A recursive walk only widens the slots and never clears the final flag. It leaves the root flagged, and flags no state other than the root. |
| SimplePass.VisitSparesRoot | src/stateMachine/StateMachine.java:173-207 | Below the outermost call, no edge flag of the root is set or cleared. |
| SimplePass.RootScanSlots | src/stateMachine/StateMachine.java:193-204 | With the root's edge flags clear at the start, as `makeEdgesUnused` leaves them, every symbol edge of the root puts its target into the slot of its symbol. |
| SimplePass.RootScanFinal | src/stateMachine/StateMachine.java:178-192 | An epsilon move of the root to a final state whose flag is clear makes the root's closure final. |
| SimplePass.SimpleBuild | src/stateMachine/StateMachine.java:163-219 | A successful walk registers the root under its own name, and the new arena only grows. |
| SimplePass.SimpleBuildSound | src/stateMachine/StateMachine.java:209-218 | Registration keeps names unique and edge targets present, and builds names only from original identifiers. |
| SimplePass.SimpleBuildRootsOnly | src/stateMachine/StateMachine.java:209-218 | After root i, every state has at most one edge per symbol and no epsilon edge. Only states named after roots 0..i have edges. |
| SimplePass.SimpleBuildSimulates | src/stateMachine/StateMachine.java:163-219 | The root's new state is final when the root is final, or when an epsilon move reaches a final state whose flag was clear. For every symbol edge of the root, it has an edge on that symbol to a state whose name includes the target. |
| SimplePass.SimpleBuildKeepsSimulated | src/stateMachine/StateMachine.java:209-218 | A later root's registration does not undo what earlier roots established. |
| SimplePass.PassOneAsWritten | src/stateMachine/StateMachine.java:295-300 | The root loop as written, with node flags cleared once before it, only grows the arena. Its result is stated in `PassOneAsWrittenBuilds`, and its flaw in `CarryOverLosesFinal`. |
| SimplePass.PassOne | src/stateMachine/StateMachine.java:295-300 | The corrected root loop, with node flags cleared before every root, only grows the arena. Its result is stated in `PassOneBuilds`, `WalkClosure.PassOneSaturates` and `WalkClosure.PassOneExact`. |
| SimplePass.PassOneBuilds | src/stateMachine/StateMachine.java:295-300 | After the corrected root loop (node flags cleared before each root), every original state is simulated by its new state. That state is also final whenever one of the original state's epsilon moves reaches a final state. The arena is sound and deterministic. |
| SimplePass.CarryOverLosesFinal | src/stateMachine/StateMachine.java:295-300 | As written, a two-state automaton where B reaches the final A by an epsilon move yields a non-final B. |
| SimplePass.ClearedFlagsKeepFinal | src/stateMachine/StateMachine.java:295-300 | With the flags cleared before each root, the same automaton yields a final B. |
| ComplexPass.MergeEdges | src/stateMachine/StateMachine.java:231-237 | Merging one member's edges keeps one slot per symbol. Failure and contents are stated in `MergeEdgesFails` and `MergeEdgesCarries`. |
| ComplexPass.Collect | src/stateMachine/StateMachine.java:227-239 | The loop over a composite state's identifiers only grows the arena and keeps one slot per symbol. Its results are stated in `CollectFinal` and `CollectFails`. |
| ComplexPass.Expand | src/stateMachine/StateMachine.java:226-248 | Expanding a composite state only grows the arena: existing states keep their positions and names. Its edges and flag are stated in `ExpandBuildsSubsetEdges` and `ExpandBuildsSubsetFinal`. |
| ComplexPass.ComplexBuild | src/stateMachine/StateMachine.java:221-255 | The depth-first walk builds names only from the identifiers of the arena it starts with, and never removes a mark. What it marks and builds is stated in `ComplexBuildKeepsWellFormed`, `ComplexBuildFrame`, `ComplexBuildExplores`, `ComplexBuildReaches` and `ComplexBuildDeterministic`. |
| ComplexPass.MergeEdgesFails | src/stateMachine/StateMachine.java:231-237 | Merging a member's edges fails exactly when one of them carries a symbol outside the alphabet (`outNodes[-1]`). |
| ComplexPass.MergeEdgesCarries | src/stateMachine/StateMachine.java:231-237 | After the merge, an identifier is in slot j exactly when it was already there or is in the target of an edge on symbol j. |
| ComplexPass.CollectFinal | src/stateMachine/StateMachine.java:227-239 | The composite state is final exactly when one of its members' states is final. |
| ComplexPass.CollectFails | src/stateMachine/StateMachine.java:227-239 | Collecting fails exactly when some member's state has an edge on a symbol outside the alphabet. |
| ComplexPass.ExpandFails | src/stateMachine/StateMachine.java:226-248 | Expanding a composite state fails exactly when some member's state has an edge on a symbol outside the alphabet. |
| ComplexPass.ExpandBuildsSubsetEdges | src/stateMachine/StateMachine.java:226-248 | A composite state gets, in alphabet order, one edge per symbol some member moves on. Each such edge leads to the union of the members' targets on that symbol. |
| ComplexPass.ExpandBuildsSubsetFinal | src/stateMachine/StateMachine.java:226-248 | A composite state becomes final when it was final or one of its members is final. |
| ComplexPass.ExpandExtendsElsewhere | src/stateMachine/StateMachine.java:241-247 | Expansion changes no other existing state. It appends only edgeless non-final states. |
| ComplexPass.ComplexBuildKeepsWellFormed | src/stateMachine/StateMachine.java:221-255 | The depth-first walk keeps names unique and every edge target present. |
| ComplexPass.ComplexBuildFrame | src/stateMachine/StateMachine.java:221-255 | The walk marks its start state, and leaves states marked before it untouched. |
| ComplexPass.ComplexBuildExplores | src/stateMachine/StateMachine.java:250-254 | Every state the walk marks has all its successors marked, or they were marked before the walk. |
| ComplexPass.ComplexBuildDeterministic | src/stateMachine/StateMachine.java:221-255 | Starting from a deterministic arena whose composite states have no edges, the walk cannot fail. It leaves every state with at most one edge per symbol. |
| ComplexPass.ComplexBuildKeepsSingletons | src/stateMachine/StateMachine.java:226 | The walk never changes a state named by one identifier. |
| SimplePass.SimpleBuildKeepsState | src/stateMachine/StateMachine.java:209-218 | Registering another root leaves the state built for an earlier original state exactly as it was. |
| SimplePass.PassOneAsWrittenBuilds | src/stateMachine/StateMachine.java:295-300 | The root loop as written (flags cleared once) builds a sound arena with at most one edge per symbol and no epsilon edge. Every original state is simulated by the state of its name: final when the state is final, with an edge for every symbol edge of the state. |
| WalkClosure.VisitChosen | src/stateMachine/StateMachine.java:172-192 | After a symbol edge, the walk adds to that symbol's slot every state reached by one or more epsilon moves that avoid the root, and sets no edge flag. |
| WalkClosure.VisitClosure | src/stateMachine/StateMachine.java:172-204 | In the root's closure, the walk makes the shared flag final for every final state reached by epsilon moves avoiding the root. For every symbol edge leaving such a state, the symbol's slot gets every state the edge's target reaches by such moves. |
| WalkClosure.RootWalkCloses | src/stateMachine/StateMachine.java:163-207 | With no node flag set, the walk from a root accounts for every state of the root's epsilon closure, over paths of any length that do not re-enter the root. |
| WalkClosure.SimpleBuildSaturates | src/stateMachine/StateMachine.java:163-219 | With no node flag set, the root's new state is final when a state of its closure is final. For every symbol edge leaving the closure, the new state has an edge on that symbol whose target name includes every state reached after it by epsilon moves. |
| WalkClosure.PassOneSaturates | src/stateMachine/StateMachine.java:295-300 | With flags cleared before every root, every original state's new state has that closure property. |
| WalkClosure.RootWalkFound | src/stateMachine/StateMachine.java:163-207 | Conversely, the walk sets the shared final flag only when a state of the closure is final. It puts an identifier into a slot only when it belongs to a state reached by epsilon moves after a symbol edge on that slot leaving the closure. |
| WalkClosure.SimpleBuildExact | src/stateMachine/StateMachine.java:163-219 | With no node flag set, the root's new state holds nothing beyond its closure: it is final only when a closure state is, and every identifier on its edge for a symbol is traced to such a path on that symbol. |
| WalkClosure.PassOneExact | src/stateMachine/StateMachine.java:295-300 | With flags cleared before every root, every original state's new state holds nothing beyond its closure. |
| WalkDepth.AfterSymbolPassesOver | src/stateMachine/StateMachine.java:172-204 | Without epsilon moves, the walk after a symbol edge passes over every edge and returns the walk unchanged, whatever the stack. |
| WalkDepth.RootWalkNeedsOneLevel | src/stateMachine/StateMachine.java:163-207 | Without epsilon moves, the walk from any root succeeds with one level of recursion to spare. |
| WalkDepth.PassOneNeedsOneLevel | src/stateMachine/StateMachine.java:295-300 | Without epsilon moves, the corrected root loop succeeds with one level of stack. |
| WalkDepth.PassOneAsWrittenNeedsOneLevel | src/stateMachine/StateMachine.java:295-300 | Without epsilon moves, the root loop as written succeeds with one level of stack, whatever flags earlier roots left. |
| WalkDepth.DeterminizeNeedsOneLevel | src/stateMachine/StateMachine.java:291-319 | An automaton of single identifiers without epsilon moves is determinized by both loops with one level of stack, with or without `deleteUnused`, and the result is deterministic. |
| WalkDepth.CycleOverflows | src/stateMachine/StateMachine.java:178-192 | On `A -ε-> B -ε-> C -ε-> B`, the walk from `B` or `C` with only `A` flagged overflows for every stack. |
| WalkDepth.CycleExampleOverflows | src/stateMachine/StateMachine.java:291-300 | On that automaton the walk from `A`, and `determinize` by either loop, overflow for every stack. |
| ComplexPass.ComplexBuildReaches | src/stateMachine/StateMachine.java:221-255 | Every state the walk marks is reached from the walk's start along edges through states the walk itself marked. |
| Determinize.SecondPass | src/stateMachine/StateMachine.java:302-318 | The second pass marks the result determinized and keeps the alphabet, the epsilon symbol and the initial identifier. |
| Determinize.Determinize | src/stateMachine/StateMachine.java:291-319 | `determinize` as written, with the root loop that clears node flags once, marks the result determinized. It keeps the alphabet, the epsilon symbol and the initial identifier. |
| Determinize.DeterminizeCorrected | src/stateMachine/StateMachine.java:291-319 | The same with the node flags cleared before every root, with the same guarantees. |
| Determinize.RetainMembers | src/stateMachine/StateMachine.java:307-314 | With `deleteUnused`, a state is kept exactly when it is a state of the arena whose name the walk marked. |
| Determinize.RetainOrdered | src/stateMachine/StateMachine.java:308-312 | The filter keeps the arena order: of two kept states, the earlier one comes first in the arena. |
| Determinize.MarkedIffReachable | src/stateMachine/StateMachine.java:302-305 | After the second pass's walk, a name is marked exactly when it is reachable from the initial state. A marked name stays reachable once the unmarked states are dropped. |
| Determinize.RetainReachable | src/stateMachine/StateMachine.java:307-314 | The filter after the walk keeps exactly the states reachable from the start, in arena order. Each kept state is reachable within what is kept. |
| Determinize.SecondPassWellFormed | src/stateMachine/StateMachine.java:302-318 | The second pass leaves a well-formed automaton with a state named by the initial identifier, also after the filter. |
| Determinize.SecondPassKeepsReachable | src/stateMachine/StateMachine.java:302-318 | With `deleteUnused` the second pass succeeds exactly when it does without. The kept states are exactly the states of the unfiltered result reachable from the initial state, in the same order. Each is reachable within what is kept. |
| Determinize.DeterminizeKeepsReachable | src/stateMachine/StateMachine.java:291-319 | `determinize(true)` as written succeeds exactly when `determinize(false)` does, and keeps exactly the states of its result that are reachable from the initial state. |
| Determinize.DeterminizeCorrectedKeepsReachable | src/stateMachine/StateMachine.java:291-319 | The same for the corrected loop. |
| Determinize.DeterminizeWellFormed | src/stateMachine/StateMachine.java:291-319 | `determinize` as written turns a well-formed automaton into a well-formed one containing a state named by the initial identifier, even after unused states are dropped. |
| Determinize.DeterminizeCorrectedWellFormed | src/stateMachine/StateMachine.java:291-319 | The same for the corrected loop. |
| Determinize.SecondPassDeterministic | src/stateMachine/StateMachine.java:302-318 | After a first pass that gave edges, in alphabet order, only to states of single identifiers, the second pass cannot fail. It leaves no epsilon edge and no state with two edges on one symbol. |
| Determinize.DeterminizeDeterministic | src/stateMachine/StateMachine.java:291-319 | On automata whose states have single identifiers, `determinize` as written cannot fail in the second pass once the first succeeds. The result has no epsilon edge and at most one edge per symbol. |
| Determinize.DeterminizeCorrectedDeterministic | src/stateMachine/StateMachine.java:291-319 | The same for the corrected loop. |
| Determinize.SecondPassKeeps | src/stateMachine/StateMachine.java:226 | Without `deleteUnused`, the second pass leaves the state of every original name exactly as the first pass built it, because it expands only composite states. |
| Determinize.DeterminizeSimulates | src/stateMachine/StateMachine.java:291-319 | Without `deleteUnused`, `determinize` as written keeps every original state simulated by the state of its name, as in `PassOneAsWrittenBuilds`. |
| Determinize.DeterminizeCorrectedSimulates | src/stateMachine/StateMachine.java:291-319 | With the corrected loop, every such state is also final whenever one of its epsilon moves reaches a final state. |
| Determinize.DeterminizeCorrectedCloses | src/stateMachine/StateMachine.java:291-319 | Without `deleteUnused`, the corrected `determinize` leaves for every original state a state that follows its whole epsilon closure (`PassOneSaturates`) and holds nothing beyond it (`PassOneExact`). |
| Determinize.DeterminizeLosesFinal | src/stateMachine/StateMachine.java:291-319 | On the two-state example, `determinize` as written leaves `B` non-final, although `B` reaches the final `A` by an epsilon move. The corrected loop leaves it final. |
| Rename.Rename | src/stateMachine/StateMachine.java:352-372 | State i becomes `'A' + i`, keeps its final flag, and its edges follow their targets to their new names. The initial identifier becomes the letter of the first state it named, or stays unchanged when no state had that name. |
| Rename.LetterInjective | src/stateMachine/StateMachine.java:356-357 | Different positions get different letters. |
| Rename.RenameIsomorphic | src/stateMachine/StateMachine.java:352-372 | Renaming keeps a well-formed automaton well formed. It keeps every edge's symbol and the position of every edge's target. |
| Rename.RenameKeepsInitial | src/stateMachine/StateMachine.java:358-360 | The renamed initial identifier names the state at the initial state's old position. |
| Minimize.DecimalRoundTrip | src/stateMachine/StateMachine.java:506 | The decimal digits written for a block number read back as that number. |
| Minimize.BlockIdentInjective | src/stateMachine/StateMachine.java:506 | Different blocks get different names `"N" + (i + 1)`. |
| Minimize.GroupOf | src/stateMachine/StateMachine.java:394-403 | `getGroupElemNumber` returns -1 or a block number, and a block it returns contains the state. `GroupOfFirst` states that it is the first such block, and -1 exactly when there is none. |
| Minimize.EqualGroup | src/stateMachine/StateMachine.java:374-392 | No contract of its own. See `EqualGroupIsSig` and `EqualGroupEquivalence`. |
| Minimize.GroupOfFirst | src/stateMachine/StateMachine.java:394-403 | The group number is the first block containing the state, and -1 exactly when no block contains it. |
| Minimize.EqualGroupIsSig | src/stateMachine/StateMachine.java:374-392 | Two states are in the same group exactly when their edge sequences agree in length, in symbols, and in the blocks the targets lie in. |
| Minimize.EqualGroupEquivalence | src/stateMachine/StateMachine.java:374-392 | The same-group relation is reflexive, symmetric and transitive, so splitting by a representative does not depend on its choice. |
| Minimize.SiftMembers | src/stateMachine/StateMachine.java:474-479 | Sifting keeps exactly the states that are (or are not) in the same group as the representative. |
| Minimize.Split | src/stateMachine/StateMachine.java:465-483 | A split block yields no more pieces than it has states, and no piece is empty. Contents are stated in `SplitMembers`, `SplitDisjoint` and `SplitAgrees`. |
| Minimize.SplitMembers | src/stateMachine/StateMachine.java:465-483 | The pieces of a split block hold exactly the block's states. |
| Minimize.SplitDisjoint | src/stateMachine/StateMachine.java:465-483 | No state lands in two pieces of a split. |
| Minimize.SplitAgrees | src/stateMachine/StateMachine.java:468-481 | Every state of a piece is in the same group as the piece's representative, which is the piece's first state. |
| Minimize.Step | src/stateMachine/StateMachine.java:463-483 | No contract of its own. See `StepPartition`, `StepSeparates` and `StepFromLength`. |
| Minimize.StepPartition | src/stateMachine/StateMachine.java:464-483 | A round maps a partition of the states to a partition into non-empty blocks. |
| Minimize.StepSeparates | src/stateMachine/StateMachine.java:464-483 | After a round, two states share a block exactly when they shared one before and are in the same group. |
| Minimize.StepFromLength | src/stateMachine/StateMachine.java:484 | Over non-empty blocks, a round never reduces the number of blocks. When the number is unchanged, the blocks are unchanged. |
| Minimize.CountBound | src/stateMachine/StateMachine.java:484-487 | A partition into non-empty blocks has at most as many blocks as states. |
| Minimize.Refine | src/stateMachine/StateMachine.java:463-488 | No contract of its own. See `RefineSpec`, `ClassesCoarsest` and `ClassesCongruence`. |
| Minimize.RefineSpec | src/stateMachine/StateMachine.java:463-547 | The loop ends with a partition into non-empty blocks that a further round leaves unchanged. It refines the partition it started from. |
| Minimize.SelectMembers | src/stateMachine/StateMachine.java:447-453 | The first groups collect exactly the final states and exactly the non-final states. |
| Minimize.StartSeparates | src/stateMachine/StateMachine.java:445-455 | Two states share a start block exactly when both or neither are final. |
| Minimize.MapEdges | src/stateMachine/StateMachine.java:525-529 | A successful redirection gives the new state as many edges as its first member has. `MapEdgesSpec` states when it fails and what each edge becomes. |
| Minimize.BuildNodes | src/stateMachine/StateMachine.java:504-530 | A successful build makes one state per block. `BuildNodesEmptyBlock`, `MinimizeFinal` and `MinimizeEdges` state its failure, flags and edges. |
| Minimize.InitIdent | src/stateMachine/StateMachine.java:509-513 | No contract of its own. See `InitIdentSpec`. |
| Minimize.MapEdgesSpec | src/stateMachine/StateMachine.java:525-529 | Redirecting edges fails exactly when a target lies in no block. Otherwise each edge keeps its symbol and leads to its target's block state. |
| Minimize.BuildNodesEmptyBlock | src/stateMachine/StateMachine.java:522-524 | Building from a list that contains an empty block throws `NoSuchElementException`. |
| Minimize.MinimizeAsWritten | src/stateMachine/StateMachine.java:437-548 | `minimize` as written, when it succeeds, copies the alphabet and the epsilon symbol and is not marked determinized. `MinimizeAsWrittenAgrees` and `MinimizeAsWrittenFails` state when it agrees with `Minimize` and when it throws. |
| Minimize.Minimize | src/stateMachine/StateMachine.java:437-548 | The corrected `minimize`, when it succeeds, copies the alphabet and the epsilon symbol and is not marked determinized. `MinimizeSucceeds`, `MinimizeKeepsLanguage` and `ClassesCoarsest` state that it succeeds, keeps the language, and that its blocks are the coarsest congruence that compares edges position by position. |
| Minimize.MinimizeSucceeds | src/stateMachine/StateMachine.java:500-534 | Minimizing a closed automaton succeeds with one state per final block, at most as many as before. It copies the alphabet and epsilon symbol and is not marked determinized. |
| Minimize.MinimizeFinal | src/stateMachine/StateMachine.java:514-516 | The state of a block is final exactly when the original states in it are. |
| Minimize.MinimizeEdges | src/stateMachine/StateMachine.java:521-530 | The state of a state's block has, position by position, that state's edges, each redirected to the block of its target. |
| Minimize.MinimizeWellFormed | src/stateMachine/StateMachine.java:500-534 | Minimizing a well-formed automaton yields a well-formed one. |
| Minimize.InitIdentSpec | src/stateMachine/StateMachine.java:509-513 | The initial identifier is that of the block holding the state the old identifier names. Without such a state it keeps the default. |
| Minimize.MinimizeInitial | src/stateMachine/StateMachine.java:500-513 | The new initial identifier names the state of the old initial state's block. It is `"S"` when no state had the old identifier. |
| Minimize.QuotientKeepsLanguage | src/stateMachine/StateMachine.java:437-548 | Collapsing a partition whose blocks agree on finality and edge targets preserves the words each state accepts. |
| Minimize.MinimizeKeepsLanguage | src/stateMachine/StateMachine.java:437-548 | Every state accepts the same words as the state of its block in the minimized automaton. |
| Minimize.MinimizeKeepsInitialLanguage | src/stateMachine/StateMachine.java:437-548 | The minimized automaton accepts, from its initial state, exactly the words the original accepts from its own. |
| Minimize.ClassesCoarsest | src/stateMachine/StateMachine.java:463-547 | Any two states that a congruence (agreement on finality and on the classes of edge targets) identifies end up in the same final block. |
| Minimize.ClassesCongruence | src/stateMachine/StateMachine.java:463-547 | The final blocks are themselves such a congruence, so they are the coarsest one. |
| Minimize.ImpossibleToMinimize | src/stateMachine/StateMachine.java:487 | No contract of its own. The report condition for the corrected loop; see `ImpossibleIffNothingMerged` and `ImpossibleAsWrittenAgrees`. |
| Minimize.ImpossibleIffNothingMerged | src/stateMachine/StateMachine.java:487-488 | For the corrected loop, "Impossible to minimize graph!" is reported exactly when no two states share a block, which is when the result has as many states as the input. |
| Minimize.ImpossibleAsWritten | src/stateMachine/StateMachine.java:445-488 | No contract of its own. The report as written compares the new groups of the round that keeps the number of groups with the number of states; see `ImpossibleAsWrittenAgrees` and `ImpossibleAsWrittenBadStart`. |
| Minimize.ImpossibleAsWrittenAgrees | src/stateMachine/StateMachine.java:445-488 | Outside the bad case, the report as written is "Impossible to minimize graph!" exactly when the corrected loop merges no two states. |
| Minimize.ImpossibleAsWrittenBadStart | src/stateMachine/StateMachine.java:445-488 | In the bad case the loop stops after its first round with two groups, so the report as written is "Impossible to minimize graph!" exactly when there are two states. |
| Minimize.InitialStep | src/stateMachine/StateMachine.java:445-483 | The first round gives the same blocks whether or not an empty first group is present. |
| Minimize.MinimizeAsWrittenAgrees | src/stateMachine/StateMachine.java:445-547 | Outside the bad case below, `minimize` as written gives exactly the corrected result. |
| Minimize.MinimizeAsWrittenFails | src/stateMachine/StateMachine.java:445-524 | In the bad case, `minimize` as written throws `NoSuchElementException`, while the corrected version succeeds. The bad case is: all states final or all non-final, and the first round ends with two blocks. |
| Minimize.TwoFinalsShowsEmptyGroup | src/stateMachine/StateMachine.java:445-524 | Two final states, one with an edge and one without, make `minimize` as written throw. The corrected version returns two states. |

## Left out

- Reading and writing are not modelled:
  - `buildGraph` parses an input stream.
  - `printGraph`, `printNodes` and the `toString` methods only format output.
  - `copy` is a serialization round trip.
  - The messages that `rename` and `minimize` write to their `OutputStream` are not modelled. This includes the report text at `minimize`'s fixpoint. Only the condition for "Impossible to minimize graph!" is modelled, as written (`Minimize.ImpossibleAsWritten`) and for the corrected loop (`Minimize.ImpossibleToMinimize`).
- `minimize` writes its initial groups to `os` without a null check, so `minimize(graph, null)` throws `NullPointerException`. The stream is not modelled, so neither is this exception.
- The "not determinized" exception in `minimize` is thrown and caught on the spot: it only prints a stack trace, and the model ignores it.
- The `Main` driver is not part of this model.
- Node order inside a block is not modelled. Java keeps a block (`Elem`) as a `TreeSet<Node>` ordered by the difference of hash codes; the model keeps blocks in arena order instead. Because `equalGroup` is an equivalence (`Minimize.EqualGroupEquivalence`), which states end up together is unaffected. What can differ is the block numbering, the representatives, and therefore the `N`-numbers in the result. Hash codes that collide, or whose difference overflows, are not modelled either; in Java they make distinct states compare equal in a block.
- Identifier order: `String.compareTo` compares UTF-16 code units. The model compares Dafny `char`s, which agree on the Basic Multilingual Plane.
- Rename.Rename: requires at most 0xD800 - 65 states. Beyond that, `(char)('A' + i)` enters the surrogate range and then wraps around at 65536, which the model does not represent.
- Determinize.DeterminizeDeterministic: requires that every original state is named by one identifier. This is what `buildGraph` produces.
- Determinize.DeterminizeSimulates: states simulation only without `deleteUnused`, and only one step: the root's own final flag and its own symbol edges. With flags carried over from earlier roots, what a walk collects depends on the earlier walks. The closure is stated for the corrected loop (`Determinize.DeterminizeCorrectedCloses`), and `Determinize.DeterminizeLosesFinal` shows the loop as written falls short of it.
- SimplePass.SimpleBuildSimulates: states the one-step relation only, for any node flags. The full closure, over paths of any length, is `WalkClosure.SimpleBuildSaturates` and `WalkClosure.SimpleBuildExact`, stated for a walk that starts with no node flag set.
- WalkClosure.Saturated: epsilon paths that re-enter the root are not followed, because the walk flags the root before it starts. This matches the source. Nothing is lost in the root's own closure, since the part of such a path after its last visit to the root is itself a path from the root. After a symbol edge, though, the slot collects neither the root nor states reached only through it. The second pass merges members' first-pass states, each of which follows its own closure. What this does to the accepted language is not stated: the model has no language of an automaton with epsilon moves.
- ComplexPass.ComplexEdges: an edge whose target is not a state is skipped. In Java an edge holds the target object itself; in a well-formed arena every target is a state, so this case never arises.
- Minimize.ImpossibleIffNothingMerged: is about the corrected loop. In the bad case (all states final or all non-final, and a first round with two blocks) the loop as written compares two with the number of states and then throws. Three final states `A -a-> B -a-> C` show the difference: the corrected loop separates all three, while the report as written is not "Impossible to minimize graph!". `Minimize.ImpossibleAsWrittenAgrees` and `Minimize.ImpossibleAsWrittenBadStart` state both cases.
- Minimize.ClassesCoarsest: coarsest only among congruences that compare edge lists position by position, as `equalGroup` does. Determinize yields partial automata, so two states can accept the same words with different edge lists: with `X -a-> D`, and `Y` and `D` without edges and nothing final, `X` and `Y` stay apart. Minimality for the accepted language is therefore neither claimed nor true.
- Stack depth is a `stack: nat` budget, and `Failure(StackOverflow)` is returned when it runs out. The actual JVM stack size is not modelled, so the model does not say for which depth Java overflows. Two ends are stated: without epsilon moves one level is enough (`WalkDepth.DeterminizeNeedsOneLevel`), and an epsilon cycle that avoids the root overflows every budget (`WalkDepth.CycleExampleOverflows`). A bound for acyclic epsilon moves in general is not stated.

## Findings

| source | as written | input that shows it | evidently intended | confidence | as-written member | corrected member |
|---|---|---|---|---|---|---|
| src/stateMachine/StateMachine.java:295-300 | `makeUnused(nodes)` runs once before the root loop, so a root's `used` flag stays set while later roots are walked. A later root's epsilon move to that state is then skipped, and its finality is not inherited. | States A (final, no edges) and B (epsilon move to A), empty alphabet: B's new state is not final although B accepts the empty word. | Clear the node flags before every root, as is already done for edge flags. | not executed | SimplePass.PassOneAsWritten, SimplePass.CarryOverLosesFinal, Determinize.Determinize, Determinize.DeterminizeLosesFinal | SimplePass.PassOne, SimplePass.ClearedFlagsKeepFinal, Determinize.DeterminizeCorrected, Determinize.DeterminizeCorrectedCloses |
| src/stateMachine/StateMachine.java:445-524 | Both initial groups are added even when one is empty. If the first round then ends with two blocks, the sizes match and the result is built from the initial groups. `first()` of the empty group throws `NoSuchElementException`. | Two final states A -a-> B, where B has no edges. | Leave an empty initial group out, and start refining from the non-empty groups. | not executed | Minimize.MinimizeAsWritten, Minimize.TwoFinalsShowsEmptyGroup | Minimize.Minimize, Minimize.MinimizeAsWrittenAgrees |

=== FILE: automaton.dfy ===
/**
  The automaton model (Java `StateMachine.Graph` with its nested `Node` and `Edge`).

  Java edges hold references to `Node` objects. Here the states live in an arena, a
  `seq<Node>` in list order, and an edge names its target. `WellFormed` states what the
  references guarantee in Java: no two states share a name and every edge target is a
  state of the arena.
*/
module Automaton {
  import opened Wrappers
  import opened Names

  /** An outgoing transition: its symbol and the name of the state it leads to. */
  datatype Edge = Edge(symbol: string, target: Name)

  /** A state: its name, its outgoing edges in insertion order, whether it accepts. */
  datatype Node = Node(name: Name, edges: seq<Edge>, isFinal: bool)

  /**
    An automaton. `alphabet` is the iteration order of the source's sorted set of
    non-epsilon labels; `lambda` is the epsilon symbol; `initNode` the identifier of
    the initial state.
  */
  datatype Graph = Graph(nodes: seq<Node>, alphabet: seq<string>, lambda: string,
                         initNode: string, determinized: bool)

  /** The Java runtime errors the operations can end in. */
  datatype Fault =
    | StackOverflow       // `StackOverflowError` from unbounded recursion
    | IndexOutOfBounds    // `ArrayIndexOutOfBoundsException` from a -1 symbol index
    | NoSuchElement       // `NoSuchElementException` from `first()` of an empty set

  // ---------------------------------------------------------------------------
  // Lookup by name

  /** Some state of `nodes` is called `n`. */
  predicate Registered(nodes: seq<Node>, n: Name)
  {
    exists i :: 0 <= i < |nodes| && nodes[i].name == n
  }

  /** The position of the first state called `n`, or -1. */
  function IndexOf(nodes: seq<Node>, n: Name): (i: int)
    ensures -1 <= i < |nodes|
    ensures i >= 0 ==> nodes[i].name == n && forall j :: 0 <= j < i ==> nodes[j].name != n
    ensures i == -1 <==> !Registered(nodes, n)
  {
    IndexFrom(nodes, n, 0)
  }

  function IndexFrom(nodes: seq<Node>, n: Name, from: nat): (i: int)
    requires from <= |nodes|
    requires forall j :: 0 <= j < from ==> nodes[j].name != n
    ensures -1 <= i < |nodes|
    ensures i >= 0 ==> nodes[i].name == n && forall j :: 0 <= j < i ==> nodes[j].name != n
    ensures i == -1 <==> !Registered(nodes, n)
    decreases |nodes| - from
  {
    if from == |nodes| then -1
    else if nodes[from].name == n then from
    else IndexFrom(nodes, n, from + 1)
  }

  /** The edges of the state called `n`; a state not yet registered has none. */
  function EdgesOf(nodes: seq<Node>, n: Name): seq<Edge>
  {
    var i := IndexOf(nodes, n);
    if i < 0 then [] else nodes[i].edges
  }

  /** Whether the state called `n` accepts; a state not yet registered does not. */
  function FinalOf(nodes: seq<Node>, n: Name): bool
  {
    var i := IndexOf(nodes, n);
    i >= 0 && nodes[i].isFinal
  }

  // ---------------------------------------------------------------------------
  // Well-formedness

  predicate UniqueNames(nodes: seq<Node>)
  {
    forall i, j :: 0 <= i < j < |nodes| ==> nodes[i].name != nodes[j].name
  }

  /** Every edge leads to a state of the arena (a Java reference always does). */
  predicate Closed(nodes: seq<Node>)
  {
    forall i, k :: 0 <= i < |nodes| && 0 <= k < |nodes[i].edges| ==>
      Registered(nodes, nodes[i].edges[k].target)
  }

  /** No symbol occurs twice (the source keeps the alphabet in a set). */
  predicate Distinct(alphabet: seq<string>)
  {
    forall i, j :: 0 <= i < j < |alphabet| ==> alphabet[i] != alphabet[j]
  }

  predicate WellFormed(g: Graph)
  {
    UniqueNames(g.nodes) && Closed(g.nodes) && Distinct(g.alphabet)
  }

  lemma UniqueIndexOf(nodes: seq<Node>, i: nat)
    requires UniqueNames(nodes) && i < |nodes|
    ensures IndexOf(nodes, nodes[i].name) == i
  {
  }

  /** `r` keeps every state of `t` at its position under its name, and may append more. */
  predicate Grows(t: seq<Node>, r: seq<Node>)
  {
    |r| >= |t| && forall j :: 0 <= j < |t| ==> r[j].name == t[j].name
  }

  lemma GrowsRegistered(t: seq<Node>, r: seq<Node>, n: Name)
    requires Grows(t, r) && Registered(t, n)
    ensures Registered(r, n)
  {
    var j :| 0 <= j < |t| && t[j].name == n;
    assert r[j].name == n;
  }

  // ---------------------------------------------------------------------------
  // Node.getNodeIndex

  /**
    Lookup-or-append: the position of the first state called `name`, appending a
    fresh state with no edges when there is none. When `isFinal` is set, the state
    found is marked final.
  */
  function GetNodeIndex(name: Name, nodes: seq<Node>, isFinal: bool): (r: (nat, seq<Node>))
    ensures r.0 < |r.1| && r.1[r.0].name == name && r.1[r.0].isFinal == (isFinal || FinalOf(nodes, name))
    ensures Grows(nodes, r.1) && |r.1| <= |nodes| + 1
  {
    var i := IndexOf(nodes, name);
    if i >= 0 then
      (i, if isFinal then nodes[i := nodes[i].(isFinal := true)] else nodes)
    else
      (|nodes|, nodes + [Node(name, [], isFinal)])
  }

  /**
    Nothing but the final mark of the state found changes: every other state keeps
    its edges and mark, an existing state is found at its first position, and only a
    missing state is appended (with no edges).
  */
  lemma GetNodeIndexFrame(name: Name, nodes: seq<Node>, isFinal: bool)
    ensures var (i, t) := GetNodeIndex(name, nodes, isFinal);
      && (forall j :: 0 <= j < |nodes| ==>
            t[j].edges == nodes[j].edges && (j != i ==> t[j].isFinal == nodes[j].isFinal))
      && (Registered(nodes, name) <==> |t| == |nodes|)
      && (Registered(nodes, name) ==> i == IndexOf(nodes, name))
      && (!Registered(nodes, name) ==> i == |nodes| && t[i].edges == [])
  {
  }

  /** Asking twice for the same name finds the state the first call returned. */
  lemma GetNodeIndexIdempotent(name: Name, nodes: seq<Node>, isFinal: bool, again: bool)
    ensures var (i, t) := GetNodeIndex(name, nodes, isFinal);
            var (i', t') := GetNodeIndex(name, t, again);
            i' == i && |t'| == |t|
  {
    var (i, t) := GetNodeIndex(name, nodes, isFinal);
    assert Registered(t, name);
  }

  /** Lookup-or-append never introduces a second state with the same name. */
  lemma GetNodeIndexKeepsUnique(name: Name, nodes: seq<Node>, isFinal: bool)
    requires UniqueNames(nodes)
    ensures UniqueNames(GetNodeIndex(name, nodes, isFinal).1)
  {
  }

  lemma GetNodeIndexKeepsClosed(name: Name, nodes: seq<Node>, isFinal: bool)
    requires Closed(nodes)
    ensures Closed(GetNodeIndex(name, nodes, isFinal).1)
  {
    var t := GetNodeIndex(name, nodes, isFinal).1;
    GetNodeIndexFrame(name, nodes, isFinal);
    forall a, k | 0 <= a < |t| && 0 <= k < |t[a].edges|
      ensures Registered(t, t[a].edges[k].target)
    {
      assert a < |nodes| && t[a].edges == nodes[a].edges;
      GrowsRegistered(nodes, t, t[a].edges[k].target);
    }
  }

  // ---------------------------------------------------------------------------
  // Edge.getEdgeIndex

  /** The position of `symbol` in the alphabet, or -1 when it is not there (an epsilon move). */
  function EdgeIndex(symbol: string, alphabet: seq<string>): (i: int)
    ensures -1 <= i < |alphabet|
    ensures i == -1 <==> symbol !in alphabet
    ensures i >= 0 ==> alphabet[i] == symbol && forall j :: 0 <= j < i ==> alphabet[j] != symbol
  {
    EdgeIndexFrom(symbol, alphabet, 0)
  }

  function EdgeIndexFrom(symbol: string, alphabet: seq<string>, from: nat): (i: int)
    requires from <= |alphabet|
    requires forall j :: 0 <= j < from ==> alphabet[j] != symbol
    ensures -1 <= i < |alphabet|
    ensures i == -1 <==> symbol !in alphabet
    ensures i >= 0 ==> alphabet[i] == symbol && forall j :: 0 <= j < i ==> alphabet[j] != symbol
    decreases |alphabet| - from
  {
    if from == |alphabet| then -1
    else if symbol == alphabet[from] then from
    else EdgeIndexFrom(symbol, alphabet, from + 1)
  }

  lemma EdgeIndexOfLabel(alphabet: seq<string>, i: nat)
    requires Distinct(alphabet) && i < |alphabet|
    ensures EdgeIndex(alphabet[i], alphabet) == i
  {
  }

  // ---------------------------------------------------------------------------
  // Per-symbol target accumulators (the `NodeName[] outNodes` arrays)

  /** `outNodes[i] == null ? new NodeName(n) : outNodes[i].addAll(n)` */
  function Merge(slot: Option<Name>, n: Name): Option<Name>
  {
    match slot
    case None => Some(n)
    case Some(s) => Some(s + n)
  }

  /** The identifiers collected in a slot (none for a null slot). */
  function Content(slot: Option<Name>): Name
  {
    if slot.Some? then slot.value else {}
  }

  function NoSlots(n: nat): (out: seq<Option<Name>>)
    ensures |out| == n && forall i :: 0 <= i < n ==> out[i].None?
  {
    seq(n, _ => None)
  }

  /** The edges attached for the non-null slots `i..` of `out`, one per slot, in slot order. */
  function SlotEdges(alphabet: seq<string>, out: seq<Option<Name>>, i: nat): seq<Edge>
    requires |out| == |alphabet| && i <= |alphabet|
    decreases |alphabet| - i
  {
    if i == |alphabet| then []
    else (if out[i].Some? then [Edge(alphabet[i], out[i].value)] else [])
         + SlotEdges(alphabet, out, i + 1)
  }

  /**
    One step of that loop: `getNodeIndex(n, tNodes, false)`, then an edge labelled
    `symbol` towards `n` appended to the edges of the state at `idx`.
  */
  function AttachSlot(nodes: seq<Node>, idx: nat, symbol: string, n: Name): (r: seq<Node>)
    requires idx < |nodes|
    ensures Grows(nodes, r) && |r| <= |nodes| + 1
    ensures r[idx].edges == nodes[idx].edges + [Edge(symbol, n)]
  {
    var t := GetNodeIndex(n, nodes, false).1;
    t[idx := t[idx].(edges := t[idx].edges + [Edge(symbol, n)])]
  }

  /**
    Only the state at `idx` gains an edge; marks are kept; a state appended for `n`
    has no edges and is not final; `n` is registered afterwards.
  */
  lemma AttachSlotFrame(nodes: seq<Node>, idx: nat, symbol: string, n: Name)
    requires idx < |nodes|
    ensures var r := AttachSlot(nodes, idx, symbol, n);
      && (forall j :: 0 <= j < |nodes| ==> r[j].isFinal == nodes[j].isFinal)
      && (forall j :: 0 <= j < |nodes| && j != idx ==> r[j].edges == nodes[j].edges)
      && (|r| > |nodes| ==> r[|nodes|] == Node(n, [], false))
      && Registered(r, n)
  {
    GetNodeIndexFrame(n, nodes, false);
    var (x, t) := GetNodeIndex(n, nodes, false);
    var r := AttachSlot(nodes, idx, symbol, n);
    assert r[x].name == n;
  }

  lemma AttachSlotKeepsUnique(nodes: seq<Node>, idx: nat, symbol: string, n: Name)
    requires idx < |nodes| && UniqueNames(nodes)
    ensures UniqueNames(AttachSlot(nodes, idx, symbol, n))
  {
    GetNodeIndexKeepsUnique(n, nodes, false);
    var t := GetNodeIndex(n, nodes, false).1;
    var r := AttachSlot(nodes, idx, symbol, n);
    assert forall j :: 0 <= j < |r| ==> r[j].name == t[j].name;
  }

  lemma AttachSlotKeepsClosed(nodes: seq<Node>, idx: nat, symbol: string, n: Name)
    requires idx < |nodes| && Closed(nodes)
    ensures Closed(AttachSlot(nodes, idx, symbol, n))
  {
    var r := AttachSlot(nodes, idx, symbol, n);
    AttachSlotFrame(nodes, idx, symbol, n);
    forall a, k | 0 <= a < |r| && 0 <= k < |r[a].edges|
      ensures Registered(r, r[a].edges[k].target)
    {
      if a == idx && k == |nodes[idx].edges| {
      } else if a < |nodes| {
        assert r[a].edges[k] == nodes[a].edges[k];
        GrowsRegistered(nodes, r, r[a].edges[k].target);
      }
    }
  }

  /**
    The loop that ends `simpleBuild` and `complexBuild`: for every non-null slot i,
    register the slot's name and attach an edge labelled `alphabet[i]` to it from the
    state at `idx`.
  */
  function AddEdges(nodes: seq<Node>, idx: nat, alphabet: seq<string>,
                    out: seq<Option<Name>>, i: nat): (r: seq<Node>)
    requires idx < |nodes| && |out| == |alphabet| && i <= |alphabet|
    ensures Grows(nodes, r)
    decreases |alphabet| - i
  {
    if i == |alphabet| then nodes
    else if out[i].None? then AddEdges(nodes, idx, alphabet, out, i + 1)
    else AddEdges(AttachSlot(nodes, idx, alphabet[i], out[i].value), idx, alphabet, out, i + 1)
  }

  lemma AppendAssoc<T>(a: seq<T>, b: seq<T>, c: seq<T>)
    ensures (a + b) + c == a + (b + c)
  {
  }

  /** `AddEdges` changes no final mark. */
  lemma {:induction false} AddEdgesKeepsMarks(nodes: seq<Node>, idx: nat, alphabet: seq<string>,
      out: seq<Option<Name>>, i: nat)
    requires idx < |nodes| && |out| == |alphabet| && i <= |alphabet|
    ensures var r := AddEdges(nodes, idx, alphabet, out, i);
      forall j :: 0 <= j < |nodes| ==> r[j].isFinal == nodes[j].isFinal
    decreases |alphabet| - i
  {
    if i == |alphabet| {
    } else if out[i].None? {
      AddEdgesKeepsMarks(nodes, idx, alphabet, out, i + 1);
    } else {
      AttachSlotFrame(nodes, idx, alphabet[i], out[i].value);
      AddEdgesKeepsMarks(AttachSlot(nodes, idx, alphabet[i], out[i].value), idx, alphabet, out, i + 1);
    }
  }

  /** Only the state at `idx` gains edges. */
  lemma {:induction false} AddEdgesOnlyAtIdx(nodes: seq<Node>, idx: nat, alphabet: seq<string>,
      out: seq<Option<Name>>, i: nat)
    requires idx < |nodes| && |out| == |alphabet| && i <= |alphabet|
    ensures var r := AddEdges(nodes, idx, alphabet, out, i);
      forall j :: 0 <= j < |nodes| && j != idx ==> r[j].edges == nodes[j].edges
    decreases |alphabet| - i
  {
    if i == |alphabet| {
    } else if out[i].None? {
      AddEdgesOnlyAtIdx(nodes, idx, alphabet, out, i + 1);
    } else {
      AttachSlotFrame(nodes, idx, alphabet[i], out[i].value);
      AddEdgesOnlyAtIdx(AttachSlot(nodes, idx, alphabet[i], out[i].value), idx, alphabet, out, i + 1);
    }
  }

  /** The state at `idx` gains one edge per non-null slot, in slot order. */
  lemma {:induction false} AddEdgesAttaches(nodes: seq<Node>, idx: nat, alphabet: seq<string>,
      out: seq<Option<Name>>, i: nat)
    requires idx < |nodes| && |out| == |alphabet| && i <= |alphabet|
    ensures var r := AddEdges(nodes, idx, alphabet, out, i);
      r[idx].edges == nodes[idx].edges + SlotEdges(alphabet, out, i)
    decreases |alphabet| - i
  {
    if i == |alphabet| {
    } else if out[i].None? {
      AddEdgesAttaches(nodes, idx, alphabet, out, i + 1);
    } else {
      var t := AttachSlot(nodes, idx, alphabet[i], out[i].value);
      var e := Edge(alphabet[i], out[i].value);
      AddEdgesAttaches(t, idx, alphabet, out, i + 1);
      AppendAssoc(nodes[idx].edges, [e], SlotEdges(alphabet, out, i + 1));
    }
  }

  /** Registering appends only states with no edges that are not final. */
  lemma {:induction false} AddEdgesAppendsFresh(nodes: seq<Node>, idx: nat, alphabet: seq<string>,
      out: seq<Option<Name>>, i: nat)
    requires idx < |nodes| && |out| == |alphabet| && i <= |alphabet|
    ensures var r := AddEdges(nodes, idx, alphabet, out, i);
      forall j :: |nodes| <= j < |r| ==> r[j].edges == [] && !r[j].isFinal
    decreases |alphabet| - i
  {
    if i == |alphabet| {
    } else if out[i].None? {
      AddEdgesAppendsFresh(nodes, idx, alphabet, out, i + 1);
      assert AddEdges(nodes, idx, alphabet, out, i) == AddEdges(nodes, idx, alphabet, out, i + 1);
    } else {
      AttachSlotFrame(nodes, idx, alphabet[i], out[i].value);
      var t := AttachSlot(nodes, idx, alphabet[i], out[i].value);
      AddEdgesAppendsFresh(t, idx, alphabet, out, i + 1);
      AddEdgesKeepsMarks(t, idx, alphabet, out, i + 1);
      AddEdgesOnlyAtIdx(t, idx, alphabet, out, i + 1);
    }
  }

  /** After `AddEdges` every non-null slot names a registered state. */
  lemma {:induction false} AddEdgesRegisters(nodes: seq<Node>, idx: nat, alphabet: seq<string>,
                                             out: seq<Option<Name>>, i: nat)
    requires idx < |nodes| && |out| == |alphabet| && i <= |alphabet|
    ensures forall k :: i <= k < |out| && out[k].Some? ==>
      Registered(AddEdges(nodes, idx, alphabet, out, i), out[k].value)
    decreases |alphabet| - i
  {
    if i == |alphabet| {
    } else if out[i].None? {
      AddEdgesRegisters(nodes, idx, alphabet, out, i + 1);
    } else {
      var t := AttachSlot(nodes, idx, alphabet[i], out[i].value);
      AttachSlotFrame(nodes, idx, alphabet[i], out[i].value);
      AddEdgesRegisters(t, idx, alphabet, out, i + 1);
      GrowsRegistered(t, AddEdges(t, idx, alphabet, out, i + 1), out[i].value);
    }
  }

  /** Every state name is made of identifiers from `U`. */
  predicate NamesWithin(nodes: seq<Node>, U: set<string>)
  {
    forall j :: 0 <= j < |nodes| ==> nodes[j].name <= U
  }

  /** Every identifier occurring in a state name of `nodes`. */
  function Idents(nodes: seq<Node>): (u: set<string>)
    ensures NamesWithin(nodes, u)
  {
    if nodes == [] then {}
    else
      var init := nodes[..|nodes| - 1];
      assert forall j :: 0 <= j < |init| ==> init[j] == nodes[j];
      Idents(init) + nodes[|nodes| - 1].name
  }

  /** Every non-null slot is made of identifiers from `U`. */
  predicate SlotsWithin(out: seq<Option<Name>>, U: set<string>)
  {
    forall k :: 0 <= k < |out| ==> Content(out[k]) <= U
  }

  lemma AttachSlotWithin(nodes: seq<Node>, idx: nat, symbol: string, n: Name, U: set<string>)
    requires idx < |nodes| && NamesWithin(nodes, U) && n <= U
    ensures NamesWithin(AttachSlot(nodes, idx, symbol, n), U)
  {
    var t := AttachSlot(nodes, idx, symbol, n);
    AttachSlotFrame(nodes, idx, symbol, n);
    forall j | 0 <= j < |t| ensures t[j].name <= U {
      if j < |nodes| {
        assert t[j].name == nodes[j].name;
      }
    }
  }

  /** The states `AddEdges` appends are named by slots, so stay within `U`. */
  lemma {:induction false} AddEdgesWithin(nodes: seq<Node>, idx: nat, alphabet: seq<string>,
                                          out: seq<Option<Name>>, i: nat, U: set<string>)
    requires idx < |nodes| && |out| == |alphabet| && i <= |alphabet|
    requires NamesWithin(nodes, U) && SlotsWithin(out, U)
    ensures NamesWithin(AddEdges(nodes, idx, alphabet, out, i), U)
    decreases |alphabet| - i
  {
    if i == |alphabet| {
    } else if out[i].None? {
      AddEdgesWithin(nodes, idx, alphabet, out, i + 1, U);
    } else {
      assert Content(out[i]) == out[i].value;
      AttachSlotWithin(nodes, idx, alphabet[i], out[i].value, U);
      AddEdgesWithin(AttachSlot(nodes, idx, alphabet[i], out[i].value), idx, alphabet, out, i + 1, U);
    }
  }

  /** `AddEdges` keeps names unique. */
  lemma {:induction false} AddEdgesKeepsUnique(nodes: seq<Node>, idx: nat, alphabet: seq<string>,
                                               out: seq<Option<Name>>, i: nat)
    requires idx < |nodes| && |out| == |alphabet| && i <= |alphabet|
    requires UniqueNames(nodes)
    ensures UniqueNames(AddEdges(nodes, idx, alphabet, out, i))
    decreases |alphabet| - i
  {
    if i == |alphabet| {
    } else if out[i].None? {
      AddEdgesKeepsUnique(nodes, idx, alphabet, out, i + 1);
    } else {
      AttachSlotKeepsUnique(nodes, idx, alphabet[i], out[i].value);
      AddEdgesKeepsUnique(AttachSlot(nodes, idx, alphabet[i], out[i].value), idx, alphabet, out, i + 1);
    }
  }

  /** `AddEdges` keeps every edge target registered. */
  lemma {:induction false} AddEdgesKeepsClosed(nodes: seq<Node>, idx: nat, alphabet: seq<string>,
                                               out: seq<Option<Name>>, i: nat)
    requires idx < |nodes| && |out| == |alphabet| && i <= |alphabet|
    requires Closed(nodes)
    ensures Closed(AddEdges(nodes, idx, alphabet, out, i))
    decreases |alphabet| - i
  {
    if i == |alphabet| {
    } else if out[i].None? {
      AddEdgesKeepsClosed(nodes, idx, alphabet, out, i + 1);
    } else {
      AttachSlotKeepsClosed(nodes, idx, alphabet[i], out[i].value);
      AddEdgesKeepsClosed(AttachSlot(nodes, idx, alphabet[i], out[i].value), idx, alphabet, out, i + 1);
    }
  }

  // ---------------------------------------------------------------------------
  // Registration of a built state

  /**
    The step that ends `simpleBuild` and `complexBuild`: look up (or append) the
    state called `name`, mark it final when `isFinal` is set, and attach one edge
    per non-null slot to it.
  */
  function Register(nodes: seq<Node>, name: Name, isFinal: bool, alphabet: seq<string>,
                    out: seq<Option<Name>>): (r: seq<Node>)
    requires |out| == |alphabet|
    ensures Grows(nodes, r)
    ensures GetNodeIndex(name, nodes, isFinal).0 < |r| && r[GetNodeIndex(name, nodes, isFinal).0].name == name
  {
    var (idx, t) := GetNodeIndex(name, nodes, isFinal);
    AddEdges(t, idx, alphabet, out, 0)
  }

  /**
    The state registered keeps the edges it had (none if it is new), gains the slot
    edges, and is final when it was or when `isFinal` is set.
  */
  lemma RegisterAt(nodes: seq<Node>, name: Name, isFinal: bool, alphabet: seq<string>, out: seq<Option<Name>>)
    requires |out| == |alphabet|
    ensures var x := GetNodeIndex(name, nodes, isFinal).0;
            var r := Register(nodes, name, isFinal, alphabet, out);
      && r[x].edges == (if Registered(nodes, name) then nodes[x].edges else []) + SlotEdges(alphabet, out, 0)
      && r[x].isFinal == (isFinal || FinalOf(nodes, name))
  {
    var (x, t) := GetNodeIndex(name, nodes, isFinal);
    GetNodeIndexFrame(name, nodes, isFinal);
    AddEdgesAttaches(t, x, alphabet, out, 0);
    AddEdgesKeepsMarks(t, x, alphabet, out, 0);
  }

  /** Every other state present before is unchanged. */
  lemma RegisterElsewhere(nodes: seq<Node>, name: Name, isFinal: bool, alphabet: seq<string>, out: seq<Option<Name>>)
    requires |out| == |alphabet|
    ensures var x := GetNodeIndex(name, nodes, isFinal).0;
            var r := Register(nodes, name, isFinal, alphabet, out);
      forall j :: 0 <= j < |nodes| && j != x ==> r[j] == nodes[j]
  {
    var (x, t) := GetNodeIndex(name, nodes, isFinal);
    GetNodeIndexFrame(name, nodes, isFinal);
    AddEdgesOnlyAtIdx(t, x, alphabet, out, 0);
    AddEdgesKeepsMarks(t, x, alphabet, out, 0);
  }

  /** Every state appended for a slot has no edges and is not final. */
  lemma RegisterAppends(nodes: seq<Node>, name: Name, isFinal: bool, alphabet: seq<string>, out: seq<Option<Name>>)
    requires |out| == |alphabet|
    ensures var x := GetNodeIndex(name, nodes, isFinal).0;
            var r := Register(nodes, name, isFinal, alphabet, out);
      forall j :: |nodes| <= j < |r| && j != x ==> r[j].edges == [] && !r[j].isFinal
  {
    var (x, t) := GetNodeIndex(name, nodes, isFinal);
    GetNodeIndexFrame(name, nodes, isFinal);
    AddEdgesAppendsFresh(t, x, alphabet, out, 0);
    AddEdgesOnlyAtIdx(t, x, alphabet, out, 0);
    AddEdgesKeepsMarks(t, x, alphabet, out, 0);
  }

  lemma RegisterKeepsUnique(nodes: seq<Node>, name: Name, isFinal: bool, alphabet: seq<string>, out: seq<Option<Name>>)
    requires |out| == |alphabet| && UniqueNames(nodes)
    ensures UniqueNames(Register(nodes, name, isFinal, alphabet, out))
  {
    var (x, t) := GetNodeIndex(name, nodes, isFinal);
    GetNodeIndexKeepsUnique(name, nodes, isFinal);
    AddEdgesKeepsUnique(t, x, alphabet, out, 0);
  }

  /** Registration keeps every edge target registered: the slot names are registered too. */
  lemma RegisterKeepsClosed(nodes: seq<Node>, name: Name, isFinal: bool, alphabet: seq<string>, out: seq<Option<Name>>)
    requires |out| == |alphabet| && Closed(nodes)
    ensures Closed(Register(nodes, name, isFinal, alphabet, out))
  {
    var (x, t) := GetNodeIndex(name, nodes, isFinal);
    GetNodeIndexKeepsClosed(name, nodes, isFinal);
    AddEdgesKeepsClosed(t, x, alphabet, out, 0);
  }

  lemma RegisterWithin(nodes: seq<Node>, name: Name, isFinal: bool, alphabet: seq<string>,
                       out: seq<Option<Name>>, U: set<string>)
    requires |out| == |alphabet| && NamesWithin(nodes, U) && name <= U && SlotsWithin(out, U)
    ensures NamesWithin(Register(nodes, name, isFinal, alphabet, out), U)
  {
    var (x, t) := GetNodeIndex(name, nodes, isFinal);
    GetNodeIndexFrame(name, nodes, isFinal);
    assert NamesWithin(t, U) by {
      forall j | 0 <= j < |t| ensures t[j].name <= U {
        if j < |nodes| {
          assert t[j].name == nodes[j].name;
        }
      }
    }
    AddEdgesWithin(t, x, alphabet, out, 0, U);
  }

  // ---------------------------------------------------------------------------
  // Determinism

  /**
    Every symbol is in the alphabet and the labels occur in strictly increasing
    alphabet order: at most one edge per symbol, none with the epsilon symbol.
  */
  predicate Ordered(edges: seq<Edge>, alphabet: seq<string>)
  {
    && (forall k :: 0 <= k < |edges| ==> edges[k].symbol in alphabet)
    && (forall k, k' :: 0 <= k < k' < |edges| ==>
          EdgeIndex(edges[k].symbol, alphabet) < EdgeIndex(edges[k'].symbol, alphabet))
  }

  predicate Deterministic(nodes: seq<Node>, alphabet: seq<string>)
  {
    forall j :: 0 <= j < |nodes| ==> Ordered(nodes[j].edges, alphabet)
  }

  /** An ordered edge list has no two edges with one symbol. */
  lemma OrderedIsDeterministic(edges: seq<Edge>, alphabet: seq<string>, k: nat, k': nat)
    requires Ordered(edges, alphabet) && k < |edges| && k' < |edges| && k != k'
    ensures edges[k].symbol != edges[k'].symbol
  {
  }

  /** The slot edges are ordered, and all their labels come from slots `i..`. */
  lemma {:induction false} SlotEdgesOrdered(alphabet: seq<string>, out: seq<Option<Name>>, i: nat)
    requires Distinct(alphabet) && |out| == |alphabet| && i <= |alphabet|
    ensures Ordered(SlotEdges(alphabet, out, i), alphabet)
    ensures forall k :: 0 <= k < |SlotEdges(alphabet, out, i)| ==>
      EdgeIndex(SlotEdges(alphabet, out, i)[k].symbol, alphabet) >= i
    decreases |alphabet| - i
  {
    if i < |alphabet| {
      SlotEdgesOrdered(alphabet, out, i + 1);
      EdgeIndexOfLabel(alphabet, i);
    }
  }

  /** A slot edge exists for exactly the non-null slots, and carries the slot's name. */
  lemma {:induction false} SlotEdgesContents(alphabet: seq<string>, out: seq<Option<Name>>, i: nat, j: nat)
    requires Distinct(alphabet) && |out| == |alphabet| && i <= j < |alphabet|
    ensures out[j].Some? <==> exists e :: e in SlotEdges(alphabet, out, i) && e.symbol == alphabet[j]
    ensures forall e :: e in SlotEdges(alphabet, out, i) && e.symbol == alphabet[j] ==>
      e.target == out[j].value
    decreases |alphabet| - i
  {
    if i < j {
      SlotEdgesContents(alphabet, out, i + 1, j);
    } else {
      var rest := SlotEdges(alphabet, out, i + 1);
      SlotEdgesOrdered(alphabet, out, i + 1);
      EdgeIndexOfLabel(alphabet, j);
      forall e | e in rest
        ensures e.symbol != alphabet[j]
      {
        var k :| 0 <= k < |rest| && rest[k] == e;
      }
      if out[j].Some? {
        assert SlotEdges(alphabet, out, i)[0] == Edge(alphabet[j], out[j].value);
      }
    }
  }
}

=== FILE: complex_pass.dfy ===
/**
  The second pass of `determinize` (Java `complexBuild`): a depth-first walk of the
  states reachable from the initial one, over the arena the first pass built. Every
  composite state (a name with several identifiers) met for the first time is
  expanded by the subset construction: it accepts when one of its members accepts,
  and its edge on each symbol leads to the union of its members' targets on that
  symbol.
*/
module ComplexPass {
  import opened Wrappers
  import opened Names
  import opened Automaton

  // ---------------------------------------------------------------------------
  // Identifier universe (the termination argument)

  /** Every state name and every edge target of `t` is made of identifiers from `U`. */
  predicate Within(t: seq<Node>, U: set<string>)
  {
    && NamesWithin(t, U)
    && forall j, k :: 0 <= j < |t| && 0 <= k < |t[j].edges| ==> t[j].edges[k].target <= U
  }

  /** Every identifier occurring in a target of `edges`. */
  function TargetIdents(edges: seq<Edge>): (u: set<string>)
    ensures forall k :: 0 <= k < |edges| ==> edges[k].target <= u
  {
    if edges == [] then {}
    else TargetIdents(edges[1..]) + edges[0].target
  }

  /** Every identifier occurring in `t`. */
  function Universe(t: seq<Node>): (u: set<string>)
    ensures Within(t, u)
  {
    if t == [] then {}
    else
      var init := t[..|t| - 1];
      assert forall j :: 0 <= j < |init| ==> init[j] == t[j];
      Universe(init) + t[|t| - 1].name + TargetIdents(t[|t| - 1].edges)
  }

  /** Every possible state name over `U`: the walk visits each at most once. */
  ghost function PowerSet(U: set<string>): set<Name>
  {
    set s: set<string> | s <= U
  }

  // ---------------------------------------------------------------------------
  // Expansion of a composite state

  /**
    Merge the targets of `edges[k..]` into the slots of their symbols. A symbol
    outside the alphabet has index -1, and the source then indexes the slot array
    with -1.
  */
  function MergeEdges(edges: seq<Edge>, k: nat, alphabet: seq<string>,
                      out: seq<Option<Name>>): (r: Result<seq<Option<Name>>, Fault>)
    requires k <= |edges| && |out| == |alphabet|
    ensures r.Success? ==> |r.value| == |alphabet|
    decreases |edges| - k
  {
    if k == |edges| then Success(out)
    else
      var ei := EdgeIndex(edges[k].symbol, alphabet);
      if ei < 0 then Failure(IndexOutOfBounds)
      else MergeEdges(edges, k + 1, alphabet, out[ei := Merge(out[ei], edges[k].target)])
  }

  /**
    The member loop: for each identifier `ms[i..]` in tree-set order, look up (or
    append) its singleton state, fold its mark into `isFinal` and its edges into
    the slots.
  */
  function Collect(t: seq<Node>, ms: seq<string>, i: nat, alphabet: seq<string>,
                   out: seq<Option<Name>>, isFinal: bool): (r: Result<(seq<Node>, seq<Option<Name>>, bool), Fault>)
    requires i <= |ms| && |out| == |alphabet|
    ensures r.Success? ==> Grows(t, r.value.0) && |r.value.1| == |alphabet|
    decreases |ms| - i
  {
    if i == |ms| then Success((t, out, isFinal))
    else
      var (x, t1) := GetNodeIndex({ms[i]}, t, false);
      match MergeEdges(t1[x].edges, 0, alphabet, out)
      case Failure(f) => Failure(f)
      case Success(out1) => Collect(t1, ms, i + 1, alphabet, out1, isFinal || t1[x].isFinal)
  }

  /**
    Expansion of the composite state at `idx`: collect over its members, then mark
    it final when a member is and attach one edge per non-null slot.
  */
  function Expand(t: seq<Node>, idx: nat, alphabet: seq<string>): (r: Result<seq<Node>, Fault>)
    requires idx < |t|
    ensures r.Success? ==> Grows(t, r.value)
  {
    var n := t[idx].name;
    match Collect(t, Sort(n), 0, alphabet, NoSlots(|alphabet|), false)
    case Failure(f) => Failure(f)
    case Success((t1, out, isFinal)) => Success(Register(t1, n, isFinal, alphabet, out))
  }

  // ---------------------------------------------------------------------------
  // The walk

  /**
    `complexBuild` on the state at `idx`: mark its name used, expand it when it is
    composite, then walk its edges. `used` is the set of names marked so far; the
    result is the arena and the names marked at the end.
  */
  function ComplexBuild(t: seq<Node>, idx: nat, alphabet: seq<string>, used: set<Name>,
                        ghost U: set<string>): (r: Result<(seq<Node>, set<Name>), Fault>)
    requires idx < |t| && t[idx].name !in used && Within(t, U)
    ensures r.Success? ==> Within(r.value.0, U) && used <= r.value.1
    decreases PowerSet(U) - used, 1, 0
  {
    var n := t[idx].name;
    assert n in PowerSet(U);
    var expanded := if |n| > 1 then Expand(t, idx, alphabet) else Success(t);
    match expanded
    case Failure(f) => Failure(f)
    case Success(t1) =>
      ExpandWithin(t, idx, alphabet, U);
      ComplexEdges(t1, t1[idx].edges, 0, alphabet, used + {n}, U)
  }

  /** The loop over the edges of an expanded state: descend into every target not yet used. */
  function ComplexEdges(t: seq<Node>, edges: seq<Edge>, k: nat, alphabet: seq<string>,
                        used: set<Name>, ghost U: set<string>): (r: Result<(seq<Node>, set<Name>), Fault>)
    requires k <= |edges| && Within(t, U)
    ensures r.Success? ==> Within(r.value.0, U) && used <= r.value.1
    decreases PowerSet(U) - used, 2, |edges| - k
  {
    if k == |edges| then Success((t, used))
    else
      var j := IndexOf(t, edges[k].target);
      if j < 0 || edges[k].target in used then ComplexEdges(t, edges, k + 1, alphabet, used, U)
      else
        match ComplexBuild(t, j, alphabet, used, U)
        case Failure(f) => Failure(f)
        case Success((t1, used1)) =>
          assert PowerSet(U) - used1 <= PowerSet(U) - used;
          ComplexEdges(t1, edges, k + 1, alphabet, used1, U)
  }

  // ---------------------------------------------------------------------------
  // Identifiers stay within the universe

  lemma {:induction false} MergeEdgesWithin(edges: seq<Edge>, k: nat, alphabet: seq<string>,
                                            out: seq<Option<Name>>, U: set<string>)
    requires k <= |edges| && |out| == |alphabet| && SlotsWithin(out, U)
    requires forall k' :: 0 <= k' < |edges| ==> edges[k'].target <= U
    ensures var r := MergeEdges(edges, k, alphabet, out);
      r.Success? ==> SlotsWithin(r.value, U)
    decreases |edges| - k
  {
    if k < |edges| {
      var ei := EdgeIndex(edges[k].symbol, alphabet);
      if ei >= 0 {
        var out1 := out[ei := Merge(out[ei], edges[k].target)];
        assert SlotsWithin(out1, U) by {
          forall s | 0 <= s < |out1| ensures Content(out1[s]) <= U {
            if s != ei {
              assert out1[s] == out[s];
            }
          }
        }
        MergeEdgesWithin(edges, k + 1, alphabet, out1, U);
      }
    }
  }

  lemma {:induction false} CollectWithin(t: seq<Node>, ms: seq<string>, i: nat, alphabet: seq<string>,
                                         out: seq<Option<Name>>, isFinal: bool, U: set<string>)
    requires i <= |ms| && |out| == |alphabet| && Within(t, U) && SlotsWithin(out, U)
    requires forall m :: m in ms ==> m in U
    ensures var r := Collect(t, ms, i, alphabet, out, isFinal);
      r.Success? ==> Within(r.value.0, U) && SlotsWithin(r.value.1, U)
    decreases |ms| - i
  {
    if i < |ms| {
      var (x, t1) := GetNodeIndex({ms[i]}, t, false);
      GetNodeIndexFrame({ms[i]}, t, false);
      assert Within(t1, U) by {
        forall j, k | 0 <= j < |t1| && 0 <= k < |t1[j].edges|
          ensures t1[j].edges[k].target <= U
        {
          assert j < |t|;
        }
        forall j | 0 <= j < |t1| ensures t1[j].name <= U {
          if j < |t| {
            assert t1[j].name == t[j].name;
          }
        }
      }
      MergeEdgesWithin(t1[x].edges, 0, alphabet, out, U);
      match MergeEdges(t1[x].edges, 0, alphabet, out)
      case Failure(_) =>
      case Success(out1) =>
        CollectWithin(t1, ms, i + 1, alphabet, out1, isFinal || t1[x].isFinal, U);
    }
  }

  lemma RegisterKeepsWithin(t: seq<Node>, name: Name, isFinal: bool, alphabet: seq<string>,
                            out: seq<Option<Name>>, U: set<string>)
    requires |out| == |alphabet| && Within(t, U) && name <= U && SlotsWithin(out, U)
    ensures Within(Register(t, name, isFinal, alphabet, out), U)
  {
    var r := Register(t, name, isFinal, alphabet, out);
    RegisterWithin(t, name, isFinal, alphabet, out, U);
    RegisterAt(t, name, isFinal, alphabet, out);
    RegisterElsewhere(t, name, isFinal, alphabet, out);
    RegisterAppends(t, name, isFinal, alphabet, out);
    var x := GetNodeIndex(name, t, isFinal).0;
    forall j, k | 0 <= j < |r| && 0 <= k < |r[j].edges|
      ensures r[j].edges[k].target <= U
    {
      if j == x {
        var before := if Registered(t, name) then t[x].edges else [];
        var slots := SlotEdges(alphabet, out, 0);
        assert r[j].edges == before + slots;
        if k >= |before| {
          SlotEdgesWithin(alphabet, out, 0, U);
          assert r[j].edges[k] == slots[k - |before|];
        }
      }
    }
  }

  lemma {:induction false} SlotEdgesWithin(alphabet: seq<string>, out: seq<Option<Name>>, i: nat, U: set<string>)
    requires |out| == |alphabet| && i <= |alphabet| && SlotsWithin(out, U)
    ensures forall k :: 0 <= k < |SlotEdges(alphabet, out, i)| ==> SlotEdges(alphabet, out, i)[k].target <= U
    decreases |alphabet| - i
  {
    if i < |alphabet| {
      SlotEdgesWithin(alphabet, out, i + 1, U);
      assert Content(out[i]) <= U;
    }
  }

  lemma ExpandWithin(t: seq<Node>, idx: nat, alphabet: seq<string>, U: set<string>)
    requires idx < |t| && Within(t, U)
    ensures var r := Expand(t, idx, alphabet);
      r.Success? ==> Within(r.value, U)
  {
    var n := t[idx].name;
    assert n <= U;
    assert SlotsWithin(NoSlots(|alphabet|), U);
    CollectWithin(t, Sort(n), 0, alphabet, NoSlots(|alphabet|), false, U);
    match Collect(t, Sort(n), 0, alphabet, NoSlots(|alphabet|), false)
    case Failure(_) =>
    case Success((t1, out, isFinal)) =>
      RegisterKeepsWithin(t1, n, isFinal, alphabet, out, U);
  }

  // ---------------------------------------------------------------------------
  // Lookups are kept when only fresh states are appended

  /** `r` is `t` followed by states with no edges that do not accept. */
  predicate Extends(t: seq<Node>, r: seq<Node>)
  {
    && |r| >= |t|
    && (forall j :: 0 <= j < |t| ==> r[j] == t[j])
    && (forall j :: |t| <= j < |r| ==> r[j].edges == [] && !r[j].isFinal)
  }

  lemma ExtendsTransitive(a: seq<Node>, b: seq<Node>, c: seq<Node>)
    requires Extends(a, b) && Extends(b, c)
    ensures Extends(a, c)
  {
  }

  /** The edges and the mark found under any name are the same in `r` as in `t`. */
  lemma ExtendsLookup(t: seq<Node>, r: seq<Node>, n: Name)
    requires Extends(t, r)
    ensures EdgesOf(r, n) == EdgesOf(t, n) && FinalOf(r, n) == FinalOf(t, n)
  {
    var i := IndexOf(t, n);
    var i' := IndexOf(r, n);
    if i >= 0 {
      assert r[i].name == n;
      assert i' == i;
    }
  }

  lemma GetNodeIndexExtends(name: Name, t: seq<Node>)
    ensures Extends(t, GetNodeIndex(name, t, false).1)
  {
    GetNodeIndexFrame(name, t, false);
  }

  // ---------------------------------------------------------------------------
  // What the slots collect

  /** Some edge of `edges` carries `symbol`. */
  predicate Labels(edges: seq<Edge>, symbol: string)
  {
    exists e :: e in edges && e.symbol == symbol
  }

  /** Some edge of `edges` carries `symbol` to a name containing `x`. */
  predicate Carries(edges: seq<Edge>, symbol: string, x: string)
  {
    exists e :: e in edges && e.symbol == symbol && x in e.target
  }

  /** Some edge of `edges` carries a symbol outside the alphabet. */
  predicate Stray(edges: seq<Edge>, alphabet: seq<string>)
  {
    exists e :: e in edges && e.symbol !in alphabet
  }

  lemma {:induction false} MergeEdgesFails(edges: seq<Edge>, k: nat, alphabet: seq<string>, out: seq<Option<Name>>)
    requires k <= |edges| && |out| == |alphabet|
    ensures MergeEdges(edges, k, alphabet, out).Failure? <==> Stray(edges[k..], alphabet)
    decreases |edges| - k
  {
    if k < |edges| {
      assert edges[k..] == [edges[k]] + edges[k + 1..];
      var ei := EdgeIndex(edges[k].symbol, alphabet);
      if ei >= 0 {
        MergeEdgesFails(edges, k + 1, alphabet, out[ei := Merge(out[ei], edges[k].target)]);
      } else {
        assert edges[k] in edges[k..];
      }
    }
  }

  lemma {:induction false} MergeEdgesLabels(edges: seq<Edge>, k: nat, alphabet: seq<string>,
                                            out: seq<Option<Name>>, j: nat)
    requires k <= |edges| && |out| == |alphabet| && Distinct(alphabet) && j < |alphabet|
    ensures var r := MergeEdges(edges, k, alphabet, out);
      r.Success? ==> (r.value[j].Some? <==> out[j].Some? || Labels(edges[k..], alphabet[j]))
    decreases |edges| - k
  {
    if k < |edges| {
      assert edges[k..] == [edges[k]] + edges[k + 1..];
      var ei := EdgeIndex(edges[k].symbol, alphabet);
      if ei >= 0 {
        EdgeIndexOfLabel(alphabet, j);
        MergeEdgesLabels(edges, k + 1, alphabet, out[ei := Merge(out[ei], edges[k].target)], j);
      }
    }
  }

  lemma {:induction false} MergeEdgesCarries(edges: seq<Edge>, k: nat, alphabet: seq<string>,
                                             out: seq<Option<Name>>, j: nat, x: string)
    requires k <= |edges| && |out| == |alphabet| && Distinct(alphabet) && j < |alphabet|
    ensures var r := MergeEdges(edges, k, alphabet, out);
      r.Success? ==> (x in Content(r.value[j]) <==> x in Content(out[j]) || Carries(edges[k..], alphabet[j], x))
    decreases |edges| - k
  {
    if k < |edges| {
      assert edges[k..] == [edges[k]] + edges[k + 1..];
      var ei := EdgeIndex(edges[k].symbol, alphabet);
      if ei >= 0 {
        EdgeIndexOfLabel(alphabet, j);
        MergeEdgesCarries(edges, k + 1, alphabet, out[ei := Merge(out[ei], edges[k].target)], j, x);
      }
    }
  }

  /** The state `GetNodeIndex` returns carries the edges found under its name before. */
  lemma GetNodeIndexEdges(name: Name, t: seq<Node>)
    ensures var (x, t1) := GetNodeIndex(name, t, false);
      t1[x].edges == EdgesOf(t, name)
  {
    GetNodeIndexFrame(name, t, false);
  }

  /** The member loop only appends fresh singleton states. */
  lemma {:induction false} CollectExtends(t: seq<Node>, ms: seq<string>, i: nat, alphabet: seq<string>,
                                          out: seq<Option<Name>>, isFinal: bool)
    requires i <= |ms| && |out| == |alphabet|
    ensures var r := Collect(t, ms, i, alphabet, out, isFinal);
      r.Success? ==> Extends(t, r.value.0)
    decreases |ms| - i
  {
    if i < |ms| {
      var (x, t1) := GetNodeIndex({ms[i]}, t, false);
      GetNodeIndexExtends({ms[i]}, t);
      match MergeEdges(t1[x].edges, 0, alphabet, out)
      case Failure(_) =>
      case Success(out1) =>
        CollectExtends(t1, ms, i + 1, alphabet, out1, isFinal || t1[x].isFinal);
        var r := Collect(t1, ms, i + 1, alphabet, out1, isFinal || t1[x].isFinal);
        if r.Success? {
          ExtendsTransitive(t, t1, r.value.0);
        }
    }
  }

  /** The member loop fails exactly when some member has an edge whose symbol is outside the alphabet. */
  lemma {:induction false} CollectFails(t: seq<Node>, ms: seq<string>, i: nat, alphabet: seq<string>,
                                        out: seq<Option<Name>>, isFinal: bool)
    requires i <= |ms| && |out| == |alphabet|
    ensures Collect(t, ms, i, alphabet, out, isFinal).Failure? <==>
      exists m :: m in ms[i..] && Stray(EdgesOf(t, {m}), alphabet)
    decreases |ms| - i
  {
    if i < |ms| {
      assert ms[i..] == [ms[i]] + ms[i + 1..];
      var (x, t1) := GetNodeIndex({ms[i]}, t, false);
      GetNodeIndexExtends({ms[i]}, t);
      GetNodeIndexEdges({ms[i]}, t);
      MergeEdgesFails(t1[x].edges, 0, alphabet, out);
      assert t1[x].edges[0..] == t1[x].edges;
      forall m ensures EdgesOf(t1, {m}) == EdgesOf(t, {m}) {
        ExtendsLookup(t, t1, {m});
      }
      match MergeEdges(t1[x].edges, 0, alphabet, out)
      case Failure(_) =>
      case Success(out1) =>
        CollectFails(t1, ms, i + 1, alphabet, out1, isFinal || t1[x].isFinal);
    }
  }

  /** The collected mark: set when it was, or when some member accepts. */
  lemma {:induction false} CollectFinal(t: seq<Node>, ms: seq<string>, i: nat, alphabet: seq<string>,
                                        out: seq<Option<Name>>, isFinal: bool)
    requires i <= |ms| && |out| == |alphabet|
    ensures var r := Collect(t, ms, i, alphabet, out, isFinal);
      r.Success? ==> (r.value.2 <==> isFinal || exists m :: m in ms[i..] && FinalOf(t, {m}))
    decreases |ms| - i
  {
    if i < |ms| {
      assert ms[i..] == [ms[i]] + ms[i + 1..];
      var (x, t1) := GetNodeIndex({ms[i]}, t, false);
      GetNodeIndexExtends({ms[i]}, t);
      forall m ensures FinalOf(t1, {m}) == FinalOf(t, {m}) {
        ExtendsLookup(t, t1, {m});
      }
      match MergeEdges(t1[x].edges, 0, alphabet, out)
      case Failure(_) =>
      case Success(out1) =>
        CollectFinal(t1, ms, i + 1, alphabet, out1, isFinal || t1[x].isFinal);
    }
  }

  /** Slot `j` is non-null exactly when it was, or some member has an edge on `alphabet[j]`. */
  lemma {:induction false} CollectLabels(t: seq<Node>, ms: seq<string>, i: nat, alphabet: seq<string>,
                                         out: seq<Option<Name>>, isFinal: bool, j: nat)
    requires i <= |ms| && |out| == |alphabet| && Distinct(alphabet) && j < |alphabet|
    ensures var r := Collect(t, ms, i, alphabet, out, isFinal);
      r.Success? ==> (r.value.1[j].Some? <==>
        out[j].Some? || exists m :: m in ms[i..] && Labels(EdgesOf(t, {m}), alphabet[j]))
    decreases |ms| - i
  {
    if i < |ms| {
      assert ms[i..] == [ms[i]] + ms[i + 1..];
      var (x, t1) := GetNodeIndex({ms[i]}, t, false);
      GetNodeIndexExtends({ms[i]}, t);
      GetNodeIndexEdges({ms[i]}, t);
      assert t1[x].edges[0..] == t1[x].edges;
      forall m ensures EdgesOf(t1, {m}) == EdgesOf(t, {m}) {
        ExtendsLookup(t, t1, {m});
      }
      MergeEdgesLabels(t1[x].edges, 0, alphabet, out, j);
      match MergeEdges(t1[x].edges, 0, alphabet, out)
      case Failure(_) =>
      case Success(out1) =>
        CollectLabels(t1, ms, i + 1, alphabet, out1, isFinal || t1[x].isFinal, j);
    }
  }

  /** Slot `j` holds exactly what it held and the targets of the members' edges on `alphabet[j]`. */
  lemma {:induction false} CollectCarries(t: seq<Node>, ms: seq<string>, i: nat, alphabet: seq<string>,
                                          out: seq<Option<Name>>, isFinal: bool, j: nat, y: string)
    requires i <= |ms| && |out| == |alphabet| && Distinct(alphabet) && j < |alphabet|
    ensures var r := Collect(t, ms, i, alphabet, out, isFinal);
      r.Success? ==> (y in Content(r.value.1[j]) <==>
        y in Content(out[j]) || exists m :: m in ms[i..] && Carries(EdgesOf(t, {m}), alphabet[j], y))
    decreases |ms| - i
  {
    if i < |ms| {
      assert ms[i..] == [ms[i]] + ms[i + 1..];
      var (x, t1) := GetNodeIndex({ms[i]}, t, false);
      GetNodeIndexExtends({ms[i]}, t);
      GetNodeIndexEdges({ms[i]}, t);
      assert t1[x].edges[0..] == t1[x].edges;
      forall m ensures EdgesOf(t1, {m}) == EdgesOf(t, {m}) {
        ExtendsLookup(t, t1, {m});
      }
      MergeEdgesCarries(t1[x].edges, 0, alphabet, out, j, y);
      match MergeEdges(t1[x].edges, 0, alphabet, out)
      case Failure(_) =>
      case Success(out1) =>
        CollectCarries(t1, ms, i + 1, alphabet, out1, isFinal || t1[x].isFinal, j, y);
    }
  }

  // ---------------------------------------------------------------------------
  // The subset construction, stated independently

  /** Some member of the composite name `n` accepts. */
  predicate MemberFinal(t: seq<Node>, n: Name)
  {
    exists m :: m in n && FinalOf(t, {m})
  }

  /** Some member of `n` has an edge on `symbol`. */
  predicate HasMove(t: seq<Node>, n: Name, symbol: string)
  {
    exists m :: m in n && Labels(EdgesOf(t, {m}), symbol)
  }

  /** The identifiers the members of `n` reach on `symbol`. */
  function Image(t: seq<Node>, n: Name, symbol: string): (s: Name)
  {
    set m, e, x | m in n && e in EdgesOf(t, {m}) && e.symbol == symbol && x in e.target :: x
  }

  /** The edges of the subset state `n`: one per symbol some member moves on, in alphabet order. */
  function SubsetEdges(t: seq<Node>, n: Name, alphabet: seq<string>, i: nat): (es: seq<Edge>)
    requires i <= |alphabet|
    decreases |alphabet| - i
  {
    if i == |alphabet| then []
    else (if HasMove(t, n, alphabet[i]) then [Edge(alphabet[i], Image(t, n, alphabet[i]))] else [])
         + SubsetEdges(t, n, alphabet, i + 1)
  }

  lemma {:induction false} SlotsAreSubsetEdges(t: seq<Node>, n: Name, alphabet: seq<string>,
                                               out: seq<Option<Name>>, i: nat)
    requires |out| == |alphabet| && i <= |alphabet|
    requires forall j :: i <= j < |alphabet| ==> (out[j].Some? <==> HasMove(t, n, alphabet[j]))
    requires forall j :: i <= j < |alphabet| && out[j].Some? ==> out[j].value == Image(t, n, alphabet[j])
    ensures SlotEdges(alphabet, out, i) == SubsetEdges(t, n, alphabet, i)
    decreases |alphabet| - i
  {
    if i < |alphabet| {
      SlotsAreSubsetEdges(t, n, alphabet, out, i + 1);
    }
  }

  /** A slot `Collect` fills over the members of `n` is non-null exactly when some member moves on its symbol. */
  lemma CollectSlotSome(t: seq<Node>, n: Name, alphabet: seq<string>, j: nat)
    requires Distinct(alphabet) && j < |alphabet|
    ensures var r := Collect(t, Sort(n), 0, alphabet, NoSlots(|alphabet|), false);
      r.Success? ==> (r.value.1[j].Some? <==> HasMove(t, n, alphabet[j]))
  {
    var ms := Sort(n);
    assert ms[0..] == ms;
    CollectLabels(t, ms, 0, alphabet, NoSlots(|alphabet|), false, j);
  }

  /** ... and then holds the members' image on that symbol. */
  lemma CollectSlotImage(t: seq<Node>, n: Name, alphabet: seq<string>, j: nat)
    requires Distinct(alphabet) && j < |alphabet|
    ensures var r := Collect(t, Sort(n), 0, alphabet, NoSlots(|alphabet|), false);
      r.Success? && r.value.1[j].Some? ==> r.value.1[j].value == Image(t, n, alphabet[j])
  {
    var ms := Sort(n);
    var out := NoSlots(|alphabet|);
    assert ms[0..] == ms;
    var r := Collect(t, ms, 0, alphabet, out, false);
    if r.Success? && r.value.1[j].Some? {
      var img := Image(t, n, alphabet[j]);
      forall y ensures y in r.value.1[j].value <==> y in img {
        CollectCarries(t, ms, 0, alphabet, out, false, j, y);
        if y in img {
          var m, e :| m in n && e in EdgesOf(t, {m}) && e.symbol == alphabet[j] && y in e.target;
          assert m in ms;
        }
      }
    }
  }

  /** Expansion fails exactly when some member has an edge whose symbol is outside the alphabet. */
  lemma ExpandFails(t: seq<Node>, idx: nat, alphabet: seq<string>)
    requires idx < |t|
    ensures Expand(t, idx, alphabet).Failure? <==>
      exists m :: m in t[idx].name && Stray(EdgesOf(t, {m}), alphabet)
  {
    var ms := Sort(t[idx].name);
    assert ms[0..] == ms;
    CollectFails(t, ms, 0, alphabet, NoSlots(|alphabet|), false);
  }

  /**
    The expanded state keeps its edges and gains the subset construction's: one edge
    per symbol some member moves on, to the union of the members' targets.
  */
  lemma ExpandBuildsSubsetEdges(t: seq<Node>, idx: nat, alphabet: seq<string>)
    requires idx < |t| && UniqueNames(t) && Distinct(alphabet)
    ensures var r := Expand(t, idx, alphabet);
      r.Success? ==> && r.value[idx].name == t[idx].name
                     && r.value[idx].edges == t[idx].edges + SubsetEdges(t, t[idx].name, alphabet, 0)
  {
    var n := t[idx].name;
    var ms := Sort(n);
    var out0 := NoSlots(|alphabet|);
    CollectExtends(t, ms, 0, alphabet, out0, false);
    match Collect(t, ms, 0, alphabet, out0, false)
    case Failure(_) =>
    case Success((t1, out, isFinal)) =>
      forall j | 0 <= j < |alphabet|
        ensures out[j].Some? <==> HasMove(t, n, alphabet[j])
        ensures out[j].Some? ==> out[j].value == Image(t, n, alphabet[j])
      {
        CollectSlotSome(t, n, alphabet, j);
        CollectSlotImage(t, n, alphabet, j);
      }
      SlotsAreSubsetEdges(t, n, alphabet, out, 0);
      assert IndexOf(t1, n) == idx;
      RegisterAt(t1, n, isFinal, alphabet, out);
  }

  /** The expanded state accepts when it did or when some member accepts. */
  lemma ExpandBuildsSubsetFinal(t: seq<Node>, idx: nat, alphabet: seq<string>)
    requires idx < |t| && UniqueNames(t)
    ensures var r := Expand(t, idx, alphabet);
      r.Success? ==> r.value[idx].isFinal == (t[idx].isFinal || MemberFinal(t, t[idx].name))
  {
    var n := t[idx].name;
    var ms := Sort(n);
    var out0 := NoSlots(|alphabet|);
    assert ms[0..] == ms;
    CollectExtends(t, ms, 0, alphabet, out0, false);
    CollectFinal(t, ms, 0, alphabet, out0, false);
    match Collect(t, ms, 0, alphabet, out0, false)
    case Failure(_) =>
    case Success((t1, out, isFinal)) =>
      assert isFinal <==> MemberFinal(t, n);
      assert IndexOf(t1, n) == idx;
      RegisterAt(t1, n, isFinal, alphabet, out);
  }

  /** Every other state is unchanged, and every state appended has no edges and does not accept. */
  lemma ExpandExtendsElsewhere(t: seq<Node>, idx: nat, alphabet: seq<string>)
    requires idx < |t| && UniqueNames(t)
    ensures var r := Expand(t, idx, alphabet);
      r.Success? ==> && |r.value| >= |t|
                     && (forall j :: 0 <= j < |t| && j != idx ==> r.value[j] == t[j])
                     && (forall j :: |t| <= j < |r.value| ==> r.value[j].edges == [] && !r.value[j].isFinal)
  {
    var n := t[idx].name;
    var ms := Sort(n);
    var out0 := NoSlots(|alphabet|);
    CollectExtends(t, ms, 0, alphabet, out0, false);
    match Collect(t, ms, 0, alphabet, out0, false)
    case Failure(_) =>
    case Success((t1, out, isFinal)) =>
      assert IndexOf(t1, n) == idx;
      RegisterElsewhere(t1, n, isFinal, alphabet, out);
      RegisterAppends(t1, n, isFinal, alphabet, out);
  }

  // ---------------------------------------------------------------------------
  // The walk keeps the arena well formed

  lemma {:induction false} CollectKeepsUnique(t: seq<Node>, ms: seq<string>, i: nat, alphabet: seq<string>,
                                              out: seq<Option<Name>>, isFinal: bool)
    requires i <= |ms| && |out| == |alphabet| && UniqueNames(t)
    ensures var r := Collect(t, ms, i, alphabet, out, isFinal);
      r.Success? ==> UniqueNames(r.value.0)
    decreases |ms| - i
  {
    if i < |ms| {
      var (x, t1) := GetNodeIndex({ms[i]}, t, false);
      GetNodeIndexKeepsUnique({ms[i]}, t, false);
      match MergeEdges(t1[x].edges, 0, alphabet, out)
      case Failure(_) =>
      case Success(out1) =>
        CollectKeepsUnique(t1, ms, i + 1, alphabet, out1, isFinal || t1[x].isFinal);
    }
  }

  /** Appending fresh states keeps every edge target registered. */
  lemma ExtendsKeepsClosed(t: seq<Node>, r: seq<Node>)
    requires Extends(t, r) && Closed(t)
    ensures Closed(r)
  {
    forall a, k | 0 <= a < |r| && 0 <= k < |r[a].edges|
      ensures Registered(r, r[a].edges[k].target)
    {
      assert a < |t| && r[a] == t[a];
      var b :| 0 <= b < |t| && t[b].name == t[a].edges[k].target;
      assert r[b].name == t[b].name;
    }
  }

  lemma ExpandKeepsWellFormed(t: seq<Node>, idx: nat, alphabet: seq<string>)
    requires idx < |t| && UniqueNames(t) && Closed(t)
    ensures var r := Expand(t, idx, alphabet);
      r.Success? ==> UniqueNames(r.value) && Closed(r.value)
  {
    var n := t[idx].name;
    var ms := Sort(n);
    var out0 := NoSlots(|alphabet|);
    CollectExtends(t, ms, 0, alphabet, out0, false);
    CollectKeepsUnique(t, ms, 0, alphabet, out0, false);
    match Collect(t, ms, 0, alphabet, out0, false)
    case Failure(_) =>
    case Success((t1, out, isFinal)) =>
      ExtendsKeepsClosed(t, t1);
      RegisterKeepsUnique(t1, n, isFinal, alphabet, out);
      RegisterKeepsClosed(t1, n, isFinal, alphabet, out);
  }

  /** The walk keeps names unique and every edge target registered. */
  lemma {:induction false} ComplexBuildKeepsWellFormed(t: seq<Node>, idx: nat, alphabet: seq<string>,
                                                       used: set<Name>, U: set<string>)
    requires idx < |t| && t[idx].name !in used && Within(t, U)
    requires UniqueNames(t) && Closed(t)
    ensures var r := ComplexBuild(t, idx, alphabet, used, U);
      r.Success? ==> UniqueNames(r.value.0) && Closed(r.value.0)
    decreases PowerSet(U) - used, 1, 0
  {
    var n := t[idx].name;
    assert n in PowerSet(U);
    var expanded := if |n| > 1 then Expand(t, idx, alphabet) else Success(t);
    if |n| > 1 {
      ExpandKeepsWellFormed(t, idx, alphabet);
    }
    match expanded
    case Failure(_) =>
    case Success(t1) =>
      ExpandWithin(t, idx, alphabet, U);
      ComplexEdgesKeepsWellFormed(t1, t1[idx].edges, 0, alphabet, used + {n}, U);
  }

  lemma {:induction false} ComplexEdgesKeepsWellFormed(t: seq<Node>, edges: seq<Edge>, k: nat, alphabet: seq<string>,
                                                       used: set<Name>, U: set<string>)
    requires k <= |edges| && Within(t, U)
    requires UniqueNames(t) && Closed(t)
    ensures var r := ComplexEdges(t, edges, k, alphabet, used, U);
      r.Success? ==> UniqueNames(r.value.0) && Closed(r.value.0)
    decreases PowerSet(U) - used, 2, |edges| - k
  {
    if k < |edges| {
      var j := IndexOf(t, edges[k].target);
      if j < 0 || edges[k].target in used {
        ComplexEdgesKeepsWellFormed(t, edges, k + 1, alphabet, used, U);
      } else {
        ComplexBuildKeepsWellFormed(t, j, alphabet, used, U);
        match ComplexBuild(t, j, alphabet, used, U)
        case Failure(_) =>
        case Success((t1, used1)) =>
          assert PowerSet(U) - used1 <= PowerSet(U) - used;
          ComplexEdgesKeepsWellFormed(t1, edges, k + 1, alphabet, used1, U);
      }
    }
  }

  // ---------------------------------------------------------------------------
  // The walk leaves used states alone

  /**
    The arena only grows, a state already used is never touched again, and the
    state the walk starts from ends up used.
  */
  lemma {:induction false} ComplexBuildFrame(t: seq<Node>, idx: nat, alphabet: seq<string>,
                                             used: set<Name>, U: set<string>)
    requires idx < |t| && t[idx].name !in used && Within(t, U)
    requires UniqueNames(t) && Closed(t)
    ensures var r := ComplexBuild(t, idx, alphabet, used, U);
      r.Success? ==> && Grows(t, r.value.0)
                     && t[idx].name in r.value.1
                     && (forall j :: 0 <= j < |t| && t[j].name in used ==> r.value.0[j] == t[j])
    decreases PowerSet(U) - used, 1, 0
  {
    var n := t[idx].name;
    assert n in PowerSet(U);
    var expanded := if |n| > 1 then Expand(t, idx, alphabet) else Success(t);
    if |n| > 1 {
      ExpandKeepsWellFormed(t, idx, alphabet);
      ExpandExtendsElsewhere(t, idx, alphabet);
    }
    match expanded
    case Failure(_) =>
    case Success(t1) =>
      ExpandWithin(t, idx, alphabet, U);
      ComplexEdgesFrame(t1, t1[idx].edges, 0, alphabet, used + {n}, U);
  }

  lemma {:induction false} ComplexEdgesFrame(t: seq<Node>, edges: seq<Edge>, k: nat, alphabet: seq<string>,
                                             used: set<Name>, U: set<string>)
    requires k <= |edges| && Within(t, U)
    requires UniqueNames(t) && Closed(t)
    ensures var r := ComplexEdges(t, edges, k, alphabet, used, U);
      r.Success? ==> && Grows(t, r.value.0)
                     && (forall j :: 0 <= j < |t| && t[j].name in used ==> r.value.0[j] == t[j])
    decreases PowerSet(U) - used, 2, |edges| - k
  {
    if k < |edges| {
      var j := IndexOf(t, edges[k].target);
      if j < 0 || edges[k].target in used {
        ComplexEdgesFrame(t, edges, k + 1, alphabet, used, U);
      } else {
        ComplexBuildKeepsWellFormed(t, j, alphabet, used, U);
        ComplexBuildFrame(t, j, alphabet, used, U);
        match ComplexBuild(t, j, alphabet, used, U)
        case Failure(_) =>
        case Success((t1, used1)) =>
          assert PowerSet(U) - used1 <= PowerSet(U) - used;
          ComplexEdgesFrame(t1, edges, k + 1, alphabet, used1, U);
      }
    }
  }

  /** A state used before keeps its edges. */
  lemma FrameLookup(t: seq<Node>, r: seq<Node>, used: set<Name>, n: Name)
    requires Grows(t, r) && forall j :: 0 <= j < |t| && t[j].name in used ==> r[j] == t[j]
    requires n in used && Registered(t, n)
    ensures Registered(r, n) && EdgesOf(r, n) == EdgesOf(t, n)
  {
    var i := IndexOf(t, n);
    assert r[i] == t[i];
    assert IndexOf(r, n) == i;
  }

  // ---------------------------------------------------------------------------
  // The walk explores everything it reaches

  /** Every name marked after `before` is a state of `t` whose edges all lead to marked names. */
  predicate Explored(t: seq<Node>, after: set<Name>, before: set<Name>)
  {
    forall n :: n in after && n !in before ==>
      Registered(t, n) && forall e :: e in EdgesOf(t, n) ==> e.target in after
  }

  /** Every state the walk marks has all its successors marked: `deleteUnused` keeps a closed automaton. */
  lemma {:induction false} ComplexBuildExplores(t: seq<Node>, idx: nat, alphabet: seq<string>,
                                                used: set<Name>, U: set<string>)
    requires idx < |t| && t[idx].name !in used && Within(t, U)
    requires UniqueNames(t) && Closed(t)
    ensures var r := ComplexBuild(t, idx, alphabet, used, U);
      r.Success? ==> Explored(r.value.0, r.value.1, used)
    decreases PowerSet(U) - used, 1, 0
  {
    var n := t[idx].name;
    assert n in PowerSet(U);
    var expanded := if |n| > 1 then Expand(t, idx, alphabet) else Success(t);
    if |n| > 1 {
      ExpandKeepsWellFormed(t, idx, alphabet);
    }
    match expanded
    case Failure(_) =>
    case Success(t1) =>
      ExpandWithin(t, idx, alphabet, U);
      var es := t1[idx].edges;
      assert forall k :: 0 <= k < |es| ==> Registered(t1, es[k].target);
      ComplexEdgesExplores(t1, es, 0, alphabet, used + {n}, U);
      ComplexEdgesMarks(t1, es, 0, alphabet, used + {n}, U);
      ComplexEdgesFrame(t1, es, 0, alphabet, used + {n}, U);
      var r := ComplexEdges(t1, es, 0, alphabet, used + {n}, U);
      if r.Success? {
        ExploredFromStart(t1, idx, r.value.0, r.value.1, used);
      }
  }

  /** The start state's edges are the ones walked, so its successors are marked too. */
  lemma ExploredFromStart(t1: seq<Node>, idx: nat, t2: seq<Node>, used2: set<Name>, used: set<Name>)
    requires idx < |t1| && UniqueNames(t1)
    requires Explored(t2, used2, used + {t1[idx].name})
    requires forall k :: 0 <= k < |t1[idx].edges| ==> t1[idx].edges[k].target in used2
    requires Grows(t1, t2) && forall j :: 0 <= j < |t1| && t1[j].name in used + {t1[idx].name} ==> t2[j] == t1[j]
    requires t1[idx].name in used2
    ensures Explored(t2, used2, used)
  {
    var n := t1[idx].name;
    FrameLookup(t1, t2, used + {n}, n);
    assert IndexOf(t1, n) == idx;
    forall e | e in EdgesOf(t2, n) ensures e.target in used2 {
      var k :| 0 <= k < |t1[idx].edges| && t1[idx].edges[k] == e;
    }
  }

  lemma {:induction false} ComplexEdgesExplores(t: seq<Node>, edges: seq<Edge>, k: nat, alphabet: seq<string>,
                                                used: set<Name>, U: set<string>)
    requires k <= |edges| && Within(t, U)
    requires UniqueNames(t) && Closed(t)
    requires forall k' :: k <= k' < |edges| ==> Registered(t, edges[k'].target)
    ensures var r := ComplexEdges(t, edges, k, alphabet, used, U);
      r.Success? ==> Explored(r.value.0, r.value.1, used)
    decreases PowerSet(U) - used, 2, |edges| - k
  {
    if k < |edges| {
      var j := IndexOf(t, edges[k].target);
      if edges[k].target in used {
        ComplexEdgesExplores(t, edges, k + 1, alphabet, used, U);
      } else {
        ComplexBuildKeepsWellFormed(t, j, alphabet, used, U);
        ComplexBuildFrame(t, j, alphabet, used, U);
        ComplexBuildExplores(t, j, alphabet, used, U);
        match ComplexBuild(t, j, alphabet, used, U)
        case Failure(_) =>
        case Success((t1, used1)) =>
          assert PowerSet(U) - used1 <= PowerSet(U) - used;
          forall k' | k + 1 <= k' < |edges| ensures Registered(t1, edges[k'].target) {
            GrowsRegistered(t, t1, edges[k'].target);
          }
          ComplexEdgesExplores(t1, edges, k + 1, alphabet, used1, U);
          ComplexEdgesFrame(t1, edges, k + 1, alphabet, used1, U);
          var r := ComplexEdges(t1, edges, k + 1, alphabet, used1, U);
          if r.Success? {
            ExploredCompose(t1, used1, used, r.value.0, r.value.1);
          }
      }
    }
  }

  /** Every target of the walked edges ends up marked. */
  lemma {:induction false} ComplexEdgesMarks(t: seq<Node>, edges: seq<Edge>, k: nat, alphabet: seq<string>,
                                             used: set<Name>, U: set<string>)
    requires k <= |edges| && Within(t, U)
    requires UniqueNames(t) && Closed(t)
    requires forall k' :: k <= k' < |edges| ==> Registered(t, edges[k'].target)
    ensures var r := ComplexEdges(t, edges, k, alphabet, used, U);
      r.Success? ==> forall k' :: k <= k' < |edges| ==> edges[k'].target in r.value.1
    decreases |edges| - k
  {
    if k < |edges| {
      var j := IndexOf(t, edges[k].target);
      if edges[k].target in used {
        ComplexEdgesMarks(t, edges, k + 1, alphabet, used, U);
      } else {
        ComplexBuildKeepsWellFormed(t, j, alphabet, used, U);
        ComplexBuildFrame(t, j, alphabet, used, U);
        match ComplexBuild(t, j, alphabet, used, U)
        case Failure(_) =>
        case Success((t1, used1)) =>
          forall k' | k + 1 <= k' < |edges| ensures Registered(t1, edges[k'].target) {
            GrowsRegistered(t, t1, edges[k'].target);
          }
          ComplexEdgesMarks(t1, edges, k + 1, alphabet, used1, U);
      }
    }
  }

  /** Two walks one after the other: the second leaves the states the first marked alone. */
  lemma ExploredCompose(t1: seq<Node>, used1: set<Name>, used: set<Name>, t2: seq<Node>, used2: set<Name>)
    requires Explored(t1, used1, used) && Explored(t2, used2, used1) && used1 <= used2
    requires Grows(t1, t2) && forall j :: 0 <= j < |t1| && t1[j].name in used1 ==> t2[j] == t1[j]
    ensures Explored(t2, used2, used)
  {
    forall n | n in used2 && n !in used
      ensures Registered(t2, n) && forall e :: e in EdgesOf(t2, n) ==> e.target in used2
    {
      if n in used1 {
        FrameLookup(t1, t2, used1, n);
      }
    }
  }

  // ---------------------------------------------------------------------------
  // Everything the walk marks is reached from where it started

  /**
    A path of `steps` edges of `t` from `n` to `m` whose every state, both ends
    included, is a state of `t` named in `S`.
  */
  ghost predicate PathWithin(t: seq<Node>, S: set<Name>, n: Name, m: Name, steps: nat)
    decreases steps
  {
    && n in S && Registered(t, n)
    && if steps == 0 then n == m
       else exists e :: e in EdgesOf(t, n) && PathWithin(t, S, e.target, m, steps - 1)
  }

  ghost predicate ReachesWithin(t: seq<Node>, S: set<Name>, n: Name, m: Name)
  {
    exists steps: nat :: PathWithin(t, S, n, m, steps)
  }

  /** A path within `S` is a path within any larger set. */
  lemma {:induction false} PathWithinWider(t: seq<Node>, S: set<Name>, S': set<Name>, n: Name, m: Name, steps: nat)
    requires S <= S' && PathWithin(t, S, n, m, steps)
    ensures PathWithin(t, S', n, m, steps)
    decreases steps
  {
    if steps > 0 {
      var e :| e in EdgesOf(t, n) && PathWithin(t, S, e.target, m, steps - 1);
      PathWithinWider(t, S, S', e.target, m, steps - 1);
    }
  }

  /** A path through states that a later walk leaves alone survives that walk. */
  lemma {:induction false} PathWithinFrame(t: seq<Node>, r: seq<Node>, S: set<Name>, used: set<Name>,
                                           n: Name, m: Name, steps: nat)
    requires Grows(t, r) && forall j :: 0 <= j < |t| && t[j].name in used ==> r[j] == t[j]
    requires S <= used && PathWithin(t, S, n, m, steps)
    ensures PathWithin(r, S, n, m, steps)
    decreases steps
  {
    FrameLookup(t, r, used, n);
    if steps > 0 {
      var e :| e in EdgesOf(t, n) && PathWithin(t, S, e.target, m, steps - 1);
      PathWithinFrame(t, r, S, used, e.target, m, steps - 1);
    }
  }

  /** `m` is marked in `after` but was not in `before`. */
  ghost predicate NewlyMarked(after: set<Name>, before: set<Name>, m: Name)
  {
    m in after && m !in before
  }

  /** Every name marked after `before` is reached from `n` through such names. */
  ghost predicate ReachedFrom(t: seq<Node>, after: set<Name>, before: set<Name>, n: Name)
  {
    forall m :: NewlyMarked(after, before, m) ==> ReachesWithin(t, after - before, n, m)
  }

  /** Every name marked after `before` is reached, through such names, from a target of `edges[k..]`. */
  ghost predicate ReachedFromEdges(t: seq<Node>, after: set<Name>, before: set<Name>, edges: seq<Edge>, k: nat)
  {
    forall m :: NewlyMarked(after, before, m) ==>
      exists k' :: k <= k' < |edges| && ReachesWithin(t, after - before, edges[k'].target, m)
  }

  /** Every name the walk from `idx` marks is reached from `idx`'s name through newly marked states. */
  lemma {:induction false} ComplexBuildReaches(t: seq<Node>, idx: nat, alphabet: seq<string>,
                                               used: set<Name>, U: set<string>)
    requires idx < |t| && t[idx].name !in used && Within(t, U)
    requires UniqueNames(t) && Closed(t)
    ensures var r := ComplexBuild(t, idx, alphabet, used, U);
      r.Success? ==> ReachedFrom(r.value.0, r.value.1, used, t[idx].name)
    decreases PowerSet(U) - used, 1, 0
  {
    var n := t[idx].name;
    assert n in PowerSet(U);
    var expanded := if |n| > 1 then Expand(t, idx, alphabet) else Success(t);
    if |n| > 1 {
      ExpandKeepsWellFormed(t, idx, alphabet);
    }
    match expanded
    case Failure(_) =>
    case Success(t1) =>
      ExpandWithin(t, idx, alphabet, U);
      var es := t1[idx].edges;
      ComplexEdgesReaches(t1, es, 0, alphabet, used + {n}, U);
      ComplexEdgesFrame(t1, es, 0, alphabet, used + {n}, U);
      var r := ComplexEdges(t1, es, 0, alphabet, used + {n}, U);
      if r.Success? {
        ReachedFromStart(t1, idx, r.value.0, r.value.1, used);
      }
  }

  /** The start state keeps the edges the walk followed, so it reaches what its targets reach. */
  lemma ReachedFromStart(t1: seq<Node>, idx: nat, t2: seq<Node>, used2: set<Name>, used: set<Name>)
    requires idx < |t1| && UniqueNames(t1) && t1[idx].name !in used
    requires Grows(t1, t2) && forall j :: 0 <= j < |t1| && t1[j].name in used + {t1[idx].name} ==> t2[j] == t1[j]
    requires used + {t1[idx].name} <= used2
    requires ReachedFromEdges(t2, used2, used + {t1[idx].name}, t1[idx].edges, 0)
    ensures ReachedFrom(t2, used2, used, t1[idx].name)
  {
    var n := t1[idx].name;
    var es := t1[idx].edges;
    assert IndexOf(t1, n) == idx;
    FrameLookup(t1, t2, used + {n}, n);
    assert PathWithin(t2, used2 - used, n, n, 0);
    forall m | NewlyMarked(used2, used, m) ensures ReachesWithin(t2, used2 - used, n, m) {
      if m != n {
        assert NewlyMarked(used2, used + {n}, m);
        var k' :| 0 <= k' < |es| && ReachesWithin(t2, used2 - (used + {n}), es[k'].target, m);
        var steps: nat :| PathWithin(t2, used2 - (used + {n}), es[k'].target, m, steps);
        PathWithinWider(t2, used2 - (used + {n}), used2 - used, es[k'].target, m, steps);
        assert es[k'] in EdgesOf(t2, n);
        assert PathWithin(t2, used2 - used, n, m, steps + 1);
      }
    }
  }

  lemma {:induction false} ComplexEdgesReaches(t: seq<Node>, edges: seq<Edge>, k: nat, alphabet: seq<string>,
                                               used: set<Name>, U: set<string>)
    requires k <= |edges| && Within(t, U)
    requires UniqueNames(t) && Closed(t)
    ensures var r := ComplexEdges(t, edges, k, alphabet, used, U);
      r.Success? ==> ReachedFromEdges(r.value.0, r.value.1, used, edges, k)
    decreases PowerSet(U) - used, 2, |edges| - k
  {
    if k < |edges| {
      var j := IndexOf(t, edges[k].target);
      if j < 0 || edges[k].target in used {
        ComplexEdgesReaches(t, edges, k + 1, alphabet, used, U);
        var r := ComplexEdges(t, edges, k + 1, alphabet, used, U);
        if r.Success? {
          ReachedFromLaterEdges(r.value.0, r.value.1, used, edges, k);
        }
      } else {
        ComplexBuildKeepsWellFormed(t, j, alphabet, used, U);
        ComplexBuildReaches(t, j, alphabet, used, U);
        match ComplexBuild(t, j, alphabet, used, U)
        case Failure(_) =>
        case Success((t1, used1)) =>
          assert PowerSet(U) - used1 <= PowerSet(U) - used;
          ComplexEdgesReaches(t1, edges, k + 1, alphabet, used1, U);
          ComplexEdgesFrame(t1, edges, k + 1, alphabet, used1, U);
          var r := ComplexEdges(t1, edges, k + 1, alphabet, used1, U);
          if r.Success? {
            ReachedCompose(t1, r.value.0, used, used1, r.value.1, edges, k);
          }
      }
    }
  }

  /** Reached from `edges[k+1..]` is reached from `edges[k..]`. */
  lemma ReachedFromLaterEdges(t: seq<Node>, after: set<Name>, before: set<Name>, edges: seq<Edge>, k: nat)
    requires ReachedFromEdges(t, after, before, edges, k + 1)
    ensures ReachedFromEdges(t, after, before, edges, k)
  {
    forall m | NewlyMarked(after, before, m)
      ensures exists k' :: k <= k' < |edges| && ReachesWithin(t, after - before, edges[k'].target, m)
    {
      var k' :| k + 1 <= k' < |edges| && ReachesWithin(t, after - before, edges[k'].target, m);
    }
  }

  /** The walk into `edges[k]`'s target, then the rest of the loop: each part's names stay reached. */
  lemma ReachedCompose(t1: seq<Node>, t2: seq<Node>, used: set<Name>, used1: set<Name>, used2: set<Name>,
                       edges: seq<Edge>, k: nat)
    requires k < |edges| && used <= used1
    requires ReachedFrom(t1, used1, used, edges[k].target)
    requires ReachedFromEdges(t2, used2, used1, edges, k + 1)
    requires Grows(t1, t2) && forall j :: 0 <= j < |t1| && t1[j].name in used1 ==> t2[j] == t1[j]
    requires used1 <= used2
    ensures ReachedFromEdges(t2, used2, used, edges, k)
  {
    forall m | NewlyMarked(used2, used, m)
      ensures exists k' :: k <= k' < |edges| && ReachesWithin(t2, used2 - used, edges[k'].target, m)
    {
      if m in used1 {
        assert NewlyMarked(used1, used, m);
        var steps: nat :| PathWithin(t1, used1 - used, edges[k].target, m, steps);
        PathWithinFrame(t1, t2, used1 - used, used1, edges[k].target, m, steps);
        PathWithinWider(t2, used1 - used, used2 - used, edges[k].target, m, steps);
        assert ReachesWithin(t2, used2 - used, edges[k].target, m);
      } else {
        assert NewlyMarked(used2, used1, m);
        var k' :| k + 1 <= k' < |edges| && ReachesWithin(t2, used2 - used1, edges[k'].target, m);
        var steps: nat :| PathWithin(t2, used2 - used1, edges[k'].target, m, steps);
        PathWithinWider(t2, used2 - used1, used2 - used, edges[k'].target, m, steps);
        assert ReachesWithin(t2, used2 - used, edges[k'].target, m);
      }
    }
  }

  // ---------------------------------------------------------------------------
  // Determinism and absence of failure

  /** Every composite state not yet expanded has no edges. */
  predicate Fresh(t: seq<Node>, used: set<Name>)
  {
    forall j :: 0 <= j < |t| && |t[j].name| > 1 && t[j].name !in used ==> t[j].edges == []
  }

  /** The slots of the subset state `n`, one per symbol. */
  function SubsetSlots(t: seq<Node>, n: Name, alphabet: seq<string>): (out: seq<Option<Name>>)
    ensures |out| == |alphabet|
  {
    seq(|alphabet|, j requires 0 <= j < |alphabet| =>
      if HasMove(t, n, alphabet[j]) then Some(Image(t, n, alphabet[j])) else None)
  }

  lemma SubsetEdgesOrdered(t: seq<Node>, n: Name, alphabet: seq<string>)
    requires Distinct(alphabet)
    ensures Ordered(SubsetEdges(t, n, alphabet, 0), alphabet)
  {
    SlotsAreSubsetEdges(t, n, alphabet, SubsetSlots(t, n, alphabet), 0);
    SlotEdgesOrdered(alphabet, SubsetSlots(t, n, alphabet), 0);
  }

  /** In a deterministic arena every edge carries an alphabet symbol, so no member's edges are stray. */
  lemma NoStray(t: seq<Node>, n: Name, alphabet: seq<string>)
    requires Deterministic(t, alphabet)
    ensures !exists m :: m in n && Stray(EdgesOf(t, {m}), alphabet)
  {
    forall m | m in n ensures !Stray(EdgesOf(t, {m}), alphabet) {
      var i := IndexOf(t, {m});
      if i >= 0 {
        assert Ordered(t[i].edges, alphabet);
        forall e | e in t[i].edges ensures e.symbol in alphabet {
          var k :| 0 <= k < |t[i].edges| && t[i].edges[k] == e;
        }
      }
    }
  }

  /** Expanding a composite state that has no edges yet succeeds and keeps the arena deterministic. */
  lemma ExpandDeterministic(t: seq<Node>, idx: nat, alphabet: seq<string>)
    requires idx < |t| && UniqueNames(t) && Distinct(alphabet)
    requires Deterministic(t, alphabet) && t[idx].edges == []
    ensures var r := Expand(t, idx, alphabet);
      r.Success? && Deterministic(r.value, alphabet)
  {
    NoStray(t, t[idx].name, alphabet);
    ExpandFails(t, idx, alphabet);
    ExpandBuildsSubsetEdges(t, idx, alphabet);
    ExpandExtendsElsewhere(t, idx, alphabet);
    SubsetEdgesOrdered(t, t[idx].name, alphabet);
    var r := Expand(t, idx, alphabet).value;
    assert r[idx].edges == SubsetEdges(t, t[idx].name, alphabet, 0);
    forall j | 0 <= j < |r| ensures Ordered(r[j].edges, alphabet) {
      if j != idx && j < |t| {
        assert r[j] == t[j];
      }
    }
  }

  /** Expansion leaves every other composite state as it was. */
  lemma ExpandKeepsFresh(t: seq<Node>, idx: nat, alphabet: seq<string>, used: set<Name>)
    requires idx < |t| && UniqueNames(t) && Fresh(t, used)
    ensures var r := Expand(t, idx, alphabet);
      r.Success? ==> Fresh(r.value, used + {t[idx].name})
  {
    ExpandExtendsElsewhere(t, idx, alphabet);
  }

  /**
    On a deterministic arena whose composite states are not yet expanded, the walk
    cannot fail, and it leaves the arena deterministic.
  */
  lemma {:induction false} ComplexBuildDeterministic(t: seq<Node>, idx: nat, alphabet: seq<string>,
                                                     used: set<Name>, U: set<string>)
    requires idx < |t| && t[idx].name !in used && Within(t, U)
    requires UniqueNames(t) && Closed(t) && Distinct(alphabet)
    requires Deterministic(t, alphabet) && Fresh(t, used)
    ensures var r := ComplexBuild(t, idx, alphabet, used, U);
      r.Success? && Deterministic(r.value.0, alphabet) && Fresh(r.value.0, r.value.1)
    decreases PowerSet(U) - used, 1, 0
  {
    var n := t[idx].name;
    assert n in PowerSet(U);
    var expanded := if |n| > 1 then Expand(t, idx, alphabet) else Success(t);
    if |n| > 1 {
      ExpandKeepsWellFormed(t, idx, alphabet);
      ExpandDeterministic(t, idx, alphabet);
      ExpandKeepsFresh(t, idx, alphabet, used);
    }
    var t1 := expanded.value;
    ExpandWithin(t, idx, alphabet, U);
    ComplexEdgesDeterministic(t1, t1[idx].edges, 0, alphabet, used + {n}, U);
  }

  lemma {:induction false} ComplexEdgesDeterministic(t: seq<Node>, edges: seq<Edge>, k: nat, alphabet: seq<string>,
                                                     used: set<Name>, U: set<string>)
    requires k <= |edges| && Within(t, U)
    requires UniqueNames(t) && Closed(t) && Distinct(alphabet)
    requires Deterministic(t, alphabet) && Fresh(t, used)
    ensures var r := ComplexEdges(t, edges, k, alphabet, used, U);
      r.Success? && Deterministic(r.value.0, alphabet) && Fresh(r.value.0, r.value.1)
    decreases PowerSet(U) - used, 2, |edges| - k
  {
    if k < |edges| {
      var j := IndexOf(t, edges[k].target);
      if j < 0 || edges[k].target in used {
        ComplexEdgesDeterministic(t, edges, k + 1, alphabet, used, U);
      } else {
        ComplexBuildKeepsWellFormed(t, j, alphabet, used, U);
        ComplexBuildDeterministic(t, j, alphabet, used, U);
        var (t1, used1) := ComplexBuild(t, j, alphabet, used, U).value;
        assert PowerSet(U) - used1 <= PowerSet(U) - used;
        ComplexEdgesDeterministic(t1, edges, k + 1, alphabet, used1, U);
      }
    }
  }

  // ---------------------------------------------------------------------------
  // States named by a single identifier are never expanded

  /** The walk leaves every state named by one identifier (or none) as it was. */
  lemma {:induction false} ComplexBuildKeepsSingletons(t: seq<Node>, idx: nat, alphabet: seq<string>,
                                                       used: set<Name>, U: set<string>)
    requires idx < |t| && t[idx].name !in used && Within(t, U)
    requires UniqueNames(t) && Closed(t)
    ensures var r := ComplexBuild(t, idx, alphabet, used, U);
      r.Success? ==> && |r.value.0| >= |t|
                     && forall j :: 0 <= j < |t| && |t[j].name| <= 1 ==> r.value.0[j] == t[j]
    decreases PowerSet(U) - used, 1, 0
  {
    var n := t[idx].name;
    assert n in PowerSet(U);
    var expanded := if |n| > 1 then Expand(t, idx, alphabet) else Success(t);
    if |n| > 1 {
      ExpandKeepsWellFormed(t, idx, alphabet);
      ExpandExtendsElsewhere(t, idx, alphabet);
    }
    match expanded
    case Failure(_) =>
    case Success(t1) =>
      ExpandWithin(t, idx, alphabet, U);
      ComplexEdgesKeepsSingletons(t1, t1[idx].edges, 0, alphabet, used + {n}, U);
  }

  lemma {:induction false} ComplexEdgesKeepsSingletons(t: seq<Node>, edges: seq<Edge>, k: nat, alphabet: seq<string>,
                                                       used: set<Name>, U: set<string>)
    requires k <= |edges| && Within(t, U)
    requires UniqueNames(t) && Closed(t)
    ensures var r := ComplexEdges(t, edges, k, alphabet, used, U);
      r.Success? ==> && |r.value.0| >= |t|
                     && forall j :: 0 <= j < |t| && |t[j].name| <= 1 ==> r.value.0[j] == t[j]
    decreases PowerSet(U) - used, 2, |edges| - k
  {
    if k < |edges| {
      var j := IndexOf(t, edges[k].target);
      if j < 0 || edges[k].target in used {
        ComplexEdgesKeepsSingletons(t, edges, k + 1, alphabet, used, U);
      } else {
        ComplexBuildKeepsWellFormed(t, j, alphabet, used, U);
        ComplexBuildKeepsSingletons(t, j, alphabet, used, U);
        match ComplexBuild(t, j, alphabet, used, U)
        case Failure(_) =>
        case Success((t1, used1)) =>
          assert PowerSet(U) - used1 <= PowerSet(U) - used;
          ComplexEdgesKeepsSingletons(t1, edges, k + 1, alphabet, used1, U);
      }
    }
  }
}

=== FILE: determinize.dfy ===
/**
  `Graph.determinize`: the first pass builds one state per original state, the
  second walks from the initial state and expands the composite states it meets;
  with `deleteUnused` the states the walk did not reach are dropped.
*/
module Determinize {
  import opened Wrappers
  import opened Names
  import opened Automaton
  import opened SimplePass
  import opened ComplexPass
  import opened WalkClosure

  /** The states of `t` whose names are marked, in arena order (the `deleteUnused` filter). */
  function Retain(t: seq<Node>, used: set<Name>): (r: seq<Node>)
    ensures |r| <= |t|
  {
    if t == [] then []
    else (if t[0].name in used then [t[0]] else []) + Retain(t[1..], used)
  }

  /**
    The second pass and the filter, common to both root loops: the walk starts from
    the state named by the initial identifier, appending it when no state has that
    name, and expands the composite states it meets; with `deleteUnused` only the
    states it marked are kept. Alphabet, epsilon symbol and initial identifier are
    kept.
  */
  function SecondPass(g: Graph, t1: seq<Node>, deleteUnused: bool): (r: Result<Graph, Fault>)
    ensures r.Success? ==>
      && r.value.determinized && r.value.alphabet == g.alphabet
      && r.value.lambda == g.lambda && r.value.initNode == g.initNode
  {
    var (ix, t2) := GetNodeIndex({g.initNode}, t1, false);
    match ComplexBuild(t2, ix, g.alphabet, {}, Universe(t2))
    case Failure(f) => Failure(f)
    case Success((t3, used)) =>
      Success(g.(nodes := if deleteUnused then Retain(t3, used) else t3, determinized := true))
  }

  /**
    `determinize(deleteUnused)` as written: the node flags are cleared once before the
    root loop (`SimplePass.PassOneAsWritten`), then the second pass.
  */
  function Determinize(g: Graph, deleteUnused: bool, stack: nat): (r: Result<Graph, Fault>)
    requires Closed(g.nodes)
    ensures r.Success? ==>
      && r.value.determinized && r.value.alphabet == g.alphabet
      && r.value.lambda == g.lambda && r.value.initNode == g.initNode
  {
    match PassOneAsWritten(g, 0, {}, [], stack)
    case Failure(f) => Failure(f)
    case Success(t1) => SecondPass(g, t1, deleteUnused)
  }

  /** The same with the node flags cleared before every root (`SimplePass.PassOne`). */
  function DeterminizeCorrected(g: Graph, deleteUnused: bool, stack: nat): (r: Result<Graph, Fault>)
    requires Closed(g.nodes)
    ensures r.Success? ==>
      && r.value.determinized && r.value.alphabet == g.alphabet
      && r.value.lambda == g.lambda && r.value.initNode == g.initNode
  {
    match PassOne(g, 0, [], stack)
    case Failure(f) => Failure(f)
    case Success(t1) => SecondPass(g, t1, deleteUnused)
  }

  // ---------------------------------------------------------------------------
  // The filter

  /** A state is kept exactly when it is a state of `t` whose name is marked. */
  lemma {:induction false} RetainMembers(t: seq<Node>, used: set<Name>)
    ensures forall x :: x in Retain(t, used) <==> x in t && x.name in used
  {
    if t != [] {
      RetainMembers(t[1..], used);
      assert t == [t[0]] + t[1..];
    }
  }

  /** Filtering keeps names unique. */
  lemma {:induction false} RetainKeepsUnique(t: seq<Node>, used: set<Name>)
    requires UniqueNames(t)
    ensures UniqueNames(Retain(t, used))
  {
    if t != [] {
      var rest := Retain(t[1..], used);
      RetainKeepsUnique(t[1..], used);
      RetainMembers(t[1..], used);
      forall j | 0 <= j < |rest| ensures rest[j].name != t[0].name {
        var j' :| 0 <= j' < |t[1..]| && t[1..][j'] == rest[j];
        assert t[j' + 1] == rest[j];
      }
    }
  }

  /**
    When every marked name is a state whose successors are all marked, filtering
    keeps every edge target registered.
  */
  lemma RetainKeepsClosed(t: seq<Node>, used: set<Name>)
    requires UniqueNames(t) && Closed(t) && Explored(t, used, {})
    ensures Closed(Retain(t, used))
  {
    var r := Retain(t, used);
    RetainMembers(t, used);
    forall a, k | 0 <= a < |r| && 0 <= k < |r[a].edges|
      ensures Registered(r, r[a].edges[k].target)
    {
      var x := r[a];
      assert x in r;
      var i :| 0 <= i < |t| && t[i] == x;
      UniqueIndexOf(t, i);
      assert x.edges[k] in EdgesOf(t, x.name);
      var n := x.edges[k].target;
      var b :| 0 <= b < |t| && t[b].name == n;
      assert t[b] in r;
      var b' :| 0 <= b' < |r| && r[b'] == t[b];
    }
  }

  /** The position of a state of the tail, in the whole arena, is one further on. */
  lemma {:induction false} IndexOfTail(t: seq<Node>, n: Name)
    requires t != [] && t[0].name != n && Registered(t[1..], n)
    ensures IndexOf(t, n) == IndexOf(t[1..], n) + 1
  {
    var i := IndexOf(t[1..], n);
    assert t[i + 1].name == n;
  }

  /** The filter keeps the arena order: a kept state comes after the kept states before it. */
  lemma {:induction false} RetainOrdered(t: seq<Node>, used: set<Name>)
    requires UniqueNames(t)
    ensures var r := Retain(t, used);
      forall a, b :: 0 <= a < b < |r| ==> IndexOf(t, r[a].name) < IndexOf(t, r[b].name)
  {
    if t != [] {
      RetainOrdered(t[1..], used);
      var r := Retain(t, used);
      var rest := Retain(t[1..], used);
      var h := if t[0].name in used then 1 else 0;
      RetainStep(t, used);
      forall a, b | 0 <= a < b < |r| ensures IndexOf(t, r[a].name) < IndexOf(t, r[b].name) {
        RetainTailIndex(t, used, b - h);
        if a >= h {
          RetainTailIndex(t, used, a - h);
          assert IndexOf(t[1..], rest[a - h].name) < IndexOf(t[1..], rest[b - h].name);
        } else {
          assert IndexOf(t, r[a].name) == 0;
        }
      }
    }
  }

  /** The kept states: the head when it is marked, then those of the tail. */
  lemma {:induction false} RetainStep(t: seq<Node>, used: set<Name>)
    requires t != []
    ensures var h := if t[0].name in used then 1 else 0;
      var r := Retain(t, used);
      var rest := Retain(t[1..], used);
      && |r| == |rest| + h
      && (h == 1 ==> r[0] == t[0])
      && forall a :: h <= a < |r| ==> r[a] == rest[a - h]
  {
    if t[0].name in used {
      assert Retain(t, used) == [t[0]] + Retain(t[1..], used);
    } else {
      assert Retain(t, used) == Retain(t[1..], used);
    }
  }

  /** A state kept from the tail sits one further on in the whole arena, after position 0. */
  lemma {:induction false} RetainTailIndex(t: seq<Node>, used: set<Name>, c: nat)
    requires UniqueNames(t) && t != [] && c < |Retain(t[1..], used)|
    ensures var x := Retain(t[1..], used)[c];
      IndexOf(t, x.name) == IndexOf(t[1..], x.name) + 1 >= 1
  {
    var rest := Retain(t[1..], used);
    RetainMembers(t[1..], used);
    assert rest[c] in rest;
    var j :| 0 <= j < |t[1..]| && t[1..][j] == rest[c];
    assert t[j + 1] == rest[c];
    IndexOfTail(t, rest[c].name);
  }

  /** A marked state keeps its edges through the filter. */
  lemma RetainLookup(t: seq<Node>, used: set<Name>, n: Name)
    requires UniqueNames(t) && n in used && Registered(t, n)
    ensures Registered(Retain(t, used), n) && EdgesOf(Retain(t, used), n) == EdgesOf(t, n)
  {
    var r := Retain(t, used);
    RetainMembers(t, used);
    RetainKeepsUnique(t, used);
    var i := IndexOf(t, n);
    assert t[i] in r;
    var j :| 0 <= j < |r| && r[j] == t[i];
    UniqueIndexOf(r, j);
  }

  // ---------------------------------------------------------------------------
  // Reachability

  /** `m` is reached from `n` along `steps` edges of `t`. */
  ghost predicate Route(t: seq<Node>, n: Name, m: Name, steps: nat)
    decreases steps
  {
    && Registered(t, n)
    && if steps == 0 then n == m
       else exists e :: e in EdgesOf(t, n) && Route(t, e.target, m, steps - 1)
  }

  ghost predicate Reachable(t: seq<Node>, n: Name, m: Name)
  {
    exists steps: nat :: Route(t, n, m, steps)
  }

  /** A path through marked states is a route. */
  lemma {:induction false} PathWithinRoute(t: seq<Node>, S: set<Name>, n: Name, m: Name, steps: nat)
    requires PathWithin(t, S, n, m, steps)
    ensures Route(t, n, m, steps)
    decreases steps
  {
    if steps > 0 {
      var e :| e in EdgesOf(t, n) && PathWithin(t, S, e.target, m, steps - 1);
      PathWithinRoute(t, S, e.target, m, steps - 1);
    }
  }

  /** A path through marked states survives the filter. */
  lemma {:induction false} PathWithinRetain(t: seq<Node>, used: set<Name>, S: set<Name>, n: Name, m: Name, steps: nat)
    requires UniqueNames(t) && S <= used && PathWithin(t, S, n, m, steps)
    ensures Route(Retain(t, used), n, m, steps)
    decreases steps
  {
    RetainLookup(t, used, n);
    if steps > 0 {
      var e :| e in EdgesOf(t, n) && PathWithin(t, S, e.target, m, steps - 1);
      PathWithinRetain(t, used, S, e.target, m, steps - 1);
    }
  }

  /** A route from a marked state, in an arena whose marked states lead only to marked states, ends marked. */
  lemma {:induction false} RouteStaysMarked(t: seq<Node>, used: set<Name>, n: Name, m: Name, steps: nat)
    requires Explored(t, used, {}) && n in used && Route(t, n, m, steps)
    ensures m in used
    decreases steps
  {
    if steps > 0 {
      var e :| e in EdgesOf(t, n) && Route(t, e.target, m, steps - 1);
      RouteStaysMarked(t, used, e.target, m, steps - 1);
    }
  }

  /**
    After the second pass's walk from `start`, a name is marked exactly when it is
    reachable from `start`, and a marked name stays reachable once the unmarked
    states are dropped.
  */
  lemma MarkedIffReachable(t: seq<Node>, used: set<Name>, start: Name, m: Name)
    requires UniqueNames(t) && start in used && Explored(t, used, {}) && ReachedFrom(t, used, {}, start)
    ensures m in used <==> Reachable(t, start, m)
    ensures m in used ==> Reachable(Retain(t, used), start, m)
  {
    if m in used {
      assert NewlyMarked(used, {}, m);
      var steps: nat :| PathWithin(t, used - {}, start, m, steps);
      PathWithinRoute(t, used - {}, start, m, steps);
      PathWithinRetain(t, used, used - {}, start, m, steps);
    }
    if Reachable(t, start, m) {
      var steps: nat :| Route(t, start, m, steps);
      RouteStaysMarked(t, used, start, m, steps);
    }
  }

  // ---------------------------------------------------------------------------
  // What determinization guarantees

  /** Where the second pass starts, and the universe it is checked against. */
  lemma SecondPassStart(g: Graph, t1: seq<Node>)
    requires UniqueNames(t1) && Closed(t1)
    ensures var (ix, t2) := GetNodeIndex({g.initNode}, t1, false);
      && UniqueNames(t2) && Closed(t2) && Within(t2, Universe(t2)) && t2[ix].name == {g.initNode}
  {
    GetNodeIndexKeepsUnique({g.initNode}, t1, false);
    GetNodeIndexKeepsClosed({g.initNode}, t1, false);
  }

  /** The second pass leaves a well-formed automaton with a state named by the initial identifier. */
  lemma SecondPassWellFormed(g: Graph, t1: seq<Node>, deleteUnused: bool)
    requires Distinct(g.alphabet) && UniqueNames(t1) && Closed(t1)
    ensures var r := SecondPass(g, t1, deleteUnused);
      r.Success? ==> WellFormed(r.value) && Registered(r.value.nodes, {g.initNode})
  {
    var (ix, t2) := GetNodeIndex({g.initNode}, t1, false);
    SecondPassStart(g, t1);
    var r := ComplexBuild(t2, ix, g.alphabet, {}, Universe(t2));
    if r.Success? {
      ComplexBuildKept(t2, ix, g.alphabet);
      var (t3, used) := r.value;
      if deleteUnused {
        RetainKeepsUnique(t3, used);
        RetainKeepsClosed(t3, used);
        RetainMembers(t3, used);
        var i := IndexOf(t3, {g.initNode});
        assert t3[i] in Retain(t3, used);
      }
    }
  }

  /** The arena the second pass leaves before filtering, and the marks it leaves. */
  lemma ComplexBuildKept(t2: seq<Node>, ix: nat, alphabet: seq<string>)
    requires UniqueNames(t2) && Closed(t2) && ix < |t2| && Within(t2, Universe(t2))
    ensures var r := ComplexBuild(t2, ix, alphabet, {}, Universe(t2));
      r.Success? ==>
        && UniqueNames(r.value.0) && Closed(r.value.0) && Registered(r.value.0, t2[ix].name)
        && t2[ix].name in r.value.1 && Explored(r.value.0, r.value.1, {})
  {
    var U := Universe(t2);
    ComplexBuildKeepsWellFormed(t2, ix, alphabet, {}, U);
    ComplexBuildFrame(t2, ix, alphabet, {}, U);
    ComplexBuildExplores(t2, ix, alphabet, {}, U);
    var r := ComplexBuild(t2, ix, alphabet, {}, U);
    if r.Success? {
      GrowsRegistered(t2, r.value.0, t2[ix].name);
    }
  }

  /**
    `determinize` as written leaves a well-formed automaton with a state named by the
    initial identifier; with `deleteUnused` the filter leaves every edge target present.
  */
  lemma DeterminizeWellFormed(g: Graph, deleteUnused: bool, stack: nat)
    requires WellFormed(g)
    ensures var r := Determinize(g, deleteUnused, stack);
      r.Success? ==> WellFormed(r.value) && Registered(r.value.nodes, {g.initNode})
  {
    PassOneAsWrittenBuilds(g, 0, {}, [], stack);
    if PassOneAsWritten(g, 0, {}, [], stack).Success? {
      SecondPassWellFormed(g, PassOneAsWritten(g, 0, {}, [], stack).value, deleteUnused);
    }
  }

  /** The same for the corrected root loop. */
  lemma DeterminizeCorrectedWellFormed(g: Graph, deleteUnused: bool, stack: nat)
    requires WellFormed(g)
    ensures var r := DeterminizeCorrected(g, deleteUnused, stack);
      r.Success? ==> WellFormed(r.value) && Registered(r.value.nodes, {g.initNode})
  {
    PassOneBuilds(g, 0, [], stack);
    if PassOne(g, 0, [], stack).Success? {
      SecondPassWellFormed(g, PassOne(g, 0, [], stack).value, deleteUnused);
    }
  }

  /** The filter after a walk from `start` keeps exactly the states reachable from `start`, in order. */
  lemma RetainReachable(t: seq<Node>, used: set<Name>, start: Name)
    requires UniqueNames(t) && start in used && Explored(t, used, {}) && ReachedFrom(t, used, {}, start)
    ensures forall x :: x in Retain(t, used) <==> x in t && Reachable(t, start, x.name)
    ensures forall x :: x in Retain(t, used) ==> Reachable(Retain(t, used), start, x.name)
    ensures var r := Retain(t, used);
      forall a, b :: 0 <= a < b < |r| ==> IndexOf(t, r[a].name) < IndexOf(t, r[b].name)
  {
    RetainMembers(t, used);
    RetainOrdered(t, used);
    forall m ensures (m in used <==> Reachable(t, start, m)) && (m in used ==> Reachable(Retain(t, used), start, m)) {
      MarkedIffReachable(t, used, start, m);
    }
  }

  /**
    `deleteUnused` keeps exactly the states of the unfiltered result that are
    reachable from the initial state, in the order the unfiltered result has them,
    and every kept state is reachable from the initial state within what is kept.
  */
  lemma SecondPassKeepsReachable(g: Graph, t1: seq<Node>)
    requires UniqueNames(t1) && Closed(t1)
    ensures SecondPass(g, t1, true).Success? <==> SecondPass(g, t1, false).Success?
    ensures var full := SecondPass(g, t1, false);
      var kept := SecondPass(g, t1, true);
      kept.Success? ==>
        && (forall x :: x in kept.value.nodes <==> x in full.value.nodes && Reachable(full.value.nodes, {g.initNode}, x.name))
        && (forall x :: x in kept.value.nodes ==> Reachable(kept.value.nodes, {g.initNode}, x.name))
        && (forall a, b :: 0 <= a < b < |kept.value.nodes| ==>
              IndexOf(full.value.nodes, kept.value.nodes[a].name) < IndexOf(full.value.nodes, kept.value.nodes[b].name))
  {
    var (ix, t2) := GetNodeIndex({g.initNode}, t1, false);
    SecondPassStart(g, t1);
    var U := Universe(t2);
    var r := ComplexBuild(t2, ix, g.alphabet, {}, U);
    if r.Success? {
      ComplexBuildKept(t2, ix, g.alphabet);
      ComplexBuildReaches(t2, ix, g.alphabet, {}, U);
      var (t3, used) := r.value;
      assert SecondPass(g, t1, false).value.nodes == t3;
      assert SecondPass(g, t1, true).value.nodes == Retain(t3, used);
      RetainReachable(t3, used, {g.initNode});
    }
  }

  /** Hence `determinize(true)` as written keeps exactly the reachable states of `determinize(false)`. */
  lemma DeterminizeKeepsReachable(g: Graph, stack: nat)
    requires WellFormed(g)
    ensures Determinize(g, true, stack).Success? <==> Determinize(g, false, stack).Success?
    ensures var full := Determinize(g, false, stack);
      var kept := Determinize(g, true, stack);
      kept.Success? ==>
        && (forall x :: x in kept.value.nodes <==> x in full.value.nodes && Reachable(full.value.nodes, {g.initNode}, x.name))
        && (forall x :: x in kept.value.nodes ==> Reachable(kept.value.nodes, {g.initNode}, x.name))
        && (forall a, b :: 0 <= a < b < |kept.value.nodes| ==>
              IndexOf(full.value.nodes, kept.value.nodes[a].name) < IndexOf(full.value.nodes, kept.value.nodes[b].name))
  {
    PassOneAsWrittenBuilds(g, 0, {}, [], stack);
    if PassOneAsWritten(g, 0, {}, [], stack).Success? {
      SecondPassKeepsReachable(g, PassOneAsWritten(g, 0, {}, [], stack).value);
    }
  }

  /** The same for the corrected root loop. */
  lemma DeterminizeCorrectedKeepsReachable(g: Graph, stack: nat)
    requires WellFormed(g)
    ensures DeterminizeCorrected(g, true, stack).Success? <==> DeterminizeCorrected(g, false, stack).Success?
    ensures var full := DeterminizeCorrected(g, false, stack);
      var kept := DeterminizeCorrected(g, true, stack);
      kept.Success? ==>
        && (forall x :: x in kept.value.nodes <==> x in full.value.nodes && Reachable(full.value.nodes, {g.initNode}, x.name))
        && (forall x :: x in kept.value.nodes ==> Reachable(kept.value.nodes, {g.initNode}, x.name))
        && (forall a, b :: 0 <= a < b < |kept.value.nodes| ==>
              IndexOf(full.value.nodes, kept.value.nodes[a].name) < IndexOf(full.value.nodes, kept.value.nodes[b].name))
  {
    PassOneBuilds(g, 0, [], stack);
    if PassOne(g, 0, [], stack).Success? {
      SecondPassKeepsReachable(g, PassOne(g, 0, [], stack).value);
    }
  }

  /** Every original state is named by one identifier, as the source's reader builds them. */
  predicate SingletonNames(g: Graph)
  {
    forall i :: 0 <= i < |g.nodes| ==> |g.nodes[i].name| == 1
  }

  /** A state with edges after the first pass is named after an original state. */
  lemma EdgesOnlyAtSingletons(g: Graph, t1: seq<Node>, j: nat)
    requires SingletonNames(g) && RootsOnly(g, |g.nodes|, t1) && j < |t1|
    ensures t1[j].edges != [] ==> |t1[j].name| == 1
  {
    if t1[j].edges != [] {
      var i := IndexOf(g.nodes, t1[j].name);
      assert g.nodes[i].name == t1[j].name;
    }
  }

  /** After the first pass only states named after original states have edges, so no composite state has any yet. */
  lemma FirstPassFresh(g: Graph, t1: seq<Node>)
    requires SingletonNames(g) && RootsOnly(g, |g.nodes|, t1)
    ensures var t2 := GetNodeIndex({g.initNode}, t1, false).1;
      Fresh(t2, {}) && Deterministic(t2, g.alphabet)
  {
    GetNodeIndexFrame({g.initNode}, t1, false);
    var t2 := GetNodeIndex({g.initNode}, t1, false).1;
    forall j | 0 <= j < |t2| && |t2[j].name| > 1
      ensures t2[j].edges == []
    {
      if j < |t1| {
        EdgesOnlyAtSingletons(g, t1, j);
      }
    }
    forall j | 0 <= j < |t2| ensures Ordered(t2[j].edges, g.alphabet) {
      if j < |t1| {
        assert Ordered(t1[j].edges, g.alphabet);
      }
    }
  }

  /**
    After a first pass that gave edges only to original states, in alphabet order,
    the second pass cannot fail and leaves a deterministic automaton: no epsilon
    move, and no state with two edges on one symbol.
  */
  lemma SecondPassDeterministic(g: Graph, t1: seq<Node>, deleteUnused: bool)
    requires WellFormed(g) && SingletonNames(g) && UniqueNames(t1) && Closed(t1)
    requires RootsOnly(g, |g.nodes|, t1)
    ensures var r := SecondPass(g, t1, deleteUnused);
      && r.Success? && Deterministic(r.value.nodes, g.alphabet)
      && forall j, k, k' :: 0 <= j < |r.value.nodes| && 0 <= k < k' < |r.value.nodes[j].edges| ==>
           r.value.nodes[j].edges[k].symbol != r.value.nodes[j].edges[k'].symbol
  {
    var (ix, t2) := GetNodeIndex({g.initNode}, t1, false);
    SecondPassStart(g, t1);
    FirstPassFresh(g, t1);
    var U := Universe(t2);
    ComplexBuildDeterministic(t2, ix, g.alphabet, {}, U);
    var (t3, used) := ComplexBuild(t2, ix, g.alphabet, {}, U).value;
    var nodes := if deleteUnused then Retain(t3, used) else t3;
    if deleteUnused {
      RetainMembers(t3, used);
      forall j | 0 <= j < |nodes| ensures Ordered(nodes[j].edges, g.alphabet) {
        assert nodes[j] in t3;
      }
    }
    forall j, k, k' | 0 <= j < |nodes| && 0 <= k < k' < |nodes[j].edges|
      ensures nodes[j].edges[k].symbol != nodes[j].edges[k'].symbol
    {
      OrderedIsDeterministic(nodes[j].edges, g.alphabet, k, k');
    }
  }

  /**
    On an automaton whose states are named by single identifiers, `determinize` as
    written cannot fail in its second pass once the first has succeeded, and the
    result is deterministic.
  */
  lemma DeterminizeDeterministic(g: Graph, deleteUnused: bool, stack: nat)
    requires WellFormed(g) && SingletonNames(g)
    ensures var r := Determinize(g, deleteUnused, stack);
      PassOneAsWritten(g, 0, {}, [], stack).Success? ==>
        && r.Success? && Deterministic(r.value.nodes, g.alphabet)
        && forall j, k, k' :: 0 <= j < |r.value.nodes| && 0 <= k < k' < |r.value.nodes[j].edges| ==>
             r.value.nodes[j].edges[k].symbol != r.value.nodes[j].edges[k'].symbol
  {
    PassOneAsWrittenBuilds(g, 0, {}, [], stack);
    if PassOneAsWritten(g, 0, {}, [], stack).Success? {
      SecondPassDeterministic(g, PassOneAsWritten(g, 0, {}, [], stack).value, deleteUnused);
    }
  }

  /** The same for the corrected root loop. */
  lemma DeterminizeCorrectedDeterministic(g: Graph, deleteUnused: bool, stack: nat)
    requires WellFormed(g) && SingletonNames(g)
    ensures var r := DeterminizeCorrected(g, deleteUnused, stack);
      PassOne(g, 0, [], stack).Success? ==>
        && r.Success? && Deterministic(r.value.nodes, g.alphabet)
        && forall j, k, k' :: 0 <= j < |r.value.nodes| && 0 <= k < k' < |r.value.nodes[j].edges| ==>
             r.value.nodes[j].edges[k].symbol != r.value.nodes[j].edges[k'].symbol
  {
    PassOneBuilds(g, 0, [], stack);
    if PassOne(g, 0, [], stack).Success? {
      SecondPassDeterministic(g, PassOne(g, 0, [], stack).value, deleteUnused);
    }
  }

  /**
    Without `deleteUnused`, the second pass leaves the state of every original name
    as the first pass built it: the walk expands only composite states.
  */
  lemma SecondPassKeeps(g: Graph, t1: seq<Node>, i: nat)
    requires WellFormed(g) && SingletonNames(g) && UniqueNames(t1) && Closed(t1)
    requires i < |g.nodes| && Registered(t1, g.nodes[i].name)
    ensures var r := SecondPass(g, t1, false);
      r.Success? ==>
        && Registered(r.value.nodes, g.nodes[i].name)
        && r.value.nodes[IndexOf(r.value.nodes, g.nodes[i].name)] == t1[IndexOf(t1, g.nodes[i].name)]
  {
    var (ix, t2) := GetNodeIndex({g.initNode}, t1, false);
    SecondPassStart(g, t1);
    GetNodeIndexFrame({g.initNode}, t1, false);
    assert forall j :: 0 <= j < |t1| ==> t2[j] == t1[j];
    var U := Universe(t2);
    ComplexBuildKeepsSingletons(t2, ix, g.alphabet, {}, U);
    ComplexBuildKeepsWellFormed(t2, ix, g.alphabet, {}, U);
    var r := ComplexBuild(t2, ix, g.alphabet, {}, U);
    if r.Success? {
      var t3 := r.value.0;
      var p := IndexOf(t1, g.nodes[i].name);
      assert t3[p] == t2[p];
      UniqueIndexOf(t3, p);
    }
  }

  /**
    Without `deleteUnused`, `determinize` as written keeps every original state
    simulated by the state of its own name: final when it is final, and with an edge
    on every symbol it moves on, to a state whose name includes the target.
  */
  lemma DeterminizeSimulates(g: Graph, stack: nat)
    requires WellFormed(g) && SingletonNames(g)
    ensures var r := Determinize(g, false, stack);
      r.Success? ==> forall i :: 0 <= i < |g.nodes| ==> Simulated(g, r.value.nodes, i)
  {
    PassOneAsWrittenBuilds(g, 0, {}, [], stack);
    var p1 := PassOneAsWritten(g, 0, {}, [], stack);
    if p1.Success? {
      forall i | 0 <= i < |g.nodes| ensures SecondPass(g, p1.value, false).Success? ==> Simulated(g, SecondPass(g, p1.value, false).value.nodes, i) {
        assert Simulated(g, p1.value, i);
        SecondPassKeeps(g, p1.value, i);
      }
    }
  }

  /**
    With the corrected loop the state of every original name is moreover final
    whenever one of its epsilon moves reaches a final state.
  */
  lemma DeterminizeCorrectedSimulates(g: Graph, stack: nat)
    requires WellFormed(g) && SingletonNames(g)
    ensures var r := DeterminizeCorrected(g, false, stack);
      r.Success? ==> forall i :: 0 <= i < |g.nodes| ==>
        Simulated(g, r.value.nodes, i) && ClosureFinal(g, r.value.nodes, i, {i})
  {
    PassOneBuilds(g, 0, [], stack);
    var p1 := PassOne(g, 0, [], stack);
    if p1.Success? {
      forall i | 0 <= i < |g.nodes|
        ensures SecondPass(g, p1.value, false).Success? ==>
          Simulated(g, SecondPass(g, p1.value, false).value.nodes, i) &&
          ClosureFinal(g, SecondPass(g, p1.value, false).value.nodes, i, {i})
      {
        assert Simulated(g, p1.value, i);
        SecondPassKeeps(g, p1.value, i);
      }
    }
  }

  /**
    Without `deleteUnused`, the corrected `determinize` leaves for every original
    state a state that follows the state's epsilon closure over paths of any length
    and holds nothing beyond it: final exactly when a state of the closure is, and
    on each symbol an edge whose target name is made of exactly the identifiers of
    the states reached through a symbol edge on that symbol (`WalkClosure.Saturated`
    and `WalkClosure.Exact`; paths that re-enter the state itself are not followed).
  */
  lemma DeterminizeCorrectedCloses(g: Graph, stack: nat)
    requires WellFormed(g) && SingletonNames(g)
    ensures var r := DeterminizeCorrected(g, false, stack);
      r.Success? ==> forall i :: 0 <= i < |g.nodes| ==> Saturated(g, r.value.nodes, i) && Exact(g, r.value.nodes, i)
  {
    PassOneBuilds(g, 0, [], stack);
    PassOneSaturates(g, 0, [], stack);
    PassOneExact(g, 0, [], stack);
    var p1 := PassOne(g, 0, [], stack);
    if p1.Success? {
      var r := SecondPass(g, p1.value, false);
      if r.Success? {
        forall i | 0 <= i < |g.nodes|
          ensures Saturated(g, r.value.nodes, i) && Exact(g, r.value.nodes, i)
        {
          assert Saturated(g, p1.value, i);
          assert Exact(g, p1.value, i);
          SecondPassKeeps(g, p1.value, i);
          SameStateKeepsClosure(g, p1.value, r.value.nodes, i);
        }
      }
    }
  }

  /**
    The carried-over flag survives the second pass: on the two-state example,
    `determinize` as written leaves `B` non-final although `B` reaches the final `A`
    by an epsilon move, and the corrected loop leaves it final.
  */
  lemma DeterminizeLosesFinal()
    ensures WellFormed(CarryOverExample()) && SingletonNames(CarryOverExample())
    ensures FinalMove(CarryOverExample(), 1, {1}, 0)
    ensures var r := Determinize(CarryOverExample(), false, 1);
      r.Success? && Registered(r.value.nodes, {"B"}) && !FinalOf(r.value.nodes, {"B"})
    ensures var r := DeterminizeCorrected(CarryOverExample(), false, 1);
      r.Success? && FinalOf(r.value.nodes, {"B"})
  {
    var g := CarryOverExample();
    CarryOverLosesFinal();
    ClearedFlagsKeepFinal();
    assert g.nodes[1].name == {"B"};
    assert SingletonNames(g);
    var a := PassOneAsWritten(g, 0, {}, [], 1).value;
    var c := PassOne(g, 0, [], 1).value;
    PassOneAsWrittenBuilds(g, 0, {}, [], 1);
    PassOneBuilds(g, 0, [], 1);
    SecondPassKeeps(g, a, 1);
    SecondPassKeeps(g, c, 1);
    SecondPassDeterministic(g, a, false);
    SecondPassDeterministic(g, c, false);
  }
}

=== FILE: minimize.dfy ===
/**
  `Graph.minimize`: Moore's partition refinement.

  The states are first split into the final and the non-final ones. Each round then
  splits every block by comparing its states with a representative through
  `equalGroup`, which looks at the edges in order and at the block each edge leads
  to. When a round ends with as many blocks as it started with, block i becomes the
  state "N" + (i + 1).

  A block (Java `Elem`, a `TreeSet<Node>` ordered by hash code) is modelled as the
  positions of its states in the arena, in arena order. The order decides which
  state represents a block and how the blocks are numbered, but not which states
  end up together, since `equalGroup` is an equivalence.
*/
module Minimize {
  import opened Wrappers
  import opened Names
  import opened Automaton

  /** A block of states, by arena position. */
  type Block = seq<nat>

  /** The list of blocks (Java `Groups`). */
  type Blocks = seq<Block>

  // ---------------------------------------------------------------------------
  // Counting

  lemma {:induction false} SubsetCard(a: set<nat>, b: set<nat>)
    requires a <= b
    ensures |a| <= |b|
    decreases b
  {
    if b != {} {
      var y :| y in b;
      SubsetCard(a - {y}, b - {y});
    }
  }

  function Below(n: nat): (s: set<nat>)
    ensures forall x :: x in s <==> 0 <= x < n
    ensures |s| == n
  {
    if n == 0 then {} else Below(n - 1) + {n - 1}
  }

  function Elements(f: seq<nat>): (s: set<nat>)
    ensures forall x :: x in s <==> x in f
  {
    set x | x in f
  }

  lemma {:induction false} DistinctElements(f: seq<nat>)
    requires forall i, j :: 0 <= i < j < |f| ==> f[i] != f[j]
    ensures |Elements(f)| == |f|
  {
    if f != [] {
      var last := |f| - 1;
      DistinctElements(f[..last]);
      assert Elements(f) == Elements(f[..last]) + {f[last]};
    }
  }

  /** Distinct positions below n are at most n. */
  lemma Pigeonhole(f: seq<nat>, n: nat)
    requires forall i :: 0 <= i < |f| ==> f[i] < n
    requires forall i, j :: 0 <= i < j < |f| ==> f[i] != f[j]
    ensures |f| <= n
  {
    DistinctElements(f);
    SubsetCard(Elements(f), Below(n));
  }

  // ---------------------------------------------------------------------------
  // Block names: "N" + Integer.toString(i + 1)

  function Digit(d: nat): (c: char)
    requires d < 10
  {
    ('0' as int + d) as char
  }

  /** The decimal digits of `n`, without leading zeros (`Integer.toString` of a non-negative int). */
  function Decimal(n: nat): (s: string)
    ensures |s| >= 1
  {
    if n < 10 then [Digit(n)] else Decimal(n / 10) + [Digit(n % 10)]
  }

  /** Reading decimal digits back. */
  function ParseDecimal(s: string): int
  {
    if s == [] then 0 else ParseDecimal(s[..|s| - 1]) * 10 + (s[|s| - 1] as int - '0' as int)
  }

  lemma {:induction false} DecimalRoundTrip(n: nat)
    ensures ParseDecimal(Decimal(n)) == n
  {
    if n >= 10 {
      DecimalRoundTrip(n / 10);
      var s := Decimal(n);
      assert s[..|s| - 1] == Decimal(n / 10);
    }
  }

  /** The identifier of the state made from block i. */
  function BlockIdent(i: nat): string
  {
    "N" + Decimal(i + 1)
  }

  function BlockName(i: nat): Name
  {
    {BlockIdent(i)}
  }

  /** Different blocks give differently named states. */
  lemma BlockIdentInjective(i: nat, j: nat)
    ensures BlockIdent(i) == BlockIdent(j) ==> i == j
  {
    if BlockIdent(i) == BlockIdent(j) {
      assert BlockIdent(i)[1..] == Decimal(i + 1);
      assert BlockIdent(j)[1..] == Decimal(j + 1);
      DecimalRoundTrip(i + 1);
      DecimalRoundTrip(j + 1);
    }
  }

  // ---------------------------------------------------------------------------
  // getGroupElemNumber and partitions

  /** `getGroupElemNumber`: the position of the first block holding state `x`, or -1. */
  function GroupOf(P: Blocks, x: int): (b: int)
    ensures -1 <= b < |P|
    ensures b >= 0 ==> x in P[b]
  {
    if P == [] then -1
    else if x in P[0] then 0
    else
      var b := GroupOf(P[1..], x);
      if b < 0 then -1 else b + 1
  }

  /** The block found is the first holding `x`, and -1 means no block holds it. */
  lemma {:induction false} GroupOfFirst(P: Blocks, x: int)
    ensures GroupOf(P, x) >= 0 ==> forall j :: 0 <= j < GroupOf(P, x) ==> x !in P[j]
    ensures GroupOf(P, x) == -1 <==> forall j :: 0 <= j < |P| ==> x !in P[j]
  {
    if P != [] {
      GroupOfFirst(P[1..], x);
      forall j | 1 <= j < |P| ensures P[j] == P[1..][j - 1] {
      }
    }
  }

  /** The first block of a concatenation holding `x`. */
  lemma {:induction false} GroupOfAppend(A: Blocks, B: Blocks, x: int)
    ensures GroupOf(A + B, x) ==
      if GroupOf(A, x) >= 0 then GroupOf(A, x)
      else if GroupOf(B, x) >= 0 then |A| + GroupOf(B, x)
      else -1
  {
    if A == [] {
      assert A + B == B;
    } else {
      GroupOfAppend(A[1..], B, x);
      assert (A + B)[0] == A[0];
      assert (A + B)[1..] == A[1..] + B;
    }
  }

  /** The first block of `[C] + T` holding `x`. */
  lemma GroupOfCons(C: Block, T: Blocks, x: int)
    ensures GroupOf([C] + T, x) ==
      if x in C then 0 else if GroupOf(T, x) >= 0 then 1 + GroupOf(T, x) else -1
  {
    assert ([C] + T)[1..] == T;
  }

  /** Every state of the block lies in the arena. */
  predicate InArena(B: Block, n: nat)
  {
    forall x :: x in B ==> x < n
  }

  /** No state is in two blocks: each member's first block is its own. */
  predicate Disjoint(P: Blocks)
  {
    forall m, x :: 0 <= m < |P| && x in P[m] ==> GroupOf(P, x) == m
  }

  predicate NonEmpty(P: Blocks)
  {
    forall m :: 0 <= m < |P| ==> P[m] != []
  }

  lemma TailInArena(B: Block, n: nat)
    requires InArena(B, n) && B != []
    ensures B[0] < n && InArena(B[1..], n)
  {
    assert B[0] in B;
    forall x | x in B[1..] ensures x < n {
      assert B == [B[0]] + B[1..];
      assert x in B;
    }
  }

  predicate Arena(P: Blocks, n: nat)
  {
    forall m :: 0 <= m < |P| ==> InArena(P[m], n)
  }

  /** The blocks split the arena positions 0 .. n-1 (empty blocks allowed). */
  predicate Partition(P: Blocks, n: nat)
  {
    && Arena(P, n)
    && Disjoint(P)
    && (forall x :: 0 <= x < n ==> GroupOf(P, x) >= 0)
  }

  /** A partition into non-empty blocks has at most as many blocks as states. */
  lemma CountBound(P: Blocks, n: nat)
    requires Partition(P, n) && NonEmpty(P)
    ensures |P| <= n
  {
    var reps := seq(|P|, m requires 0 <= m < |P| => P[m][0]);
    forall i, j | 0 <= i < j < |reps| ensures reps[i] != reps[j] {
      assert P[i][0] in P[i] && P[j][0] in P[j];
      assert GroupOf(P, P[i][0]) == i && GroupOf(P, P[j][0]) == j;
    }
    forall i | 0 <= i < |reps| ensures reps[i] < n {
      assert P[i][0] in P[i];
    }
    Pigeonhole(reps, n);
  }

  /** A partition into non-empty blocks has as many blocks as positions exactly when every block is a single position. */
  lemma FullIffSingletons(P: Blocks, n: nat)
    requires Partition(P, n) && NonEmpty(P)
    ensures |P| == n <==> forall x, y :: 0 <= x < n && 0 <= y < n && GroupOf(P, x) == GroupOf(P, y) ==> x == y
  {
    CountBound(P, n);
    if forall x, y :: 0 <= x < n && 0 <= y < n && GroupOf(P, x) == GroupOf(P, y) ==> x == y {
      var f := seq(n, x requires 0 <= x < n => GroupOf(P, x) as nat);
      Pigeonhole(f, |P|);
    } else {
      var x, y :| 0 <= x < n && 0 <= y < n && GroupOf(P, x) == GroupOf(P, y) && x != y;
      SharedBlock(P, n, x, y);
    }
  }

  /** Two positions sharing a block leave fewer blocks than positions. */
  lemma SharedBlock(P: Blocks, n: nat, x: nat, y: nat)
    requires Partition(P, n) && NonEmpty(P)
    requires x < n && y < n && x != y && GroupOf(P, x) == GroupOf(P, y)
    ensures |P| < n
  {
    var b := GroupOf(P, x);
    var z := if x == P[b][0] then y else x;
    assert z in P[b] && z != P[b][0];
    var reps := seq(|P|, m requires 0 <= m < |P| => P[m][0]) + [z];
    forall i | 0 <= i < |P| ensures reps[i] < n && GroupOf(P, reps[i]) == i {
      assert P[i][0] in P[i];
    }
    forall i, j | 0 <= i < j < |reps| ensures reps[i] != reps[j] {
      if j == |P| && i == b {
        assert reps[i] == P[b][0];
      }
    }
    Pigeonhole(reps, n);
  }

  // ---------------------------------------------------------------------------
  // equalGroup

  /** The block the target of an edge lies in; -1 when the target is not a state. */
  function TargetBlock(g: Graph, P: Blocks, e: Edge): int
  {
    GroupOf(P, IndexOf(g.nodes, e.target))
  }

  /** What `equalGroup` compares: each edge in order, by symbol and target block. */
  function Sig(g: Graph, P: Blocks, x: nat): (s: seq<(string, int)>)
    requires x < |g.nodes|
  {
    var es := g.nodes[x].edges;
    seq(|es|, k requires 0 <= k < |es| => (es[k].symbol, TargetBlock(g, P, es[k])))
  }

  /**
    `equalGroup`: the two states have equally many edges, and edges at the same
    position carry the same symbol and lead into the same block.
  */
  function EqualGroup(g: Graph, P: Blocks, a: nat, b: nat): bool
    requires a < |g.nodes| && b < |g.nodes|
  {
    |g.nodes[a].edges| == |g.nodes[b].edges| &&
    EqualFrom(g, P, g.nodes[a].edges, g.nodes[b].edges, 0)
  }

  /** Two edges carry the same symbol into the same block. */
  predicate SameStep(g: Graph, P: Blocks, e: Edge, f: Edge)
  {
    e.symbol == f.symbol && TargetBlock(g, P, e) == TargetBlock(g, P, f)
  }

  function EqualFrom(g: Graph, P: Blocks, e1: seq<Edge>, e2: seq<Edge>, k: nat): bool
    requires |e1| == |e2| && k <= |e1|
    decreases |e1| - k
  {
    if k == |e1| then true
    else if e1[k].symbol != e2[k].symbol then false
    else if TargetBlock(g, P, e1[k]) != TargetBlock(g, P, e2[k]) then false
    else EqualFrom(g, P, e1, e2, k + 1)
  }

  lemma {:induction false} EqualFromAll(g: Graph, P: Blocks, e1: seq<Edge>, e2: seq<Edge>, k: nat)
    requires |e1| == |e2| && k <= |e1|
    ensures EqualFrom(g, P, e1, e2, k) <==> forall j :: k <= j < |e1| ==> SameStep(g, P, e1[j], e2[j])
    decreases |e1| - k
  {
    if k < |e1| {
      EqualFromAll(g, P, e1, e2, k + 1);
      if SameStep(g, P, e1[k], e2[k]) && EqualFrom(g, P, e1, e2, k + 1) {
        forall j | k <= j < |e1| ensures SameStep(g, P, e1[j], e2[j]) {
          if j > k {
            assert SameStep(g, P, e1[j], e2[j]);
          }
        }
      }
    }
  }

  /** `equalGroup` holds exactly when the two signatures are equal. */
  lemma EqualGroupIsSig(g: Graph, P: Blocks, a: nat, b: nat)
    requires a < |g.nodes| && b < |g.nodes|
    ensures EqualGroup(g, P, a, b) <==> Sig(g, P, a) == Sig(g, P, b)
  {
    var e1, e2 := g.nodes[a].edges, g.nodes[b].edges;
    if |e1| == |e2| {
      EqualFromAll(g, P, e1, e2, 0);
      if Sig(g, P, a) == Sig(g, P, b) {
        forall j | 0 <= j < |e1|
          ensures SameStep(g, P, e1[j], e2[j])
        {
          assert Sig(g, P, a)[j] == Sig(g, P, b)[j];
        }
      }
    }
  }

  /** Hence `equalGroup` is an equivalence. */
  lemma EqualGroupEquivalence(g: Graph, P: Blocks, a: nat, b: nat, c: nat)
    requires a < |g.nodes| && b < |g.nodes| && c < |g.nodes|
    ensures EqualGroup(g, P, a, a)
    ensures EqualGroup(g, P, a, b) ==> EqualGroup(g, P, b, a)
    ensures EqualGroup(g, P, a, b) && EqualGroup(g, P, b, c) ==> EqualGroup(g, P, a, c)
  {
    EqualGroupIsSig(g, P, a, a);
    EqualGroupIsSig(g, P, a, b);
    EqualGroupIsSig(g, P, b, a);
    EqualGroupIsSig(g, P, b, c);
    EqualGroupIsSig(g, P, a, c);
  }

  // ---------------------------------------------------------------------------
  // One round of the refinement loop

  /** The states of `s` that `equalGroup` puts with `rep` (`equal`) or apart from it (`!equal`), in order. */
  function Sift(g: Graph, P: Blocks, rep: nat, s: Block, equal: bool): (r: Block)
    requires rep < |g.nodes| && InArena(s, |g.nodes|)
    ensures |r| <= |s| && InArena(r, |g.nodes|)
  {
    if s == [] then []
    else
      TailInArena(s, |g.nodes|);
      (if EqualGroup(g, P, rep, s[0]) == equal then [s[0]] else []) + Sift(g, P, rep, s[1..], equal)
  }

  /**
    How a round splits one block. The first state not yet placed opens a new block,
    which takes every later state that `equalGroup` puts with it; the states left
    over are split the same way. (The source marks placed states in a `used` array
    and scans the whole block each time; the states before the current one are
    already placed, so only the later ones can join.)
  */
  function Split(g: Graph, P: Blocks, B: Block): (S: Blocks)
    requires InArena(B, |g.nodes|)
    ensures |S| <= |B| && forall m :: 0 <= m < |S| ==> S[m] != []
    decreases |B|
  {
    if B == [] then []
    else
      TailInArena(B, |g.nodes|);
      var rest := Sift(g, P, B[0], B[1..], false);
      [[B[0]] + Sift(g, P, B[0], B[1..], true)] + Split(g, P, rest)
  }

  /** The blocks a round makes from blocks i, i+1, ... of `P`, comparing against all of `P`. */
  function StepFrom(g: Graph, P: Blocks, i: nat): (Q: Blocks)
    requires i <= |P| && Arena(P, |g.nodes|)
    decreases |P| - i
  {
    if i == |P| then [] else Split(g, P, P[i]) + StepFrom(g, P, i + 1)
  }

  /** One round of the loop: `newGroups` made from `groups`. */
  function Step(g: Graph, P: Blocks): (Q: Blocks)
    requires Arena(P, |g.nodes|)
  {
    StepFrom(g, P, 0)
  }

  // ---------------------------------------------------------------------------
  // What one split does

  lemma {:induction false} SiftMembers(g: Graph, P: Blocks, rep: nat, s: Block, equal: bool)
    requires rep < |g.nodes| && InArena(s, |g.nodes|)
    ensures forall x :: x in Sift(g, P, rep, s, equal) <==> x in s && EqualGroup(g, P, rep, x) == equal
  {
    if s != [] {
      TailInArena(s, |g.nodes|);
      SiftMembers(g, P, rep, s[1..], equal);
      assert s == [s[0]] + s[1..];
    }
  }

  /** When nothing is set apart from `rep`, everything stays with it. */
  lemma {:induction false} SiftKeepsAll(g: Graph, P: Blocks, rep: nat, s: Block)
    requires rep < |g.nodes| && InArena(s, |g.nodes|)
    ensures Sift(g, P, rep, s, false) == [] ==> Sift(g, P, rep, s, true) == s
  {
    if s != [] {
      TailInArena(s, |g.nodes|);
      SiftKeepsAll(g, P, rep, s[1..]);
      assert s == [s[0]] + s[1..];
    }
  }

  /** A split makes non-empty blocks, and makes none exactly when the block is empty. */
  lemma {:induction false} SplitNonEmpty(g: Graph, P: Blocks, B: Block)
    requires InArena(B, |g.nodes|)
    ensures NonEmpty(Split(g, P, B)) && (Split(g, P, B) == [] <==> B == [])
    decreases |B|
  {
    if B != [] {
      TailInArena(B, |g.nodes|);
      var rest := Sift(g, P, B[0], B[1..], false);
      SplitNonEmpty(g, P, rest);
    }
  }

  /** The blocks of a split hold exactly the states of the block. */
  lemma {:induction false} SplitMembers(g: Graph, P: Blocks, B: Block)
    requires InArena(B, |g.nodes|)
    ensures forall x :: GroupOf(Split(g, P, B), x) >= 0 <==> x in B
    decreases |B|
  {
    if B != [] {
      TailInArena(B, |g.nodes|);
      var rep := B[0];
      var rest := Sift(g, P, rep, B[1..], false);
      var C := [rep] + Sift(g, P, rep, B[1..], true);
      SplitMembers(g, P, rest);
      SiftMembers(g, P, rep, B[1..], false);
      SiftMembers(g, P, rep, B[1..], true);
      forall x ensures GroupOf(Split(g, P, B), x) >= 0 <==> x in B {
        GroupOfCons(C, Split(g, P, rest), x);
        assert x in B <==> x == rep || x in B[1..] by {
          assert B == [rep] + B[1..];
        }
      }
    }
  }

  /** The blocks of a split are disjoint. */
  lemma {:induction false} SplitDisjoint(g: Graph, P: Blocks, B: Block)
    requires InArena(B, |g.nodes|)
    ensures Disjoint(Split(g, P, B))
    decreases |B|
  {
    if B != [] {
      TailInArena(B, |g.nodes|);
      var rep := B[0];
      var rest := Sift(g, P, rep, B[1..], false);
      var C := [rep] + Sift(g, P, rep, B[1..], true);
      var S := Split(g, P, B);
      SplitDisjoint(g, P, rest);
      SplitMembers(g, P, rest);
      SiftMembers(g, P, rep, B[1..], false);
      SiftMembers(g, P, rep, B[1..], true);
      EqualGroupEquivalence(g, P, rep, rep, rep);
      forall m, x | 0 <= m < |S| && x in S[m] ensures GroupOf(S, x) == m {
        GroupOfCons(C, Split(g, P, rest), x);
        if m > 0 {
          assert x in Split(g, P, rest)[m - 1];
          assert x in rest;
        }
      }
    }
  }

  /** Every state of a split block is a state of the block. */
  lemma {:induction false} SplitWithin(g: Graph, P: Blocks, B: Block)
    requires InArena(B, |g.nodes|)
    ensures forall m, x :: 0 <= m < |Split(g, P, B)| && x in Split(g, P, B)[m] ==> x in B
    ensures forall m :: 0 <= m < |Split(g, P, B)| ==> Split(g, P, B)[m] != [] && Split(g, P, B)[m][0] in B
    decreases |B|
  {
    SplitNonEmpty(g, P, B);
    if B != [] {
      TailInArena(B, |g.nodes|);
      var rep := B[0];
      var rest := Sift(g, P, rep, B[1..], false);
      var S := Split(g, P, B);
      SplitWithin(g, P, rest);
      SiftMembers(g, P, rep, B[1..], false);
      SiftMembers(g, P, rep, B[1..], true);
      assert B == [rep] + B[1..];
      forall m, x | 0 <= m < |S| && x in S[m] ensures x in B {
        if m > 0 {
          assert S[m] == Split(g, P, rest)[m - 1];
          assert x in rest;
        } else if x != rep {
          assert x in B[1..];
        }
      }
      forall m | 0 <= m < |S| ensures S[m][0] in B {
        assert S[m][0] in S[m];
      }
    }
  }

  /** Every state of a split block agrees with the block's first state under `equalGroup`. */
  lemma SplitAgrees(g: Graph, P: Blocks, B: Block)
    requires InArena(B, |g.nodes|)
    ensures forall m, x :: 0 <= m < |Split(g, P, B)| && x in Split(g, P, B)[m] ==> x in B
    ensures forall m :: 0 <= m < |Split(g, P, B)| ==> Split(g, P, B)[m] != [] && Split(g, P, B)[m][0] in B
    ensures forall m, x :: 0 <= m < |Split(g, P, B)| && x in Split(g, P, B)[m] ==>
      x in B && EqualGroup(g, P, Split(g, P, B)[m][0], x)
  {
    SplitWithin(g, P, B);
    forall m, x | 0 <= m < |Split(g, P, B)| && x in Split(g, P, B)[m]
      ensures x in B && EqualGroup(g, P, Split(g, P, B)[m][0], x)
    {
      SplitAgreesAt(g, P, B, m, x);
    }
  }

  /** The same for one block `m` of the split and one of its states `x`. */
  lemma {:induction false} SplitAgreesAt(g: Graph, P: Blocks, B: Block, m: nat, x: nat)
    requires InArena(B, |g.nodes|) && m < |Split(g, P, B)| && x in Split(g, P, B)[m]
    ensures x in B && Split(g, P, B)[m][0] in B
    ensures EqualGroup(g, P, Split(g, P, B)[m][0], x)
    decreases |B|
  {
    SplitWithin(g, P, B);
    TailInArena(B, |g.nodes|);
    var rep := B[0];
    var rest := Sift(g, P, rep, B[1..], false);
    var S := Split(g, P, B);
    var C := [rep] + Sift(g, P, rep, B[1..], true);
    assert S == [C] + Split(g, P, rest);
    if m > 0 {
      assert S[m] == Split(g, P, rest)[m - 1];
      SplitAgreesAt(g, P, rest, m - 1, x);
    } else {
      SiftMembers(g, P, rep, B[1..], true);
      EqualGroupEquivalence(g, P, rep, rep, rep);
      assert S[0] == C && C[0] == rep;
      if x != rep {
        assert x in Sift(g, P, rep, B[1..], true);
      }
    }
  }

  /** A block that does not split comes out unchanged. */
  lemma SplitWhole(g: Graph, P: Blocks, B: Block)
    requires InArena(B, |g.nodes|)
    ensures |Split(g, P, B)| == 1 ==> Split(g, P, B) == [B]
  {
    if |Split(g, P, B)| == 1 {
      TailInArena(B, |g.nodes|);
      var rest := Sift(g, P, B[0], B[1..], false);
      SplitNonEmpty(g, P, rest);
      SiftKeepsAll(g, P, B[0], B[1..]);
      assert B == [B[0]] + B[1..];
    }
  }

  /** Two states of a block that every state compares alike end up in the same new block. */
  lemma {:induction false} SplitTogether(g: Graph, P: Blocks, B: Block, x: nat, y: nat)
    requires InArena(B, |g.nodes|) && x in B && y in B
    requires forall z :: z in B ==> EqualGroup(g, P, z, x) == EqualGroup(g, P, z, y)
    ensures GroupOf(Split(g, P, B), x) == GroupOf(Split(g, P, B), y)
    decreases |B|
  {
    TailInArena(B, |g.nodes|);
    var rep := B[0];
    var rest := Sift(g, P, rep, B[1..], false);
    var C := [rep] + Sift(g, P, rep, B[1..], true);
    SiftMembers(g, P, rep, B[1..], false);
    SiftMembers(g, P, rep, B[1..], true);
    EqualGroupEquivalence(g, P, rep, rep, rep);
    GroupOfCons(C, Split(g, P, rest), x);
    GroupOfCons(C, Split(g, P, rest), y);
    assert B == [rep] + B[1..];
    assert rep in B;
    if !EqualGroup(g, P, rep, x) {
      assert x in rest && y in rest;
      SplitTogether(g, P, rest, x, y);
    }
  }

  // ---------------------------------------------------------------------------
  // What one round does

  /** A state lies in block i of a partition exactly when that is its block. */
  lemma InBlock(P: Blocks, n: nat, i: nat, x: int)
    requires Partition(P, n) && i < |P|
    ensures x in P[i] <==> GroupOf(P, x) == i
  {
  }

  /** The blocks made from blocks i, i+1, ... hold exactly the states of those blocks. */
  lemma {:induction false} StepFromMembers(g: Graph, P: Blocks, i: nat)
    requires i <= |P| && Partition(P, |g.nodes|)
    ensures forall x :: GroupOf(StepFrom(g, P, i), x) >= 0 <==> GroupOf(P, x) >= i
    decreases |P| - i
  {
    if i < |P| {
      var A, T := Split(g, P, P[i]), StepFrom(g, P, i + 1);
      StepFromMembers(g, P, i + 1);
      SplitMembers(g, P, P[i]);
      forall x ensures GroupOf(A + T, x) >= 0 <==> GroupOf(P, x) >= i {
        GroupOfAppend(A, T, x);
        InBlock(P, |g.nodes|, i, x);
      }
    }
  }

  /** The blocks made from blocks i, i+1, ... are disjoint. */
  lemma {:induction false} StepFromDisjoint(g: Graph, P: Blocks, i: nat)
    requires i <= |P| && Partition(P, |g.nodes|)
    ensures Disjoint(StepFrom(g, P, i))
    decreases |P| - i
  {
    if i < |P| {
      var A, T := Split(g, P, P[i]), StepFrom(g, P, i + 1);
      StepFromDisjoint(g, P, i + 1);
      StepFromMembers(g, P, i + 1);
      SplitMembers(g, P, P[i]);
      SplitDisjoint(g, P, P[i]);
      var Q: Blocks := A + T;
      forall m, x: nat | 0 <= m < |Q| && x in Q[m] ensures GroupOf(Q, x) == m {
        GroupOfAppend(A, T, x);
        InBlock(P, |g.nodes|, i, x);
        if m < |A| {
          assert Q[m] == A[m];
        } else {
          assert Q[m] == T[m - |A|];
        }
      }
    }
  }

  /**
    Every block a round makes is non-empty, lies in one old block, and agrees with its
    first state under `equalGroup`.
  */
  lemma {:induction false} StepFromRefines(g: Graph, P: Blocks, i: nat)
    requires i <= |P| && Partition(P, |g.nodes|)
    ensures forall m :: 0 <= m < |StepFrom(g, P, i)| ==>
      StepFrom(g, P, i)[m] != [] && StepFrom(g, P, i)[m][0] < |g.nodes|
    ensures Arena(StepFrom(g, P, i), |g.nodes|)
    ensures forall m, x :: 0 <= m < |StepFrom(g, P, i)| && x in StepFrom(g, P, i)[m] ==>
      && GroupOf(P, x) == GroupOf(P, StepFrom(g, P, i)[m][0])
      && EqualGroup(g, P, StepFrom(g, P, i)[m][0], x)
    decreases |P| - i
  {
    if i < |P| {
      var A, T := Split(g, P, P[i]), StepFrom(g, P, i + 1);
      StepFromRefines(g, P, i + 1);
      SplitAgrees(g, P, P[i]);
      var Q := A + T;
      forall m | 0 <= m < |Q| ensures Q[m] != [] && Q[m][0] < |g.nodes| && InArena(Q[m], |g.nodes|) {
        if m < |A| {
          assert Q[m] == A[m];
          forall x | x in A[m] ensures x < |g.nodes| {
            assert x in P[i];
          }
        } else {
          assert Q[m] == T[m - |A|];
        }
      }
      forall m, x | 0 <= m < |Q| && x in Q[m]
        ensures GroupOf(P, x) == GroupOf(P, Q[m][0]) && EqualGroup(g, P, Q[m][0], x)
      {
        if m < |A| {
          assert Q[m] == A[m];
          InBlock(P, |g.nodes|, i, x);
          InBlock(P, |g.nodes|, i, A[m][0]);
        } else {
          assert Q[m] == T[m - |A|];
        }
      }
    }
  }

  /**
    Over non-empty blocks a round makes at least one block per old block, and when it
    makes exactly one per old block it gives back the old blocks unchanged.
  */
  lemma {:induction false} StepFromLength(g: Graph, P: Blocks, i: nat)
    requires i <= |P| && Arena(P, |g.nodes|) && NonEmpty(P)
    ensures |StepFrom(g, P, i)| >= |P| - i
    ensures |StepFrom(g, P, i)| == |P| - i ==> StepFrom(g, P, i) == P[i..]
    decreases |P| - i
  {
    if i < |P| {
      StepFromLength(g, P, i + 1);
      SplitNonEmpty(g, P, P[i]);
      SplitWhole(g, P, P[i]);
      assert P[i..] == [P[i]] + P[i + 1..];
    }
  }

  /**
    Two states of one old block that every state of the block compares alike end up
    in the same new block.
  */
  lemma {:induction false} StepFromTogether(g: Graph, P: Blocks, i: nat, x: nat, y: nat)
    requires i <= |P| && Partition(P, |g.nodes|) && x < |g.nodes| && y < |g.nodes|
    requires i <= GroupOf(P, x) == GroupOf(P, y)
    requires forall z :: z in P[GroupOf(P, x)] ==> EqualGroup(g, P, z, x) == EqualGroup(g, P, z, y)
    ensures GroupOf(StepFrom(g, P, i), x) == GroupOf(StepFrom(g, P, i), y)
    decreases |P| - i
  {
    var A, T := Split(g, P, P[i]), StepFrom(g, P, i + 1);
    GroupOfAppend(A, T, x);
    GroupOfAppend(A, T, y);
    SplitMembers(g, P, P[i]);
    InBlock(P, |g.nodes|, i, x);
    InBlock(P, |g.nodes|, i, y);
    if GroupOf(P, x) == i {
      SplitTogether(g, P, P[i], x, y);
    } else {
      StepFromTogether(g, P, i + 1, x, y);
    }
  }

  /** A round turns a partition into a partition into non-empty blocks. */
  lemma StepPartition(g: Graph, P: Blocks)
    requires Partition(P, |g.nodes|)
    ensures Partition(Step(g, P), |g.nodes|) && NonEmpty(Step(g, P))
  {
    StepFromMembers(g, P, 0);
    StepFromDisjoint(g, P, 0);
    StepFromRefines(g, P, 0);
  }

  /**
    Two states share a block after a round exactly when they shared one before and
    `equalGroup` holds for them against the blocks before the round.
  */
  lemma StepSeparates(g: Graph, P: Blocks, x: nat, y: nat)
    requires Partition(P, |g.nodes|) && x < |g.nodes| && y < |g.nodes|
    ensures GroupOf(Step(g, P), x) == GroupOf(Step(g, P), y) <==>
      GroupOf(P, x) == GroupOf(P, y) && EqualGroup(g, P, x, y)
  {
    var Q := Step(g, P);
    StepPartition(g, P);
    StepFromRefines(g, P, 0);
    if GroupOf(Q, x) == GroupOf(Q, y) {
      var m := GroupOf(Q, x);
      var f := Q[m][0];
      EqualGroupEquivalence(g, P, f, x, y);
      EqualGroupEquivalence(g, P, x, f, y);
    }
    if GroupOf(P, x) == GroupOf(P, y) && EqualGroup(g, P, x, y) {
      forall z | z in P[GroupOf(P, x)] ensures EqualGroup(g, P, z, x) == EqualGroup(g, P, z, y) {
        EqualGroupEquivalence(g, P, z, x, y);
        EqualGroupEquivalence(g, P, z, y, x);
        EqualGroupEquivalence(g, P, x, y, y);
      }
      StepFromTogether(g, P, 0, x, y);
    }
  }

  // ---------------------------------------------------------------------------
  // The refinement loop

  /**
    The loop once every block is non-empty: a round that does not add a block leaves
    the blocks as they are, and the loop stops with them.
  */
  function Refine(g: Graph, P: Blocks): (R: Blocks)
    requires Partition(P, |g.nodes|) && NonEmpty(P)
    decreases |g.nodes| - |P|
  {
    StepPartition(g, P);
    StepFromLength(g, P, 0);
    CountBound(P, |g.nodes|);
    CountBound(Step(g, P), |g.nodes|);
    var Q := Step(g, P);
    if |Q| == |P| then P else Refine(g, Q)
  }

  /** Every block of `R` lies within one block of `P`. */
  predicate Refines(R: Blocks, P: Blocks)
  {
    forall m, x :: 0 <= m < |R| && x in R[m] ==> GroupOf(P, x) == GroupOf(P, R[m][0])
  }

  /** The first state of a block (`elem.first()`), the one its new state copies edges from. */
  function First(B: Block): (x: nat)
    requires B != []
    ensures x in B
  {
    B[0]
  }

  /** Every state of every block agrees under `equalGroup` with the block's first state. */
  predicate Stable(g: Graph, P: Blocks)
    requires Arena(P, |g.nodes|)
  {
    forall m, x :: 0 <= m < |P| && x in P[m] ==> EqualGroup(g, P, First(P[m]), x)
  }

  /**
    The loop ends with a partition into non-empty blocks that a further round would
    leave unchanged, that is stable, and that refines the blocks it started from.
  */
  lemma {:induction false} RefineSpec(g: Graph, P: Blocks)
    requires Partition(P, |g.nodes|) && NonEmpty(P)
    ensures Partition(Refine(g, P), |g.nodes|) && NonEmpty(Refine(g, P))
    ensures Step(g, Refine(g, P)) == Refine(g, P)
    ensures Stable(g, Refine(g, P))
    ensures Refines(Refine(g, P), P)
    decreases |g.nodes| - |P|
  {
    StepPartition(g, P);
    StepFromLength(g, P, 0);
    StepFromRefines(g, P, 0);
    CountBound(P, |g.nodes|);
    CountBound(Step(g, P), |g.nodes|);
    var Q := Step(g, P);
    if |Q| == |P| {
      assert P[0..] == P;
    } else {
      RefineSpec(g, Q);
      var R := Refine(g, Q);
      forall m, x | 0 <= m < |R| && x in R[m] ensures GroupOf(P, x) == GroupOf(P, R[m][0]) {
        var b := GroupOf(Q, x);
        assert R[m][0] in R[m];
        assert GroupOf(Q, R[m][0]) == b;
        assert R[m][0] in Q[b] && x in Q[b];
      }
    }
  }

  // ---------------------------------------------------------------------------
  // The blocks the loop starts from

  /** The positions i, i+1, ... of the final (`final`) or non-final (`!final`) states, in order. */
  function Select(nodes: seq<Node>, i: nat, final: bool): (B: Block)
    requires i <= |nodes|
    ensures InArena(B, |nodes|)
    decreases |nodes| - i
  {
    if i == |nodes| then []
    else (if nodes[i].isFinal == final then [i] else []) + Select(nodes, i + 1, final)
  }

  lemma {:induction false} SelectMembers(nodes: seq<Node>, i: nat, final: bool)
    requires i <= |nodes|
    ensures forall x :: x in Select(nodes, i, final) <==> i <= x < |nodes| && nodes[x].isFinal == final
    decreases |nodes| - i
  {
    if i < |nodes| {
      SelectMembers(nodes, i + 1, final);
    }
  }

  /** The source's first groups: the final states, then the others; either may be empty. */
  function InitialBlocks(g: Graph): (P: Blocks)
  {
    [Select(g.nodes, 0, true), Select(g.nodes, 0, false)]
  }

  /** The same groups with an empty one left out: what the loop needs to start from. */
  function StartBlocks(g: Graph): (P: Blocks)
  {
    var F, N := Select(g.nodes, 0, true), Select(g.nodes, 0, false);
    (if F == [] then [] else [F]) + (if N == [] then [] else [N])
  }

  /** The block of each state among the start blocks: the final states come first. */
  lemma StartBlockOf(g: Graph, x: nat)
    requires x < |g.nodes|
    ensures GroupOf(StartBlocks(g), x) ==
      if g.nodes[x].isFinal || Select(g.nodes, 0, true) == [] then 0 else 1
  {
    var F, N := Select(g.nodes, 0, true), Select(g.nodes, 0, false);
    SelectMembers(g.nodes, 0, true);
    SelectMembers(g.nodes, 0, false);
    if F == [] {
      assert StartBlocks(g) == [N];
    } else if N == [] {
      assert StartBlocks(g) == [F];
    } else {
      assert StartBlocks(g) == [F, N];
    }
  }

  /** The initial groups form a partition. */
  lemma InitialPartition(g: Graph)
    ensures Partition(InitialBlocks(g), |g.nodes|)
  {
    SelectMembers(g.nodes, 0, true);
    SelectMembers(g.nodes, 0, false);
  }

  /** The start blocks form a partition into non-empty blocks. */
  lemma StartPartition(g: Graph)
    ensures Partition(StartBlocks(g), |g.nodes|) && NonEmpty(StartBlocks(g))
  {
    var F, N := Select(g.nodes, 0, true), Select(g.nodes, 0, false);
    var S := StartBlocks(g);
    SelectMembers(g.nodes, 0, true);
    SelectMembers(g.nodes, 0, false);
    forall x | 0 <= x < |g.nodes| ensures GroupOf(S, x) >= 0 {
      StartBlockOf(g, x);
    }
    forall m, x | 0 <= m < |S| && x in S[m] ensures GroupOf(S, x) == m {
      StartBlockOf(g, x);
    }
  }

  /** Two states share a start block exactly when both or neither are final. */
  lemma StartSeparates(g: Graph, x: nat, y: nat)
    requires x < |g.nodes| && y < |g.nodes|
    ensures GroupOf(StartBlocks(g), x) == GroupOf(StartBlocks(g), y) <==> g.nodes[x].isFinal == g.nodes[y].isFinal
  {
    StartBlockOf(g, x);
    StartBlockOf(g, y);
    SelectMembers(g.nodes, 0, true);
    if !g.nodes[x].isFinal && !g.nodes[y].isFinal {
    } else if g.nodes[x].isFinal {
      assert x in Select(g.nodes, 0, true);
    } else {
      assert y in Select(g.nodes, 0, true);
    }
  }

  // ---------------------------------------------------------------------------
  // Building the minimized automaton

  /** Whether some state of the block is final. */
  function AnyFinal(g: Graph, B: Block): bool
    requires InArena(B, |g.nodes|)
  {
    exists x :: x in B && g.nodes[x].isFinal
  }

  /**
    The initial identifier: that of the last block holding a state named by the old
    initial identifier, `ident` (the default "S" of a new graph) when there is none.
  */
  function InitIdent(g: Graph, P: Blocks, i: nat, ident: string): string
    requires i <= |P| && Arena(P, |g.nodes|)
    decreases |P| - i
  {
    if i == |P| then ident
    else
      var holds := exists x :: x in P[i] && g.nodes[x].name == {g.initNode};
      InitIdent(g, P, i + 1, if holds then BlockIdent(i) else ident)
  }

  /**
    The edges of a new state: each edge of the first state, in order, with its target
    replaced by the state of the target's block. A target in no block is
    `newNodes.get(-1)`, an `IndexOutOfBoundsException`.
  */
  function MapEdges(g: Graph, P: Blocks, es: seq<Edge>): (r: Result<seq<Edge>, Fault>)
    ensures r.Success? ==> |r.value| == |es|
  {
    if es == [] then Success([])
    else
      var b := TargetBlock(g, P, es[0]);
      if b < 0 then Failure(IndexOutOfBounds)
      else match MapEdges(g, P, es[1..])
        case Failure(f) => Failure(f)
        case Success(rest) => Success([Edge(es[0].symbol, BlockName(b))] + rest)
  }

  /**
    The states made from blocks i, i+1, ...: block j becomes "N" + (j + 1), final when
    one of its states is, with the edges of its first state. `first()` of an empty
    block is a `NoSuchElementException`.
  */
  function BuildNodes(g: Graph, P: Blocks, i: nat): (r: Result<seq<Node>, Fault>)
    requires i <= |P| && Arena(P, |g.nodes|)
    ensures r.Success? ==> |r.value| == |P| - i
    decreases |P| - i
  {
    if i == |P| then Success([])
    else if P[i] == [] then Failure(NoSuchElement)
    else
      match MapEdges(g, P, g.nodes[First(P[i])].edges)
      case Failure(f) => Failure(f)
      case Success(edges) =>
        match BuildNodes(g, P, i + 1)
        case Failure(f) => Failure(f)
        case Success(rest) => Success([Node(BlockName(i), edges, AnyFinal(g, P[i]))] + rest)
  }

  /** The new graph: one state per block, alphabet and epsilon symbol copied, not marked determinized. */
  function Build(g: Graph, P: Blocks): (r: Result<Graph, Fault>)
    requires Arena(P, |g.nodes|)
  {
    match BuildNodes(g, P, 0)
    case Failure(f) => Failure(f)
    case Success(nodes) => Success(Graph(nodes, g.alphabet, g.lambda, InitIdent(g, P, 0, "S"), false))
  }

  // ---------------------------------------------------------------------------
  // minimize

  /**
    `minimize` as written. The first round runs on the two initial groups, one of
    which may be empty; an empty group vanishes in the round. When that round ends
    with as many blocks as it began with, the graph is built from the initial groups,
    empty one included, and `first()` of the empty group throws. Whether the graph is
    determinized is only reported.
  */
  function MinimizeAsWritten(g: Graph): (r: Result<Graph, Fault>)
    ensures r.Success? ==> r.value.alphabet == g.alphabet && r.value.lambda == g.lambda && !r.value.determinized
  {
    InitialPartition(g);
    StepPartition(g, InitialBlocks(g));
    RefineSpec(g, Step(g, InitialBlocks(g)));
    var P := InitialBlocks(g);
    var Q := Step(g, P);
    if |Q| == |P| then Build(g, P) else Build(g, Refine(g, Q))
  }

  /** The blocks the corrected loop ends with. */
  function Classes(g: Graph): (R: Blocks)
    ensures Partition(R, |g.nodes|) && NonEmpty(R)
  {
    StartPartition(g);
    RefineSpec(g, StartBlocks(g));
    Refine(g, StartBlocks(g))
  }

  /** `minimize` with an empty initial group left out, so that no block is ever empty. */
  function Minimize(g: Graph): (r: Result<Graph, Fault>)
    ensures r.Success? ==> r.value.alphabet == g.alphabet && r.value.lambda == g.lambda && !r.value.determinized
  {
    StartPartition(g);
    RefineSpec(g, StartBlocks(g));
    Build(g, Classes(g))
  }

  // ---------------------------------------------------------------------------
  // What the build produces

  /** Mapping edges fails exactly when a target is in no block, and otherwise maps each edge in place. */
  lemma {:induction false} MapEdgesSpec(g: Graph, P: Blocks, es: seq<Edge>)
    ensures MapEdges(g, P, es).Success? <==> forall k :: 0 <= k < |es| ==> TargetBlock(g, P, es[k]) >= 0
    ensures MapEdges(g, P, es).Success? ==>
      && |MapEdges(g, P, es).value| == |es|
      && forall k :: 0 <= k < |es| ==>
           MapEdges(g, P, es).value[k] == Edge(es[k].symbol, BlockName(TargetBlock(g, P, es[k])))
  {
    if es != [] {
      MapEdgesSpec(g, P, es[1..]);
      assert forall k :: 1 <= k < |es| ==> es[k] == es[1..][k - 1];
    }
  }

  /** The edges of a block's new state, when they can be built. */
  function BlockEdges(g: Graph, P: Blocks, j: nat): Result<seq<Edge>, Fault>
    requires Arena(P, |g.nodes|) && j < |P| && P[j] != []
  {
    MapEdges(g, P, g.nodes[First(P[j])].edges)
  }

  /** Building from blocks i, ... succeeds exactly when each is non-empty and the edges of its first state can be mapped. */
  lemma {:induction false} BuildNodesSucceeds(g: Graph, P: Blocks, i: nat)
    requires i <= |P| && Arena(P, |g.nodes|)
    ensures BuildNodes(g, P, i).Success? <==>
      forall j :: i <= j < |P| ==> P[j] != [] && BlockEdges(g, P, j).Success?
    decreases |P| - i
  {
    if i < |P| {
      BuildNodesSucceeds(g, P, i + 1);
    }
  }

  /** Built from blocks i, ..., there is one state per block. */
  lemma {:induction false} BuildNodesLength(g: Graph, P: Blocks, i: nat)
    requires i <= |P| && Arena(P, |g.nodes|)
    requires BuildNodes(g, P, i).Success?
    ensures |BuildNodes(g, P, i).value| == |P| - i
    decreases |P| - i
  {
    if i < |P| {
      BuildNodesLength(g, P, i + 1);
    }
  }

  /** Built from blocks i, ..., block j becomes the (j - i)-th state, named "N" + (j + 1). */
  lemma {:induction false} BuildNodesAt(g: Graph, P: Blocks, i: nat, j: nat)
    requires i <= j < |P| && Arena(P, |g.nodes|)
    requires BuildNodes(g, P, i).Success?
    ensures P[j] != [] && BlockEdges(g, P, j).Success?
    ensures j - i < |BuildNodes(g, P, i).value|
    ensures BuildNodes(g, P, i).value[j - i] == Node(BlockName(j), BlockEdges(g, P, j).value, AnyFinal(g, P[j]))
    decreases j - i
  {
    BuildNodesLength(g, P, i);
    if j > i {
      BuildNodesAt(g, P, i + 1, j);
      var rest := BuildNodes(g, P, i + 1).value;
      assert BuildNodes(g, P, i).value == [Node(BlockName(i), BlockEdges(g, P, i).value, AnyFinal(g, P[i]))] + rest;
    }
  }

  /**
    Building from blocks i, ... where some block is empty fails with
    `NoSuchElementException` when every non-empty block's edges can be mapped.
  */
  lemma {:induction false} BuildNodesEmptyBlock(g: Graph, P: Blocks, i: nat, e: nat)
    requires i <= e < |P| && Arena(P, |g.nodes|) && P[e] == []
    requires forall j :: i <= j < |P| && P[j] != [] ==> BlockEdges(g, P, j).Success?
    ensures BuildNodes(g, P, i) == Failure(NoSuchElement)
    decreases |P| - i
  {
    if P[i] != [] {
      BuildNodesEmptyBlock(g, P, i + 1, e);
    }
  }

  /** Over a partition of a closed automaton, every edge target lies in some block. */
  lemma TargetsInBlocks(g: Graph, P: Blocks, j: nat)
    requires Closed(g.nodes) && Partition(P, |g.nodes|) && j < |P| && P[j] != []
    ensures BlockEdges(g, P, j).Success?
  {
    var es := g.nodes[First(P[j])].edges;
    MapEdgesSpec(g, P, es);
    forall k | 0 <= k < |es| ensures TargetBlock(g, P, es[k]) >= 0 {
      assert Registered(g.nodes, g.nodes[First(P[j])].edges[k].target);
    }
  }

  /** All states of a block of the loop's result share finality. */
  lemma ClassFinal(g: Graph, m: nat, x: nat)
    requires m < |Classes(g)| && x in Classes(g)[m]
    ensures AnyFinal(g, Classes(g)[m]) == g.nodes[x].isFinal
  {
    var R := Classes(g);
    StartPartition(g);
    RefineSpec(g, StartBlocks(g));
    forall y | y in R[m] ensures g.nodes[y].isFinal == g.nodes[x].isFinal {
      StartSeparates(g, x, y);
    }
  }

  /** All states of a block of the loop's result have the same signature as its first state. */
  lemma ClassSig(g: Graph, m: nat, x: nat)
    requires m < |Classes(g)| && x in Classes(g)[m]
    ensures x < |g.nodes| && Sig(g, Classes(g), x) == Sig(g, Classes(g), First(Classes(g)[m]))
  {
    StartPartition(g);
    RefineSpec(g, StartBlocks(g));
    EqualGroupIsSig(g, Classes(g), First(Classes(g)[m]), x);
  }

  /**
    On a closed automaton the corrected `minimize` cannot fail, and it makes one state
    per block of the loop's result, never more states than it was given.
  */
  lemma MinimizeSucceeds(g: Graph)
    requires Closed(g.nodes)
    ensures Minimize(g).Success?
    ensures |Minimize(g).value.nodes| == |Classes(g)| <= |g.nodes|
    ensures Minimize(g).value.alphabet == g.alphabet && Minimize(g).value.lambda == g.lambda
    ensures !Minimize(g).value.determinized
  {
    var R := Classes(g);
    StartPartition(g);
    RefineSpec(g, StartBlocks(g));
    CountBound(R, |g.nodes|);
    forall j | 0 <= j < |R| ensures R[j] != [] && BlockEdges(g, R, j).Success? {
      TargetsInBlocks(g, R, j);
    }
    BuildNodesSucceeds(g, R, 0);
    BuildNodesLength(g, R, 0);
  }

  /** The state made from block b of the loop's result. */
  lemma MinimizeNode(g: Graph, b: nat)
    requires Closed(g.nodes) && b < |Classes(g)|
    ensures Minimize(g).Success? && b < |Minimize(g).value.nodes|
    ensures BlockEdges(g, Classes(g), b).Success?
    ensures Minimize(g).value.nodes[b] ==
      Node(BlockName(b), BlockEdges(g, Classes(g), b).value, AnyFinal(g, Classes(g)[b]))
  {
    MinimizeSucceeds(g);
    BuildNodesAt(g, Classes(g), 0, b);
  }

  /**
    The state made from the block of `x` is final exactly when `x` is: the result is
    the quotient of the automaton by the blocks, as far as finality goes.
  */
  lemma MinimizeFinal(g: Graph, x: nat)
    requires Closed(g.nodes) && x < |g.nodes|
    ensures Minimize(g).Success?
    ensures var r, b := Minimize(g).value, GroupOf(Classes(g), x);
      && 0 <= b < |r.nodes|
      && r.nodes[b].name == BlockName(b)
      && r.nodes[b].isFinal == g.nodes[x].isFinal
  {
    var b := GroupOf(Classes(g), x);
    MinimizeNode(g, b);
    ClassFinal(g, b, x);
  }

  /**
    The k-th edge of the state made from the block of `x` carries the symbol of the
    k-th edge of `x` to the state made from the block of that edge's target: the result
    is the quotient of the automaton by the blocks, edge for edge.
  */
  lemma MinimizeEdges(g: Graph, x: nat)
    requires Closed(g.nodes) && x < |g.nodes|
    ensures Minimize(g).Success?
    ensures var r, R := Minimize(g).value, Classes(g);
      var b := GroupOf(R, x);
      && 0 <= b < |r.nodes|
      && |r.nodes[b].edges| == |g.nodes[x].edges|
      && forall k :: 0 <= k < |g.nodes[x].edges| ==>
           && TargetBlock(g, R, g.nodes[x].edges[k]) >= 0
           && r.nodes[b].edges[k] == Edge(g.nodes[x].edges[k].symbol, BlockName(TargetBlock(g, R, g.nodes[x].edges[k])))
  {
    var R := Classes(g);
    var b := GroupOf(R, x);
    MinimizeNode(g, b);
    ClassSig(g, b, x);
    var f := First(R[b]);
    MapEdgesSpec(g, R, g.nodes[f].edges);
    var r := Minimize(g).value;
    forall k | 0 <= k < |g.nodes[x].edges|
      ensures TargetBlock(g, R, g.nodes[x].edges[k]) >= 0
      ensures r.nodes[b].edges[k] == Edge(g.nodes[x].edges[k].symbol, BlockName(TargetBlock(g, R, g.nodes[x].edges[k])))
    {
      assert Sig(g, R, x)[k] == Sig(g, R, f)[k];
    }
  }

  /** When state b is named after block b, for every b, each block name is found at its own block. */
  lemma NamedBlocks(nodes: seq<Node>, c: nat)
    requires c < |nodes| && forall b :: 0 <= b < |nodes| ==> nodes[b].name == BlockName(b)
    ensures IndexOf(nodes, BlockName(c)) == c
  {
    forall j | 0 <= j < c ensures nodes[j].name != BlockName(c) {
      BlockIdentInjective(j, c);
      assert BlockIdent(j) in BlockName(j);
    }
  }

  /** The new states are named "N1", "N2", ... in block order, so each name is found at its own block. */
  lemma MinimizeNames(g: Graph)
    requires Closed(g.nodes)
    ensures Minimize(g).Success?
    ensures forall b :: 0 <= b < |Minimize(g).value.nodes| ==>
      && Minimize(g).value.nodes[b].name == BlockName(b)
      && IndexOf(Minimize(g).value.nodes, BlockName(b)) == b
  {
    MinimizeSucceeds(g);
    var r := Minimize(g).value;
    forall b | 0 <= b < |r.nodes| ensures r.nodes[b].name == BlockName(b) {
      MinimizeNode(g, b);
    }
    forall b | 0 <= b < |r.nodes| ensures IndexOf(r.nodes, BlockName(b)) == b {
      NamedBlocks(r.nodes, b);
    }
  }

  /** A well-formed automaton minimizes to a well-formed automaton. */
  lemma MinimizeWellFormed(g: Graph)
    requires WellFormed(g)
    ensures Minimize(g).Success? && WellFormed(Minimize(g).value)
  {
    MinimizeNames(g);
    MinimizeSucceeds(g);
    var r, R := Minimize(g).value, Classes(g);
    forall i, j | 0 <= i < j < |r.nodes| ensures r.nodes[i].name != r.nodes[j].name {
      assert IndexOf(r.nodes, BlockName(j)) == j;
    }
    forall b, k | 0 <= b < |r.nodes| && 0 <= k < |r.nodes[b].edges|
      ensures Registered(r.nodes, r.nodes[b].edges[k].target)
    {
      MinimizeNode(g, b);
      MapEdgesSpec(g, R, g.nodes[First(R[b])].edges);
      var t := TargetBlock(g, R, g.nodes[First(R[b])].edges[k]);
      assert r.nodes[t].name == r.nodes[b].edges[k].target;
    }
  }

  /**
    With unique names, the initial identifier found from block i on is that of the
    block holding the state named by the old initial identifier, if that block comes
    at i or later; otherwise `ident` is kept.
  */
  lemma {:induction false} InitIdentSpec(g: Graph, P: Blocks, i: nat, ident: string)
    requires i <= |P| && Partition(P, |g.nodes|) && UniqueNames(g.nodes)
    ensures var p := IndexOf(g.nodes, {g.initNode});
      InitIdent(g, P, i, ident) == if p >= 0 && GroupOf(P, p) >= i then BlockIdent(GroupOf(P, p)) else ident
    decreases |P| - i
  {
    if i < |P| {
      var p := IndexOf(g.nodes, {g.initNode});
      var holds := exists x :: x in P[i] && g.nodes[x].name == {g.initNode};
      assert holds <==> p >= 0 && GroupOf(P, p) == i by {
        if holds {
          var x :| x in P[i] && g.nodes[x].name == {g.initNode};
          UniqueIndexOf(g.nodes, x);
        }
        if p >= 0 && GroupOf(P, p) == i {
          assert p in P[i];
        }
      }
      InitIdentSpec(g, P, i + 1, if holds then BlockIdent(i) else ident);
    }
  }

  /**
    With unique names, the new initial identifier names the state made from the block
    of the old initial state; when no state has the old initial identifier, it is the
    default "S".
  */
  lemma MinimizeInitial(g: Graph)
    requires Closed(g.nodes) && UniqueNames(g.nodes)
    ensures Minimize(g).Success?
    ensures var r, p := Minimize(g).value, IndexOf(g.nodes, {g.initNode});
      && (p < 0 ==> r.initNode == "S")
      && (p >= 0 ==> 0 <= GroupOf(Classes(g), p) && IndexOf(r.nodes, {r.initNode}) == GroupOf(Classes(g), p))
  {
    MinimizeSucceeds(g);
    var R := Classes(g);
    var r := Minimize(g).value;
    assert r.initNode == InitIdent(g, R, 0, "S");
    InitIdentSpec(g, R, 0, "S");
    var p := IndexOf(g.nodes, {g.initNode});
    if p >= 0 {
      var b := GroupOf(R, p);
      assert r.initNode == BlockIdent(b);
      MinimizeNames(g);
      assert {r.initNode} == BlockName(b);
    }
  }

  // ---------------------------------------------------------------------------
  // Minimization keeps the language

  /**
    The state at position i accepts the word w: w is empty and the state is final,
    or some edge carries the first symbol of w to a state that accepts the rest.
    Every symbol is read as a letter, the epsilon symbol included.
  */
  predicate Accepts(nodes: seq<Node>, i: int, w: seq<string>)
    decreases |w|
  {
    && 0 <= i < |nodes|
    && if w == [] then nodes[i].isFinal
       else (exists k :: 0 <= k < |nodes[i].edges| && nodes[i].edges[k].symbol == w[0] &&
               Accepts(nodes, IndexOf(nodes, nodes[i].edges[k].target), w[1..]))
  }

  /**
    `nodes` is the quotient of the automaton by the blocks R at state x: the state of
    x's block is final exactly when x is, and its k-th edge reads the symbol of x's
    k-th edge and leads to the state named after the block of that edge's target.
  */
  predicate QuotientAt(g: Graph, R: Blocks, nodes: seq<Node>, x: nat)
    requires x < |g.nodes|
  {
    var b, es := GroupOf(R, x), g.nodes[x].edges;
    && 0 <= b < |nodes|
    && nodes[b].isFinal == g.nodes[x].isFinal
    && |nodes[b].edges| == |es|
    && forall k :: 0 <= k < |es| ==>
         && TargetBlock(g, R, es[k]) >= 0
         && nodes[b].edges[k] == Edge(es[k].symbol, BlockName(TargetBlock(g, R, es[k])))
  }

  /** `nodes` is the quotient of the automaton by R: state b is named after block b and the quotient holds at every state. */
  predicate Quotient(g: Graph, R: Blocks, nodes: seq<Node>)
  {
    && (forall b :: 0 <= b < |nodes| ==> nodes[b].name == BlockName(b))
    && forall x :: 0 <= x < |g.nodes| ==> QuotientAt(g, R, nodes, x)
  }

  /** The minimized automaton is the quotient of the automaton by the loop's blocks. */
  lemma MinimizeQuotient(g: Graph)
    requires Closed(g.nodes)
    ensures Minimize(g).Success? && Quotient(g, Classes(g), Minimize(g).value.nodes)
  {
    MinimizeNames(g);
    forall x | 0 <= x < |g.nodes| ensures QuotientAt(g, Classes(g), Minimize(g).value.nodes, x) {
      MinimizeFinal(g, x);
      MinimizeEdges(g, x);
    }
  }

  /** One step in a quotient: the k-th edge of x and of x's block lead to a state and to its block. */
  lemma QuotientEdge(g: Graph, R: Blocks, nodes: seq<Node>, x: nat, k: nat)
    requires Closed(g.nodes) && Quotient(g, R, nodes) && x < |g.nodes| && k < |g.nodes[x].edges|
    ensures var b, t := GroupOf(R, x), IndexOf(g.nodes, g.nodes[x].edges[k].target);
      && 0 <= t < |g.nodes|
      && 0 <= b < |nodes| && k < |nodes[b].edges|
      && nodes[b].edges[k].symbol == g.nodes[x].edges[k].symbol
      && IndexOf(nodes, nodes[b].edges[k].target) == GroupOf(R, t)
  {
    assert QuotientAt(g, R, nodes, x);
    assert Registered(g.nodes, g.nodes[x].edges[k].target);
    var t := IndexOf(g.nodes, g.nodes[x].edges[k].target);
    assert QuotientAt(g, R, nodes, t);
    NamedBlocks(nodes, GroupOf(R, t));
  }

  /** In a quotient, every state accepts the same words as the state of its block. */
  lemma {:induction false} QuotientKeepsLanguage(g: Graph, R: Blocks, nodes: seq<Node>, x: nat, w: seq<string>)
    requires Closed(g.nodes) && Quotient(g, R, nodes) && x < |g.nodes|
    ensures Accepts(g.nodes, x, w) <==> Accepts(nodes, GroupOf(R, x), w)
    decreases |w|
  {
    assert QuotientAt(g, R, nodes, x);
    var b := GroupOf(R, x);
    var es := g.nodes[x].edges;
    if w != [] {
      if Accepts(g.nodes, x, w) {
        var k :| 0 <= k < |es| && es[k].symbol == w[0] && Accepts(g.nodes, IndexOf(g.nodes, es[k].target), w[1..]);
        QuotientEdge(g, R, nodes, x, k);
        QuotientKeepsLanguage(g, R, nodes, IndexOf(g.nodes, es[k].target), w[1..]);
      }
      if Accepts(nodes, b, w) {
        var k :| 0 <= k < |nodes[b].edges| && nodes[b].edges[k].symbol == w[0] &&
          Accepts(nodes, IndexOf(nodes, nodes[b].edges[k].target), w[1..]);
        QuotientEdge(g, R, nodes, x, k);
        QuotientKeepsLanguage(g, R, nodes, IndexOf(g.nodes, es[k].target), w[1..]);
      }
    }
  }

  /** Every state accepts the same words as the state made from its block. */
  lemma MinimizeKeepsLanguage(g: Graph, x: nat, w: seq<string>)
    requires Closed(g.nodes) && x < |g.nodes|
    ensures Minimize(g).Success?
    ensures Accepts(g.nodes, x, w) <==> Accepts(Minimize(g).value.nodes, GroupOf(Classes(g), x), w)
  {
    MinimizeQuotient(g);
    QuotientKeepsLanguage(g, Classes(g), Minimize(g).value.nodes, x, w);
  }

  /** With unique names, the minimized automaton accepts from its initial state what the original accepts from its own. */
  lemma MinimizeKeepsInitialLanguage(g: Graph, w: seq<string>)
    requires Closed(g.nodes) && UniqueNames(g.nodes) && Registered(g.nodes, {g.initNode})
    ensures Minimize(g).Success?
    ensures var r := Minimize(g).value;
      Accepts(g.nodes, IndexOf(g.nodes, {g.initNode}), w) <==> Accepts(r.nodes, IndexOf(r.nodes, {r.initNode}), w)
  {
    MinimizeInitial(g);
    MinimizeKeepsLanguage(g, IndexOf(g.nodes, {g.initNode}), w);
  }

  // ---------------------------------------------------------------------------
  // The blocks are the coarsest congruence

  /** The number `c` gives the state named n; -1 when no state has that name. */
  function ClassOf(g: Graph, c: seq<int>, n: Name): (k: int)
    ensures Registered(g.nodes, n) && |c| == |g.nodes| ==> k == c[IndexOf(g.nodes, n)]
  {
    var i := IndexOf(g.nodes, n);
    if 0 <= i < |c| then c[i] else -1
  }

  /**
    States x and y agree under the numbering c: equal finality, equally many edges,
    and edges at the same position read the same symbol and lead to equally numbered
    states. Edges are compared by position, as `equalGroup` compares them.
  */
  predicate Matches(g: Graph, c: seq<int>, x: nat, y: nat)
    requires x < |g.nodes| && y < |g.nodes|
  {
    var ex, ey := g.nodes[x].edges, g.nodes[y].edges;
    && g.nodes[x].isFinal == g.nodes[y].isFinal
    && |ex| == |ey|
    && forall k :: 0 <= k < |ex| ==>
         ex[k].symbol == ey[k].symbol && ClassOf(g, c, ex[k].target) == ClassOf(g, c, ey[k].target)
  }

  /** A numbering of the states under which equally numbered states agree. */
  predicate Congruence(g: Graph, c: seq<int>)
  {
    && |c| == |g.nodes|
    && forall x, y :: 0 <= x < |c| && 0 <= y < |c| && c[x] == c[y] ==> Matches(g, c, x, y)
  }

  /** The blocks keep equally numbered states together. */
  predicate Respects(P: Blocks, c: seq<int>)
  {
    forall x, y :: 0 <= x < |c| && 0 <= y < |c| && c[x] == c[y] ==> GroupOf(P, x) == GroupOf(P, y)
  }

  /** Under blocks that keep a congruence's classes together, equally numbered states have the same signature. */
  lemma CongruentSig(g: Graph, P: Blocks, c: seq<int>, x: nat, y: nat)
    requires Closed(g.nodes) && Congruence(g, c) && Respects(P, c)
    requires x < |g.nodes| && y < |g.nodes| && c[x] == c[y]
    ensures Sig(g, P, x) == Sig(g, P, y)
  {
    assert Matches(g, c, x, y);
    var ex, ey := g.nodes[x].edges, g.nodes[y].edges;
    forall k | 0 <= k < |ex| ensures Sig(g, P, x)[k] == Sig(g, P, y)[k] {
      assert Registered(g.nodes, ex[k].target) && Registered(g.nodes, ey[k].target);
      assert ClassOf(g, c, ex[k].target) == ClassOf(g, c, ey[k].target);
    }
  }

  /** A round keeps a congruence's classes together. */
  lemma StepRespects(g: Graph, P: Blocks, c: seq<int>)
    requires Closed(g.nodes) && Partition(P, |g.nodes|) && Congruence(g, c) && Respects(P, c)
    ensures Respects(Step(g, P), c)
  {
    forall x, y | 0 <= x < |c| && 0 <= y < |c| && c[x] == c[y]
      ensures GroupOf(Step(g, P), x) == GroupOf(Step(g, P), y)
    {
      CongruentSig(g, P, c, x, y);
      var b := GroupOf(P, x);
      forall z | z in P[b] ensures EqualGroup(g, P, z, x) == EqualGroup(g, P, z, y) {
        EqualGroupIsSig(g, P, z, x);
        EqualGroupIsSig(g, P, z, y);
      }
      StepFromTogether(g, P, 0, x, y);
    }
  }

  /** The loop keeps a congruence's classes together. */
  lemma {:induction false} RefineRespects(g: Graph, P: Blocks, c: seq<int>)
    requires Closed(g.nodes) && Partition(P, |g.nodes|) && NonEmpty(P)
    requires Congruence(g, c) && Respects(P, c)
    ensures Respects(Refine(g, P), c)
    decreases |g.nodes| - |P|
  {
    StepPartition(g, P);
    StepFromLength(g, P, 0);
    CountBound(P, |g.nodes|);
    CountBound(Step(g, P), |g.nodes|);
    if |Step(g, P)| != |P| {
      StepRespects(g, P, c);
      RefineRespects(g, Step(g, P), c);
    }
  }

  /** The start blocks separate only final from non-final states, which a congruence never joins. */
  lemma StartRespects(g: Graph, c: seq<int>)
    requires Congruence(g, c)
    ensures Respects(StartBlocks(g), c)
  {
    forall x, y | 0 <= x < |c| && 0 <= y < |c| && c[x] == c[y]
      ensures GroupOf(StartBlocks(g), x) == GroupOf(StartBlocks(g), y)
    {
      assert Matches(g, c, x, y);
      StartSeparates(g, x, y);
    }
  }

  /** Any two states a congruence numbers alike end in the same block. */
  lemma ClassesCoarsest(g: Graph, c: seq<int>, x: nat, y: nat)
    requires Closed(g.nodes) && Congruence(g, c) && x < |g.nodes| && y < |g.nodes| && c[x] == c[y]
    ensures GroupOf(Classes(g), x) == GroupOf(Classes(g), y)
  {
    StartPartition(g);
    StartRespects(g, c);
    RefineRespects(g, StartBlocks(g), c);
  }

  /** Each state numbered by its block. */
  function BlockNumbers(g: Graph): (c: seq<int>)
    ensures |c| == |g.nodes|
    ensures forall x :: 0 <= x < |c| ==> c[x] == GroupOf(Classes(g), x)
  {
    seq(|g.nodes|, x requires 0 <= x < |g.nodes| => GroupOf(Classes(g), x))
  }

  /** The blocks themselves form a congruence, so they are the coarsest one. */
  lemma ClassesCongruence(g: Graph)
    requires Closed(g.nodes)
    ensures Congruence(g, BlockNumbers(g))
  {
    var R, c := Classes(g), BlockNumbers(g);
    forall x, y | 0 <= x < |c| && 0 <= y < |c| && c[x] == c[y] ensures Matches(g, c, x, y) {
      var b := GroupOf(R, x);
      ClassFinal(g, b, x);
      ClassFinal(g, b, y);
      ClassSig(g, b, x);
      ClassSig(g, b, y);
      var ex, ey := g.nodes[x].edges, g.nodes[y].edges;
      forall k | 0 <= k < |ex|
        ensures ex[k].symbol == ey[k].symbol && ClassOf(g, c, ex[k].target) == ClassOf(g, c, ey[k].target)
      {
        assert Sig(g, R, x)[k] == Sig(g, R, y)[k];
        assert Registered(g.nodes, ex[k].target) && Registered(g.nodes, ey[k].target);
      }
    }
  }

  // ---------------------------------------------------------------------------
  // An empty initial group

  /** Two block lists that group the positions alike, whatever numbers they give the blocks. */
  ghost predicate SameBlocks(P1: Blocks, P2: Blocks)
  {
    forall x: int, y: int :: GroupOf(P1, x) == GroupOf(P1, y) <==> GroupOf(P2, x) == GroupOf(P2, y)
  }

  /** `equalGroup` sees only which targets share a block, not the blocks' numbers. */
  lemma SamePattern(g: Graph, P1: Blocks, P2: Blocks, a: nat, b: nat)
    requires SameBlocks(P1, P2) && a < |g.nodes| && b < |g.nodes|
    ensures EqualGroup(g, P1, a, b) == EqualGroup(g, P2, a, b)
  {
    EqualGroupIsSig(g, P1, a, b);
    EqualGroupIsSig(g, P2, a, b);
    var ea, eb := g.nodes[a].edges, g.nodes[b].edges;
    if |ea| == |eb| {
      forall k | 0 <= k < |ea|
        ensures (Sig(g, P1, a)[k] == Sig(g, P1, b)[k]) == (Sig(g, P2, a)[k] == Sig(g, P2, b)[k])
      {
        var x, y := IndexOf(g.nodes, ea[k].target), IndexOf(g.nodes, eb[k].target);
        assert GroupOf(P1, x) == GroupOf(P1, y) <==> GroupOf(P2, x) == GroupOf(P2, y);
      }
      if Sig(g, P1, a) == Sig(g, P1, b) {
        assert forall k :: 0 <= k < |ea| ==> Sig(g, P2, a)[k] == Sig(g, P2, b)[k];
      }
      if Sig(g, P2, a) == Sig(g, P2, b) {
        assert forall k :: 0 <= k < |ea| ==> Sig(g, P1, a)[k] == Sig(g, P1, b)[k];
      }
    }
  }

  lemma {:induction false} SiftSame(g: Graph, P1: Blocks, P2: Blocks, rep: nat, s: Block, equal: bool)
    requires SameBlocks(P1, P2) && rep < |g.nodes| && InArena(s, |g.nodes|)
    ensures Sift(g, P1, rep, s, equal) == Sift(g, P2, rep, s, equal)
  {
    if s != [] {
      TailInArena(s, |g.nodes|);
      SamePattern(g, P1, P2, rep, s[0]);
      SiftSame(g, P1, P2, rep, s[1..], equal);
    }
  }

  /** Splitting a block under two block lists that group alike gives the same blocks. */
  lemma {:induction false} SplitSame(g: Graph, P1: Blocks, P2: Blocks, B: Block)
    requires SameBlocks(P1, P2) && InArena(B, |g.nodes|)
    ensures Split(g, P1, B) == Split(g, P2, B)
    decreases |B|
  {
    if B != [] {
      TailInArena(B, |g.nodes|);
      SiftSame(g, P1, P2, B[0], B[1..], true);
      SiftSame(g, P1, P2, B[0], B[1..], false);
      SplitSame(g, P1, P2, Sift(g, P1, B[0], B[1..], false));
    }
  }

  /** A round on two blocks splits each of them in turn. */
  lemma StepPair(g: Graph, A: Block, B: Block)
    requires InArena(A, |g.nodes|) && InArena(B, |g.nodes|)
    ensures Arena([A, B], |g.nodes|)
    ensures Step(g, [A, B]) == Split(g, [A, B], A) + Split(g, [A, B], B)
  {
    var P := [A, B];
    assert StepFrom(g, P, 2) == [];
    assert StepFrom(g, P, 1) == Split(g, P, B) + [];
  }

  /** A round on one block splits it. */
  lemma StepSingle(g: Graph, A: Block)
    requires InArena(A, |g.nodes|)
    ensures Arena([A], |g.nodes|)
    ensures Step(g, [A]) == Split(g, [A], A)
  {
    assert StepFrom(g, [A], 1) == [];
    assert Step(g, [A]) == Split(g, [A], A) + [];
  }

  /** The first round on the initial groups gives what it gives on the start blocks: an empty group adds nothing. */
  lemma InitialStep(g: Graph)
    ensures Arena(InitialBlocks(g), |g.nodes|) && Arena(StartBlocks(g), |g.nodes|)
    ensures Step(g, InitialBlocks(g)) == Step(g, StartBlocks(g))
  {
    InitialPartition(g);
    StartPartition(g);
    var F, N := Select(g.nodes, 0, true), Select(g.nodes, 0, false);
    var P1, P2 := InitialBlocks(g), StartBlocks(g);
    if F == [] && N != [] {
      assert P2 == [N];
      forall x: int ensures GroupOf(P1, x) == if GroupOf(P2, x) >= 0 then 1 + GroupOf(P2, x) else -1 {
        GroupOfCons([], [N], x);
      }
      SplitSame(g, P1, P2, N);
      StepPair(g, [], N);
      StepSingle(g, N);
      assert Split(g, P1, []) == [];
      assert Step(g, P1) == [] + Split(g, P1, N);
    } else if F != [] && N == [] {
      assert P2 == [F];
      forall x: int ensures GroupOf(P1, x) == GroupOf(P2, x) {
        GroupOfCons(F, [[]], x);
        GroupOfCons(F, [], x);
        GroupOfCons([], [], x);
      }
      SplitSame(g, P1, P2, F);
      StepPair(g, F, []);
      StepSingle(g, F);
      assert Split(g, P1, []) == [];
      assert Step(g, P1) == Split(g, P1, F) + [];
    } else if F == [] && N == [] {
      StepPair(g, [], []);
      assert Split(g, P1, []) == [];
      assert P2 == [] && StepFrom(g, P2, 0) == [];
    } else {
      assert P1 == P2;
    }
  }

  /**
    The inputs on which `minimize` as written goes wrong: exactly one initial group is
    empty, and the first round makes exactly two blocks, as many as there were groups.
  */
  predicate BadStart(g: Graph)
  {
    InitialPartition(g);
    var F, N := Select(g.nodes, 0, true), Select(g.nodes, 0, false);
    (F == []) != (N == []) && |Step(g, InitialBlocks(g))| == 2
  }

  /** Everywhere else `minimize` as written and the corrected `minimize` agree. */
  lemma MinimizeAsWrittenAgrees(g: Graph)
    requires !BadStart(g)
    ensures MinimizeAsWritten(g) == Minimize(g)
  {
    InitialStep(g);
    InitialPartition(g);
    StartPartition(g);
    var F, N := Select(g.nodes, 0, true), Select(g.nodes, 0, false);
    var P, S := InitialBlocks(g), StartBlocks(g);
    if F != [] && N != [] {
      assert P == S;
    } else if F == [] && N == [] {
      assert S == [] && Step(g, S) == [];
    } else {
      OneGroupAgrees(g);
    }
  }

  /** When exactly one initial group is empty and the first round does not make two blocks, both versions refine the same blocks. */
  lemma OneGroupAgrees(g: Graph)
    requires !BadStart(g)
    requires (Select(g.nodes, 0, true) == []) != (Select(g.nodes, 0, false) == [])
    ensures MinimizeAsWritten(g) == Minimize(g)
  {
    InitialStep(g);
    StartPartition(g);
    StepPartition(g, StartBlocks(g));
    var F, N := Select(g.nodes, 0, true), Select(g.nodes, 0, false);
    var S := StartBlocks(g);
    var Q := Step(g, S);
    var B := if F == [] then N else F;
    assert S == [B];
    StepSingle(g, B);
    SplitWhole(g, S, B);
    if |Q| == 1 {
      assert Q == S;
    }
    assert Refine(g, S) == Refine(g, Q);
    RefineSpec(g, Q);
    assert MinimizeAsWritten(g) == Build(g, Refine(g, Q));
  }

  /** On the bad inputs, a closed automaton makes `minimize` as written throw. */
  lemma MinimizeAsWrittenFails(g: Graph)
    requires Closed(g.nodes) && BadStart(g)
    ensures MinimizeAsWritten(g) == Failure(NoSuchElement)
    ensures Minimize(g).Success?
  {
    InitialPartition(g);
    MinimizeSucceeds(g);
    var P := InitialBlocks(g);
    var e := if P[0] == [] then 0 else 1;
    forall j | 0 <= j < |P| && P[j] != [] ensures BlockEdges(g, P, j).Success? {
      TargetsInBlocks(g, P, j);
    }
    BuildNodesEmptyBlock(g, P, 0, e);
  }

  /** Two final states, the first with an edge to the second, which has none. */
  function TwoFinals(): (g: Graph)
    ensures |g.nodes| == 2 && Closed(g.nodes)
    ensures |g.nodes[0].edges| == 1 && g.nodes[1].edges == []
    ensures g.nodes[0].isFinal && g.nodes[1].isFinal
  {
    var a := Node({"A"}, [Edge("a", {"B"})], true);
    var b := Node({"B"}, [], true);
    assert "A" in a.name && "A" !in {"B"};
    assert [a, b][1].name == {"B"} && [a, b][0].name != {"B"};
    assert IndexOf([a, b], {"B"}) == 1;
    Graph([a, b], ["a"], "", "A", false)
  }

  /** Both states are final, so the non-final group is empty. */
  lemma TwoFinalsGroups()
    ensures InitialBlocks(TwoFinals()) == [[0, 1], []]
  {
    var g := TwoFinals();
    assert Select(g.nodes, 2, true) == [] && Select(g.nodes, 2, false) == [];
    assert Select(g.nodes, 1, true) == [1] && Select(g.nodes, 1, false) == [];
    assert Select(g.nodes, 0, true) == [0] + [1];
    assert Select(g.nodes, 0, false) == [] + [];
    assert [0] + [1] == [0, 1];
    assert InitialBlocks(g) == [Select(g.nodes, 0, true), Select(g.nodes, 0, false)];
  }

  /** The first round tells the two states apart: one has an edge, the other none. */
  lemma TwoFinalsFirstRound()
    ensures Arena(InitialBlocks(TwoFinals()), 2) && Step(TwoFinals(), InitialBlocks(TwoFinals())) == [[0], [1]]
  {
    var g := TwoFinals();
    TwoFinalsGroups();
    var P: Blocks := [[0, 1], []];
    assert !EqualGroup(g, P, 0, 1);
    assert Sift(g, P, 0, [1], true) == [] && Sift(g, P, 0, [1], false) == [1];
    assert Split(g, P, [1]) == [[1]] + Split(g, P, []);
    assert [0, 1][1..] == [1] && [1][1..] == [] && [0] + [] == [0];
    assert Split(g, P, [0, 1]) == [[0] + Sift(g, P, 0, [1], true)] + Split(g, P, Sift(g, P, 0, [1], false));
    StepPair(g, [0, 1], []);
  }

  /**
    The two states are told apart in the first round, so `minimize` as written throws,
    while the corrected `minimize` keeps both states.
  */
  lemma TwoFinalsShowsEmptyGroup()
    ensures BadStart(TwoFinals())
    ensures MinimizeAsWritten(TwoFinals()) == Failure(NoSuchElement)
    ensures Minimize(TwoFinals()).Success? && |Minimize(TwoFinals()).value.nodes| == 2
  {
    var g := TwoFinals();
    TwoFinalsGroups();
    TwoFinalsFirstRound();
    MinimizeAsWrittenFails(g);
    MinimizeSucceeds(g);
    ClassesCongruence(g);
    var R := Classes(g);
    assert 0 <= GroupOf(R, 0) < |R| && 0 <= GroupOf(R, 1) < |R|;
  }

  // ---------------------------------------------------------------------------
  // The report

  /** "Impossible to minimize graph!" is written when the final blocks are as many as the states. */
  function ImpossibleToMinimize(g: Graph): bool
  {
    |Classes(g)| == |g.nodes|
  }

  /**
    The report says minimization is impossible exactly when no two states share a
    block, that is when the result has as many states as the automaton.
  */
  lemma ImpossibleIffNothingMerged(g: Graph)
    requires Closed(g.nodes)
    ensures ImpossibleToMinimize(g) <==>
      forall x, y :: 0 <= x < |g.nodes| && 0 <= y < |g.nodes| && GroupOf(Classes(g), x) == GroupOf(Classes(g), y) ==> x == y
    ensures Minimize(g).Success? && (ImpossibleToMinimize(g) <==> |Minimize(g).value.nodes| == |g.nodes|)
  {
    FullIffSingletons(Classes(g), |g.nodes|);
    MinimizeSucceeds(g);
  }

  /**
    The report of `minimize` as written: the loop stops when a round keeps the number
    of groups, and the new groups of that round are compared with the number of
    states. The first round runs on the initial groups, an empty one included.
  */
  function ImpossibleAsWritten(g: Graph): bool
  {
    InitialPartition(g);
    StepPartition(g, InitialBlocks(g));
    RefineSpec(g, Step(g, InitialBlocks(g)));
    var P := InitialBlocks(g);
    var Q := Step(g, P);
    if |Q| == |P| then |Q| == |g.nodes|
    else |Step(g, Refine(g, Q))| == |g.nodes|
  }

  /** Outside the bad case the report as written is the report of the corrected loop. */
  lemma ImpossibleAsWrittenAgrees(g: Graph)
    requires !BadStart(g)
    ensures ImpossibleAsWritten(g) == ImpossibleToMinimize(g)
  {
    InitialStep(g);
    InitialPartition(g);
    StartPartition(g);
    var F, N := Select(g.nodes, 0, true), Select(g.nodes, 0, false);
    var P, S := InitialBlocks(g), StartBlocks(g);
    var Q := Step(g, P);
    StepPartition(g, P);
    RefineSpec(g, Q);
    StepFromLength(g, S, 0);
    if |Q| != |P| {
      if |Q| == |S| {
        assert Q == S[0..] == S;
      }
      assert Refine(g, Q) == Classes(g);
    } else {
      assert F != [] && N != [];
      assert Classes(g) == S;
    }
  }

  /**
    In the bad case the loop stops after its first round with two groups, so
    "Impossible to minimize graph!" is written exactly when there are two states,
    whatever the blocks the corrected loop ends with.
  */
  lemma ImpossibleAsWrittenBadStart(g: Graph)
    requires BadStart(g)
    ensures ImpossibleAsWritten(g) <==> |g.nodes| == 2
  {
  }
}

=== FILE: names.dfy ===
/**
  State identities. A state of the automaton is named by a set of original state
  identifiers (Java `NodeName`, a `TreeSet<String>`). The model keeps the name as a
  `set<string>` and reproduces the tree set's iteration order, ascending by
  `String.compareTo`, with `Sort`.
*/
module Names {

  /** A state identity: the set of original identifiers it stands for. */
  type Name = set<string>

  /** `String.compareTo(a, b) < 0`: characters compared left to right, a proper prefix first. */
  predicate Less(a: string, b: string)
    decreases |a|
  {
    if |a| == 0 then |b| > 0
    else if |b| == 0 then false
    else if a[0] != b[0] then a[0] < b[0]
    else Less(a[1..], b[1..])
  }

  lemma LessIrreflexive(a: string)
    ensures !Less(a, a)
  {
  }

  lemma LessAsymmetric(a: string, b: string)
    ensures Less(a, b) ==> !Less(b, a)
    decreases |a|
  {
    if |a| > 0 && |b| > 0 && a[0] == b[0] {
      LessAsymmetric(a[1..], b[1..]);
    }
  }

  lemma LessTransitive(a: string, b: string, c: string)
    requires Less(a, b) && Less(b, c)
    ensures Less(a, c)
    decreases |a|
  {
    if |a| > 0 && a[0] == b[0] && b[0] == c[0] {
      LessTransitive(a[1..], b[1..], c[1..]);
    }
  }

  lemma LessTotal(a: string, b: string)
    ensures a == b || Less(a, b) || Less(b, a)
    decreases |a|
  {
    if |a| > 0 && |b| > 0 && a[0] == b[0] {
      LessTotal(a[1..], b[1..]);
      if a[1..] == b[1..] {
        assert a == [a[0]] + a[1..] && b == [b[0]] + b[1..];
      }
    }
  }

  /** `m` is the first element of `s` in tree-set order. */
  predicate IsLeast(m: string, s: set<string>)
  {
    m in s && forall y :: y in s && y != m ==> Less(m, y)
  }

  lemma LeastExists(s: set<string>)
    requires s != {}
    ensures exists m :: IsLeast(m, s)
    decreases |s|
  {
    var x :| x in s;
    if s != {x} {
      LeastExists(s - {x});
      var m' :| IsLeast(m', s - {x});
      LessTotal(x, m');
      if Less(x, m') {
        forall y | y in s && y != x
          ensures Less(x, y)
        {
          if y != m' {
            LessTransitive(x, m', y);
          }
        }
        assert IsLeast(x, s);
      } else {
        assert IsLeast(m', s);
      }
    } else {
      assert IsLeast(x, s);
    }
  }

  lemma LeastUnique(s: set<string>)
    ensures forall m, m' :: IsLeast(m, s) && IsLeast(m', s) ==> m == m'
  {
    forall m, m' | IsLeast(m, s) && IsLeast(m', s)
      ensures m == m'
    {
      LessAsymmetric(m, m');
    }
  }

  /** The first element of a non-empty tree set (`TreeSet.first`). */
  function Min(s: set<string>): (m: string)
    requires s != {}
    ensures m in s
    ensures forall y :: y in s && y != m ==> Less(m, y)
  {
    LeastExists(s);
    LeastUnique(s);
    var m :| IsLeast(m, s);
    m
  }

  /** The iteration order of a tree set: its elements, ascending. */
  function Sort(s: set<string>): (r: seq<string>)
    ensures |r| == |s|
    ensures forall x :: x in r <==> x in s
    ensures forall i, j :: 0 <= i < j < |r| ==> Less(r[i], r[j])
    decreases |s|
  {
    if s == {} then []
    else
      var m := Min(s);
      [m] + Sort(s - {m})
  }

  /** A set is determined by its iteration order. */
  lemma SortDetermines(a: Name, b: Name)
    requires Sort(a) == Sort(b)
    ensures a == b
  {
    forall x ensures x in a <==> x in b {
      assert x in a <==> x in Sort(a);
    }
  }

  /**
    `NodeName.equals`: the sizes agree and the two iterators yield equal strings in
    step. This is exactly equality of the sets.
  */
  method Equals(a: Name, b: Name) returns (eq: bool)
    ensures eq <==> a == b
  {
    if |a| != |b| {
      return false;
    }
    var it1 := Sort(a);
    var it2 := Sort(b);
    var i := 0;
    while i < |it1|
      invariant 0 <= i <= |it1| == |it2|
      invariant forall j :: 0 <= j < i ==> it1[j] == it2[j]
    {
      if it1[i] != it2[i] {
        return false;
      }
      i := i + 1;
    }
    SortDetermines(a, b);
    return true;
  }
}

=== FILE: rename.dfy ===
/**
  `Graph.rename`: the i-th state is renamed to the one-letter identifier 'A' + i.
  Java edges hold references, so they follow their target's new name; here each
  edge target is renamed explicitly through its position in the arena.
*/
module Rename {
  import opened Names
  import opened Automaton

  /** How many states can be renamed before the letters would reach the surrogate range. */
  const MaxStates: nat := 0xD800 - 65

  /** `(char)('A' + i)`. */
  function Letter(i: nat): (c: char)
    requires i < MaxStates
  {
    (65 + i) as char
  }

  lemma LetterInjective(i: nat, j: nat)
    requires i < MaxStates && j < MaxStates && i != j
    ensures Letter(i) != Letter(j)
  {
  }

  /** The new name of the state at position `i`. */
  function NewName(i: nat): (n: Name)
    requires i < MaxStates
  {
    {[Letter(i)]}
  }

  /** The new name of the state an edge leads to; a target that is not a state keeps its name. */
  function Retarget(nodes: seq<Node>, n: Name): (m: Name)
    requires |nodes| <= MaxStates
  {
    var i := IndexOf(nodes, n);
    if i >= 0 then NewName(i) else n
  }

  function RetargetEdges(nodes: seq<Node>, edges: seq<Edge>): (es: seq<Edge>)
    requires |nodes| <= MaxStates
    ensures |es| == |edges|
    ensures forall k :: 0 <= k < |edges| ==>
      es[k].symbol == edges[k].symbol && es[k].target == Retarget(nodes, edges[k].target)
  {
    seq(|edges|, k requires 0 <= k < |edges| => Edge(edges[k].symbol, Retarget(nodes, edges[k].target)))
  }

  /**
    `rename`: walk the states in order, renaming each; the first state whose old
    name is the initial identifier's singleton hands its new letter to `initNode`.
    When no state has that name, `initNode` is left as it was.
  */
  method Rename(g: Graph) returns (r: Graph)
    requires |g.nodes| <= MaxStates
    ensures r.alphabet == g.alphabet && r.lambda == g.lambda && r.determinized == g.determinized
    ensures |r.nodes| == |g.nodes|
    ensures forall i :: 0 <= i < |g.nodes| ==>
      && r.nodes[i].name == NewName(i)
      && r.nodes[i].isFinal == g.nodes[i].isFinal
      && r.nodes[i].edges == RetargetEdges(g.nodes, g.nodes[i].edges)
    ensures r.initNode == if Registered(g.nodes, {g.initNode})
                          then [Letter(IndexOf(g.nodes, {g.initNode}))] else g.initNode
    ensures WellFormed(g) ==> WellFormed(r)
    ensures Registered(g.nodes, {g.initNode}) ==> IndexOf(r.nodes, {r.initNode}) == IndexOf(g.nodes, {g.initNode})
  {
    var nodes := g.nodes;
    var initNode := g.initNode;
    var changed := false;
    var i := 0;
    while i < |nodes|
      invariant 0 <= i <= |nodes| == |g.nodes|
      invariant forall j :: 0 <= j < i ==>
        nodes[j] == Node(NewName(j), RetargetEdges(g.nodes, g.nodes[j].edges), g.nodes[j].isFinal)
      invariant forall j :: i <= j < |nodes| ==> nodes[j] == g.nodes[j]
      invariant changed <==> exists j :: 0 <= j < i && g.nodes[j].name == {g.initNode}
      invariant changed ==> 0 <= IndexOf(g.nodes, {g.initNode}) < i && initNode == [Letter(IndexOf(g.nodes, {g.initNode}))]
      invariant !changed ==> initNode == g.initNode
    {
      var oldName := nodes[i].name;
      var newName := NewName(i);
      if !changed {
        var eq := Equals(oldName, {initNode});
        if eq {
          initNode := Min(newName);
          changed := true;
        }
      }
      nodes := nodes[i := Node(newName, RetargetEdges(g.nodes, g.nodes[i].edges), nodes[i].isFinal)];
      i := i + 1;
    }
    r := g.(nodes := nodes, initNode := initNode);
    if WellFormed(g) {
      RenameIsomorphic(g, r);
    }
    if Registered(g.nodes, {g.initNode}) {
      RenameKeepsInitial(g, r);
    }
  }

  // ---------------------------------------------------------------------------
  // Renaming is an isomorphism

  /** Renamed states have distinct names, so each is found at its own position. */
  lemma RenamedIndexOf(g: Graph, r: Graph, i: nat)
    requires |g.nodes| <= MaxStates && |r.nodes| == |g.nodes| && i < |g.nodes|
    requires forall j :: 0 <= j < |g.nodes| ==> r.nodes[j].name == NewName(j)
    ensures IndexOf(r.nodes, NewName(i)) == i
  {
    forall j | 0 <= j < i ensures r.nodes[j].name != NewName(i) {
      LetterInjective(j, i);
      assert [Letter(i)] in NewName(i);
    }
  }

  /**
    The renamed automaton has the same shape: state i is final when it was, and its
    k-th edge has the same symbol and leads to the state at the same position as
    before. A well-formed automaton stays well formed.
  */
  lemma RenameIsomorphic(g: Graph, r: Graph)
    requires WellFormed(g) && |g.nodes| <= MaxStates && |r.nodes| == |g.nodes|
    requires r.alphabet == g.alphabet
    requires forall i :: 0 <= i < |g.nodes| ==>
      && r.nodes[i].name == NewName(i)
      && r.nodes[i].isFinal == g.nodes[i].isFinal
      && r.nodes[i].edges == RetargetEdges(g.nodes, g.nodes[i].edges)
    ensures WellFormed(r)
    ensures forall i :: 0 <= i < |g.nodes| ==> |r.nodes[i].edges| == |g.nodes[i].edges|
    ensures forall i, k :: 0 <= i < |g.nodes| && 0 <= k < |g.nodes[i].edges| ==>
      && r.nodes[i].edges[k].symbol == g.nodes[i].edges[k].symbol
      && IndexOf(r.nodes, r.nodes[i].edges[k].target) == IndexOf(g.nodes, g.nodes[i].edges[k].target)
  {
    forall i, j | 0 <= i < j < |r.nodes| ensures r.nodes[i].name != r.nodes[j].name {
      LetterInjective(i, j);
      assert [Letter(i)] in NewName(i);
    }
    forall i, k | 0 <= i < |g.nodes| && 0 <= k < |g.nodes[i].edges|
      ensures IndexOf(r.nodes, r.nodes[i].edges[k].target) == IndexOf(g.nodes, g.nodes[i].edges[k].target)
      ensures Registered(r.nodes, r.nodes[i].edges[k].target)
    {
      var p := IndexOf(g.nodes, g.nodes[i].edges[k].target);
      RenamedIndexOf(g, r, p);
    }
  }

  /** The renamed initial identifier names the state at the initial state's old position. */
  lemma RenameKeepsInitial(g: Graph, r: Graph)
    requires |g.nodes| <= MaxStates && |r.nodes| == |g.nodes|
    requires forall j :: 0 <= j < |g.nodes| ==> r.nodes[j].name == NewName(j)
    requires r.initNode == if Registered(g.nodes, {g.initNode})
                           then [Letter(IndexOf(g.nodes, {g.initNode}))] else g.initNode
    requires Registered(g.nodes, {g.initNode})
    ensures IndexOf(r.nodes, {r.initNode}) == IndexOf(g.nodes, {g.initNode})
  {
    RenamedIndexOf(g, r, IndexOf(g.nodes, {g.initNode}));
  }
}

=== FILE: simple_pass.dfy ===
/**
  The first pass of determinization (`simpleBuild` and the root loop of
  `determinize`). For every original state, in list order, it walks the epsilon
  closure of the state and the epsilon closures of the states reached by one
  symbol, collects one target name per symbol, and registers the state with one
  edge per non-empty target in the new arena.

  A symbol that is not in the alphabet is an epsilon move (`getEdgeIndex` returns
  -1). The walk guards against loops only with the `used` flag of the root: an
  epsilon cycle that avoids the root recurses until the stack overflows, modelled by
  the `stack` budget and `Failure(StackOverflow)`.
*/
module SimplePass {
  import opened Wrappers
  import opened Names
  import opened Automaton

  /**
    The mutable state one traversal threads through its recursion: the `used` flags
    of the original states (by position), the `used` flags of their edges (state
    position, edge position), the per-symbol target accumulators, and the shared
    final flag.
  */
  datatype Walk = Walk(used: set<nat>, edgeUsed: set<(nat, nat)>, out: seq<Option<Name>>, isFinal: bool)

  /** The position of the state edge `k` of state `cur` leads to (the Java edge's node reference). */
  function Target(nodes: seq<Node>, cur: nat, k: nat): (t: nat)
    requires Closed(nodes) && cur < |nodes| && k < |nodes[cur].edges|
    ensures t < |nodes| && nodes[t].name == nodes[cur].edges[k].target
  {
    assert Registered(nodes, nodes[cur].edges[k].target);
    IndexOf(nodes, nodes[cur].edges[k].target)
  }

  /**
    A recursive `simpleBuild(root, cur, out, ..., chosen, isFinal)` call: mark the
    root used, then scan the edges of `cur`. `chosen` is -1 while the walk is in the
    root's epsilon closure, and the slot of the symbol taken afterwards.
  */
  function Visit(g: Graph, root: nat, cur: nat, chosen: int, w: Walk, stack: nat): (r: Result<Walk, Fault>)
    requires Closed(g.nodes) && root < |g.nodes| && cur < |g.nodes|
    requires -1 <= chosen < |g.alphabet| && |w.out| == |g.alphabet|
    ensures r.Success? ==> |r.value.out| == |g.alphabet|
    decreases stack, 1, 0
  {
    VisitEdges(g, root, cur, chosen, w.(used := w.used + {root}), 0, stack)
  }

  /** The symbol slot of edge `k` of `cur` (-1 for an epsilon move). */
  function SlotOf(g: Graph, cur: nat, k: nat): (ei: int)
    requires cur < |g.nodes| && k < |g.nodes[cur].edges|
    ensures -1 <= ei < |g.alphabet|
  {
    EdgeIndex(g.nodes[cur].edges[k].symbol, g.alphabet)
  }

  /**
    Edge `k` of `cur` is passed over: its flag is set, it is an epsilon move to a
    used state, or it is a symbol met outside the root's epsilon closure.
  */
  predicate Skips(g: Graph, cur: nat, chosen: int, w: Walk, k: nat)
    requires Closed(g.nodes) && cur < |g.nodes| && k < |g.nodes[cur].edges|
  {
    || (cur, k) in w.edgeUsed
    || (SlotOf(g, cur, k) == -1 && Target(g.nodes, cur, k) in w.used)
    || (SlotOf(g, cur, k) != -1 && chosen != -1)
  }

  /** The slot the recursive call for edge `k` works for. */
  function NextChosen(g: Graph, cur: nat, chosen: int, k: nat): (c: int)
    requires cur < |g.nodes| && k < |g.nodes[cur].edges| && -1 <= chosen < |g.alphabet|
    ensures -1 <= c < |g.alphabet|
  {
    if SlotOf(g, cur, k) == -1 then chosen else SlotOf(g, cur, k)
  }

  /**
    The state just before the recursive call for edge `k`. A symbol edge taken from
    the closure adds its target to the symbol's slot, sets its own flag and clears
    every node flag (`makeUnused`); an epsilon move after a symbol adds its target to
    that symbol's slot; an epsilon move inside the closure ORs the target's final
    flag into the shared one.
  */
  function Enter(g: Graph, cur: nat, chosen: int, w: Walk, k: nat): (w1: Walk)
    requires Closed(g.nodes) && cur < |g.nodes| && k < |g.nodes[cur].edges|
    requires -1 <= chosen < |g.alphabet| && |w.out| == |g.alphabet|
    ensures |w1.out| == |w.out|
  {
    var e := g.nodes[cur].edges[k];
    var ei := SlotOf(g, cur, k);
    if ei != -1 then
      w.(out := w.out[ei := Merge(w.out[ei], e.target)],
         edgeUsed := w.edgeUsed + {(cur, k)}, used := {})
    else if chosen != -1 then
      w.(out := w.out[chosen := Merge(w.out[chosen], e.target)])
    else
      w.(isFinal := w.isFinal || g.nodes[Target(g.nodes, cur, k)].isFinal)
  }

  /** The loop over the edges `k..` of `cur`. */
  function VisitEdges(g: Graph, root: nat, cur: nat, chosen: int, w: Walk, k: nat, stack: nat): (r: Result<Walk, Fault>)
    requires Closed(g.nodes) && root < |g.nodes| && cur < |g.nodes| && k <= |g.nodes[cur].edges|
    requires -1 <= chosen < |g.alphabet| && |w.out| == |g.alphabet|
    ensures r.Success? ==> |r.value.out| == |g.alphabet|
    decreases stack, 0, |g.nodes[cur].edges| - k
  {
    if k == |g.nodes[cur].edges| then Success(w)
    else if Skips(g, cur, chosen, w, k) then VisitEdges(g, root, cur, chosen, w, k + 1, stack)
    else if stack == 0 then Failure(StackOverflow)
    else
      match Visit(g, root, Target(g.nodes, cur, k), NextChosen(g, cur, chosen, k), Enter(g, cur, chosen, w, k), stack - 1)
      case Failure(f) => Failure(f)
      case Success(w2) => VisitEdges(g, root, cur, chosen, w2, k + 1, stack)
  }

  /** The walk of the outermost call: edge flags clear, no slot filled, the root's own final flag. */
  function RootWalk(g: Graph, root: nat, used: set<nat>, stack: nat): (r: Result<Walk, Fault>)
    requires Closed(g.nodes) && root < |g.nodes|
    ensures r.Success? ==> |r.value.out| == |g.alphabet|
  {
    Visit(g, root, root, -1, Walk(used, {}, NoSlots(|g.alphabet|), g.nodes[root].isFinal), stack)
  }

  /**
    `makeEdgesUnused(nodes)` then `simpleBuild(root, root, null, ..., -1, null)`:
    the walk from `root` with the edge flags cleared and the node flags `used` as
    left before, then the registration of the root under its own name with its
    closure's final flag and one edge per non-empty slot. Returns the node flags
    left behind and the new arena.
  */
  function SimpleBuild(g: Graph, root: nat, used: set<nat>, tNodes: seq<Node>, stack: nat)
    : (r: Result<(set<nat>, seq<Node>), Fault>)
    requires Closed(g.nodes) && root < |g.nodes|
    ensures r.Success? ==> Grows(tNodes, r.value.1) && Registered(r.value.1, g.nodes[root].name)
  {
    match RootWalk(g, root, used, stack)
    case Failure(f) => Failure(f)
    case Success(w) =>
      var r := Register(tNodes, g.nodes[root].name, w.isFinal, g.alphabet, w.out);
      assert r[GetNodeIndex(g.nodes[root].name, tNodes, w.isFinal).0].name == g.nodes[root].name;
      Success((w.used, r))
  }

  /**
    The root loop of `determinize` as written: the node flags are cleared once
    before the loop, so flags left by earlier roots are still set when a later root
    starts its walk.
  */
  function PassOneAsWritten(g: Graph, i: nat, used: set<nat>, tNodes: seq<Node>, stack: nat)
    : (r: Result<seq<Node>, Fault>)
    requires Closed(g.nodes) && i <= |g.nodes|
    ensures r.Success? ==> Grows(tNodes, r.value)
    decreases |g.nodes| - i
  {
    if i == |g.nodes| then Success(tNodes)
    else
      match SimpleBuild(g, i, used, tNodes, stack)
      case Failure(f) => Failure(f)
      case Success((used', t)) => PassOneAsWritten(g, i + 1, used', t, stack)
  }

  /** The root loop with the node flags cleared before every root. */
  function PassOne(g: Graph, i: nat, tNodes: seq<Node>, stack: nat): (r: Result<seq<Node>, Fault>)
    requires Closed(g.nodes) && i <= |g.nodes|
    ensures r.Success? ==> Grows(tNodes, r.value)
    decreases |g.nodes| - i
  {
    if i == |g.nodes| then Success(tNodes)
    else
      match SimpleBuild(g, i, {}, tNodes, stack)
      case Failure(f) => Failure(f)
      case Success((_, t)) => PassOne(g, i + 1, t, stack)
  }

  // ---------------------------------------------------------------------------
  // What a walk preserves

  /** Every slot of `a` is contained in the same slot of `b`, and a non-null slot stays non-null. */
  predicate SlotsGrow(a: seq<Option<Name>>, b: seq<Option<Name>>)
  {
    |a| == |b| && forall j :: 0 <= j < |a| ==> (a[j].Some? ==> b[j].Some?) && Content(a[j]) <= Content(b[j])
  }

  lemma EnterGrows(g: Graph, cur: nat, chosen: int, w: Walk, k: nat)
    requires Closed(g.nodes) && cur < |g.nodes| && k < |g.nodes[cur].edges|
    requires -1 <= chosen < |g.alphabet| && |w.out| == |g.alphabet|
    ensures var w1 := Enter(g, cur, chosen, w, k);
      SlotsGrow(w.out, w1.out) && (w.isFinal ==> w1.isFinal) && w1.used <= w.used
  {
  }

  /**
    A walk only adds to the slots, never clears the final flag, and leaves at most the
    node flags it started with plus the root's.
  */
  lemma {:induction false} VisitGrows(g: Graph, root: nat, cur: nat, chosen: int, w: Walk, stack: nat)
    requires Closed(g.nodes) && root < |g.nodes| && cur < |g.nodes|
    requires -1 <= chosen < |g.alphabet| && |w.out| == |g.alphabet|
    ensures var r := Visit(g, root, cur, chosen, w, stack);
      r.Success? ==>
        && SlotsGrow(w.out, r.value.out) && (w.isFinal ==> r.value.isFinal)
        && root in r.value.used && r.value.used <= w.used + {root}
    decreases stack, 1, 0
  {
    VisitEdgesGrows(g, root, cur, chosen, w.(used := w.used + {root}), 0, stack);
  }

  lemma {:induction false} VisitEdgesGrows(g: Graph, root: nat, cur: nat, chosen: int, w: Walk, k: nat, stack: nat)
    requires Closed(g.nodes) && root < |g.nodes| && cur < |g.nodes| && k <= |g.nodes[cur].edges|
    requires -1 <= chosen < |g.alphabet| && |w.out| == |g.alphabet| && root in w.used
    ensures var r := VisitEdges(g, root, cur, chosen, w, k, stack);
      r.Success? ==>
        && SlotsGrow(w.out, r.value.out) && (w.isFinal ==> r.value.isFinal)
        && root in r.value.used && r.value.used <= w.used
    decreases stack, 0, |g.nodes[cur].edges| - k
  {
    if k == |g.nodes[cur].edges| {
    } else if Skips(g, cur, chosen, w, k) {
      VisitEdgesGrows(g, root, cur, chosen, w, k + 1, stack);
    } else if stack > 0 {
      var t := Target(g.nodes, cur, k);
      var next := NextChosen(g, cur, chosen, k);
      var w1 := Enter(g, cur, chosen, w, k);
      EnterGrows(g, cur, chosen, w, k);
      VisitGrows(g, root, t, next, w1, stack - 1);
      var r1 := Visit(g, root, t, next, w1, stack - 1);
      if r1.Success? {
        VisitEdgesGrows(g, root, cur, chosen, r1.value, k + 1, stack);
      }
    }
  }

  /** Only symbol edges are ever flagged; epsilon moves never are. */
  predicate FlagsOnSymbols(g: Graph, flags: set<(nat, nat)>)
  {
    forall p :: p in flags ==>
      p.0 < |g.nodes| && p.1 < |g.nodes[p.0].edges| && SlotOf(g, p.0, p.1) != -1
  }

  lemma EnterKeeps(g: Graph, cur: nat, chosen: int, w: Walk, k: nat, U: set<string>)
    requires Closed(g.nodes) && cur < |g.nodes| && k < |g.nodes[cur].edges|
    requires -1 <= chosen < |g.alphabet| && |w.out| == |g.alphabet|
    requires NamesWithin(g.nodes, U) && SlotsWithin(w.out, U) && FlagsOnSymbols(g, w.edgeUsed)
    ensures var w1 := Enter(g, cur, chosen, w, k);
      SlotsWithin(w1.out, U) && FlagsOnSymbols(g, w1.edgeUsed)
  {
    var t := Target(g.nodes, cur, k);
    assert g.nodes[cur].edges[k].target <= U by {
      assert g.nodes[t].name <= U;
    }
  }

  /** A walk keeps every slot within the identifiers `U` of the graph, and flags only symbol edges. */
  lemma {:induction false} VisitKeeps(g: Graph, root: nat, cur: nat, chosen: int, w: Walk, stack: nat, U: set<string>)
    requires Closed(g.nodes) && root < |g.nodes| && cur < |g.nodes|
    requires -1 <= chosen < |g.alphabet| && |w.out| == |g.alphabet|
    requires NamesWithin(g.nodes, U) && SlotsWithin(w.out, U) && FlagsOnSymbols(g, w.edgeUsed)
    ensures var r := Visit(g, root, cur, chosen, w, stack);
      r.Success? ==> SlotsWithin(r.value.out, U) && FlagsOnSymbols(g, r.value.edgeUsed)
    decreases stack, 1, 0
  {
    VisitEdgesKeeps(g, root, cur, chosen, w.(used := w.used + {root}), 0, stack, U);
  }

  lemma {:induction false} VisitEdgesKeeps(g: Graph, root: nat, cur: nat, chosen: int, w: Walk, k: nat, stack: nat,
                                           U: set<string>)
    requires Closed(g.nodes) && root < |g.nodes| && cur < |g.nodes| && k <= |g.nodes[cur].edges|
    requires -1 <= chosen < |g.alphabet| && |w.out| == |g.alphabet|
    requires NamesWithin(g.nodes, U) && SlotsWithin(w.out, U) && FlagsOnSymbols(g, w.edgeUsed)
    ensures var r := VisitEdges(g, root, cur, chosen, w, k, stack);
      r.Success? ==> SlotsWithin(r.value.out, U) && FlagsOnSymbols(g, r.value.edgeUsed)
    decreases stack, 0, |g.nodes[cur].edges| - k
  {
    if k == |g.nodes[cur].edges| {
    } else if Skips(g, cur, chosen, w, k) {
      VisitEdgesKeeps(g, root, cur, chosen, w, k + 1, stack, U);
    } else if stack > 0 {
      var t := Target(g.nodes, cur, k);
      var next := NextChosen(g, cur, chosen, k);
      var w1 := Enter(g, cur, chosen, w, k);
      EnterKeeps(g, cur, chosen, w, k, U);
      VisitKeeps(g, root, t, next, w1, stack - 1, U);
      var r1 := Visit(g, root, t, next, w1, stack - 1);
      if r1.Success? {
        VisitEdgesKeeps(g, root, cur, chosen, r1.value, k + 1, stack, U);
      }
    }
  }

  /**
    A recursive call never flags an edge of the root: it only flags symbol edges of
    the state it scans while in the closure, and the root, being used, is never
    entered again with `chosen == -1`.
  */
  lemma {:induction false} VisitSparesRoot(g: Graph, root: nat, cur: nat, chosen: int, w: Walk, stack: nat)
    requires Closed(g.nodes) && root < |g.nodes| && cur < |g.nodes|
    requires -1 <= chosen < |g.alphabet| && |w.out| == |g.alphabet|
    requires chosen != -1 || cur != root
    ensures var r := Visit(g, root, cur, chosen, w, stack);
      r.Success? ==> forall k :: (root, k) in r.value.edgeUsed <==> (root, k) in w.edgeUsed
    decreases stack, 1, 0
  {
    VisitEdgesSparesRoot(g, root, cur, chosen, w.(used := w.used + {root}), 0, stack);
  }

  lemma {:induction false} VisitEdgesSparesRoot(g: Graph, root: nat, cur: nat, chosen: int, w: Walk, k: nat, stack: nat)
    requires Closed(g.nodes) && root < |g.nodes| && cur < |g.nodes| && k <= |g.nodes[cur].edges|
    requires -1 <= chosen < |g.alphabet| && |w.out| == |g.alphabet| && root in w.used
    requires chosen != -1 || cur != root
    ensures var r := VisitEdges(g, root, cur, chosen, w, k, stack);
      r.Success? ==> forall k' :: (root, k') in r.value.edgeUsed <==> (root, k') in w.edgeUsed
    decreases stack, 0, |g.nodes[cur].edges| - k
  {
    if k == |g.nodes[cur].edges| {
    } else if Skips(g, cur, chosen, w, k) {
      VisitEdgesSparesRoot(g, root, cur, chosen, w, k + 1, stack);
    } else if stack > 0 {
      var t := Target(g.nodes, cur, k);
      var next := NextChosen(g, cur, chosen, k);
      var w1 := Enter(g, cur, chosen, w, k);
      assert next != -1 || t != root;
      VisitSparesRoot(g, root, t, next, w1, stack - 1);
      VisitGrows(g, root, t, next, w1, stack - 1);
      var r1 := Visit(g, root, t, next, w1, stack - 1);
      if r1.Success? {
        VisitEdgesSparesRoot(g, root, cur, chosen, r1.value, k + 1, stack);
      }
    }
  }

  /** Symbol edge `k` of `root` (if it is one) has its target in the slot of its symbol. */
  predicate SlotHolds(g: Graph, root: nat, out: seq<Option<Name>>, k: nat)
    requires root < |g.nodes| && k < |g.nodes[root].edges| && |out| == |g.alphabet|
  {
    SlotOf(g, root, k) != -1 ==>
      out[SlotOf(g, root, k)].Some? && g.nodes[root].edges[k].target <= Content(out[SlotOf(g, root, k)])
  }

  /** Edge `k` of `root` is an epsilon move to a final state whose flag is clear in `used`. */
  predicate FinalMove(g: Graph, root: nat, used: set<nat>, k: nat)
    requires Closed(g.nodes) && root < |g.nodes| && k < |g.nodes[root].edges|
  {
    SlotOf(g, root, k) == -1 && Target(g.nodes, root, k) !in used && g.nodes[Target(g.nodes, root, k)].isFinal
  }

  /**
    The scan of the root's own edges `k..` (the outermost call): every symbol edge
    puts its target into the slot of its symbol.
  */
  lemma {:induction false} RootScanSlots(g: Graph, root: nat, w: Walk, k: nat, stack: nat)
    requires Closed(g.nodes) && root < |g.nodes| && k <= |g.nodes[root].edges|
    requires |w.out| == |g.alphabet| && root in w.used
    requires forall k' :: (root, k') in w.edgeUsed ==> k' < k
    ensures var r := VisitEdges(g, root, root, -1, w, k, stack);
      r.Success? ==> forall k' :: k <= k' < |g.nodes[root].edges| ==> SlotHolds(g, root, r.value.out, k')
    decreases |g.nodes[root].edges| - k
  {
    if k == |g.nodes[root].edges| {
    } else if Skips(g, root, -1, w, k) {
      assert (root, k) !in w.edgeUsed;
      RootScanSlots(g, root, w, k + 1, stack);
    } else if stack > 0 {
      var t := Target(g.nodes, root, k);
      var next := NextChosen(g, root, -1, k);
      var w1 := Enter(g, root, -1, w, k);
      var r1 := Visit(g, root, t, next, w1, stack - 1);
      VisitGrows(g, root, t, next, w1, stack - 1);
      VisitSparesRoot(g, root, t, next, w1, stack - 1);
      if r1.Success? {
        var w2 := r1.value;
        RootScanSlots(g, root, w2, k + 1, stack);
        VisitEdgesGrows(g, root, root, -1, w2, k + 1, stack);
        var r := VisitEdges(g, root, root, -1, w2, k + 1, stack);
        if r.Success? {
          assert SlotHolds(g, root, w1.out, k);
          assert SlotHolds(g, root, r.value.out, k);
        }
      }
    }
  }

  /**
    The same scan: an epsilon move to a final state whose flag was clear when the
    scan began makes the shared final flag true.
  */
  lemma {:induction false} RootScanFinal(g: Graph, root: nat, w: Walk, k: nat, stack: nat)
    requires Closed(g.nodes) && root < |g.nodes| && k <= |g.nodes[root].edges|
    requires |w.out| == |g.alphabet| && root in w.used
    requires forall k' :: (root, k') in w.edgeUsed ==> k' < k
    ensures var r := VisitEdges(g, root, root, -1, w, k, stack);
      r.Success? ==> forall k' :: k <= k' < |g.nodes[root].edges| && FinalMove(g, root, w.used, k') ==> r.value.isFinal
    decreases |g.nodes[root].edges| - k
  {
    if k == |g.nodes[root].edges| {
    } else if Skips(g, root, -1, w, k) {
      assert (root, k) !in w.edgeUsed;
      RootScanFinal(g, root, w, k + 1, stack);
    } else if stack > 0 {
      var t := Target(g.nodes, root, k);
      var next := NextChosen(g, root, -1, k);
      var w1 := Enter(g, root, -1, w, k);
      var r1 := Visit(g, root, t, next, w1, stack - 1);
      VisitGrows(g, root, t, next, w1, stack - 1);
      VisitSparesRoot(g, root, t, next, w1, stack - 1);
      if r1.Success? {
        var w2 := r1.value;
        RootScanFinal(g, root, w2, k + 1, stack);
        VisitEdgesGrows(g, root, root, -1, w2, k + 1, stack);
        forall k' | k < k' < |g.nodes[root].edges| && FinalMove(g, root, w.used, k')
          ensures FinalMove(g, root, w2.used, k')
        {
        }
      }
    }
  }

  // ---------------------------------------------------------------------------
  // What the first pass builds

  /** No two states share a name, every edge target is a state, every name is made of original identifiers. */
  predicate Sound(g: Graph, t: seq<Node>)
  {
    UniqueNames(t) && Closed(t) && NamesWithin(t, Idents(g.nodes))
  }

  /**
    Every state has at most one edge per symbol and none for an epsilon move, and
    only states named after one of the first `i` original states have edges.
  */
  predicate RootsOnly(g: Graph, i: nat, t: seq<Node>)
  {
    && Deterministic(t, g.alphabet)
    && forall j :: 0 <= j < |t| && t[j].edges != [] ==> 0 <= IndexOf(g.nodes, t[j].name) < i
  }

  /** The walk keeps its slots within the graph's identifiers. */
  lemma RootWalkWithin(g: Graph, root: nat, used: set<nat>, stack: nat)
    requires Closed(g.nodes) && root < |g.nodes|
    ensures var r := RootWalk(g, root, used, stack);
      r.Success? ==> SlotsWithin(r.value.out, Idents(g.nodes))
  {
    var w0 := Walk(used, {}, NoSlots(|g.alphabet|), g.nodes[root].isFinal);
    VisitKeeps(g, root, root, -1, w0, stack, Idents(g.nodes));
  }

  lemma SimpleBuildSound(g: Graph, root: nat, used: set<nat>, t: seq<Node>, stack: nat)
    requires Closed(g.nodes) && root < |g.nodes| && Sound(g, t)
    ensures var r := SimpleBuild(g, root, used, t, stack);
      r.Success? ==> Sound(g, r.value.1)
  {
    var rw := RootWalk(g, root, used, stack);
    if rw.Success? {
      var w := rw.value;
      RootWalkWithin(g, root, used, stack);
      RegisterKeepsUnique(t, g.nodes[root].name, w.isFinal, g.alphabet, w.out);
      RegisterKeepsClosed(t, g.nodes[root].name, w.isFinal, g.alphabet, w.out);
      RegisterWithin(t, g.nodes[root].name, w.isFinal, g.alphabet, w.out, Idents(g.nodes));
    }
  }

  /**
    Registering root `root` gives its state exactly one edge per non-null slot:
    the state had none before, because only earlier roots have edges.
  */
  lemma SimpleBuildRootsOnly(g: Graph, root: nat, used: set<nat>, t: seq<Node>, stack: nat)
    requires Closed(g.nodes) && UniqueNames(g.nodes) && Distinct(g.alphabet) && root < |g.nodes|
    requires RootsOnly(g, root, t)
    ensures var r := SimpleBuild(g, root, used, t, stack);
      r.Success? ==> RootsOnly(g, root + 1, r.value.1)
  {
    var rw := RootWalk(g, root, used, stack);
    if rw.Success? {
      var w := rw.value;
      var name := g.nodes[root].name;
      var x := GetNodeIndex(name, t, w.isFinal).0;
      var r := Register(t, name, w.isFinal, g.alphabet, w.out);
      UniqueIndexOf(g.nodes, root);
      RegisterAt(t, name, w.isFinal, g.alphabet, w.out);
      RegisterElsewhere(t, name, w.isFinal, g.alphabet, w.out);
      RegisterAppends(t, name, w.isFinal, g.alphabet, w.out);
      SlotEdgesOrdered(g.alphabet, w.out, 0);
      if Registered(t, name) {
        assert t[x].name == name;
        assert t[x].edges == [];
      }
      assert r[x].edges == SlotEdges(g.alphabet, w.out, 0);
      forall j | 0 <= j < |r|
        ensures Ordered(r[j].edges, g.alphabet)
        ensures r[j].edges != [] ==> 0 <= IndexOf(g.nodes, r[j].name) < root + 1
      {
        if j == x {
        } else if j < |t| {
          assert r[j] == t[j];
        } else {
          assert r[j].edges == [];
        }
      }
    }
  }

  /** Some edge of `es` carries the symbol of `e` to a state whose name includes `e`'s target. */
  predicate Covers(es: seq<Edge>, e: Edge)
  {
    exists e' :: e' in es && e'.symbol == e.symbol && e.target <= e'.target
  }

  /**
    The state built for original state `i` is final when `i` is, and follows every
    symbol edge of `i` to a state whose name includes the edge's target.
  */
  predicate Simulated(g: Graph, t: seq<Node>, i: nat)
    requires i < |g.nodes|
  {
    && Registered(t, g.nodes[i].name)
    && var p := IndexOf(t, g.nodes[i].name);
    && (g.nodes[i].isFinal ==> t[p].isFinal)
    && forall k :: 0 <= k < |g.nodes[i].edges| && SlotOf(g, i, k) != -1 ==> Covers(t[p].edges, g.nodes[i].edges[k])
  }

  /**
    The state built for original state `i` is final when an epsilon move of `i`
    leads to a final state whose flag is clear in `used`.
  */
  predicate ClosureFinal(g: Graph, t: seq<Node>, i: nat, used: set<nat>)
    requires Closed(g.nodes) && i < |g.nodes|
  {
    && Registered(t, g.nodes[i].name)
    && forall k :: 0 <= k < |g.nodes[i].edges| && FinalMove(g, i, used, k) ==> t[IndexOf(t, g.nodes[i].name)].isFinal
  }

  /**
    The state `simpleBuild` registers for the root simulates it: final when the root
    is final or an epsilon move of the root reaches a final state whose flag was
    clear, and one edge per symbol of the root that includes the symbol's target.
  */
  lemma SimpleBuildSimulates(g: Graph, root: nat, used: set<nat>, t: seq<Node>, stack: nat)
    requires Closed(g.nodes) && Distinct(g.alphabet) && root < |g.nodes| && UniqueNames(t)
    ensures var r := SimpleBuild(g, root, used, t, stack);
      r.Success? ==> Simulated(g, r.value.1, root) && ClosureFinal(g, r.value.1, root, used + {root})
  {
    var rw := RootWalk(g, root, used, stack);
    if rw.Success? {
      var w := rw.value;
      var name := g.nodes[root].name;
      var w0 := Walk(used, {}, NoSlots(|g.alphabet|), g.nodes[root].isFinal);
      var w0' := w0.(used := used + {root});
      RootScanSlots(g, root, w0', 0, stack);
      RootScanFinal(g, root, w0', 0, stack);
      VisitGrows(g, root, root, -1, w0, stack);
      var x := GetNodeIndex(name, t, w.isFinal).0;
      var r := Register(t, name, w.isFinal, g.alphabet, w.out);
      RegisterAt(t, name, w.isFinal, g.alphabet, w.out);
      RegisterKeepsUnique(t, name, w.isFinal, g.alphabet, w.out);
      UniqueIndexOf(r, x);
      assert IndexOf(r, name) == x;
      forall k | 0 <= k < |g.nodes[root].edges| && SlotOf(g, root, k) != -1
        ensures Covers(r[x].edges, g.nodes[root].edges[k])
      {
        var j := SlotOf(g, root, k);
        assert SlotHolds(g, root, w.out, k);
        SlotEdgesContents(g.alphabet, w.out, 0, j);
        var e :| e in SlotEdges(g.alphabet, w.out, 0) && e.symbol == g.alphabet[j];
        assert e in r[x].edges;
      }
    }
  }

  /** Registering another root leaves the state built for `i` as it was. */
  lemma SimpleBuildKeepsState(g: Graph, root: nat, used: set<nat>, t: seq<Node>, stack: nat, i: nat)
    requires Closed(g.nodes) && UniqueNames(g.nodes) && root < |g.nodes| && i < |g.nodes| && i != root
    requires UniqueNames(t) && Registered(t, g.nodes[i].name)
    ensures var r := SimpleBuild(g, root, used, t, stack);
      r.Success? ==>
        && Registered(r.value.1, g.nodes[i].name)
        && r.value.1[IndexOf(r.value.1, g.nodes[i].name)] == t[IndexOf(t, g.nodes[i].name)]
  {
    var rw := RootWalk(g, root, used, stack);
    if rw.Success? {
      var w := rw.value;
      var name := g.nodes[root].name;
      var p := IndexOf(t, g.nodes[i].name);
      var x := GetNodeIndex(name, t, w.isFinal).0;
      var r := Register(t, name, w.isFinal, g.alphabet, w.out);
      RegisterElsewhere(t, name, w.isFinal, g.alphabet, w.out);
      RegisterKeepsUnique(t, name, w.isFinal, g.alphabet, w.out);
      assert g.nodes[i].name != name;
      assert r[p].name == t[p].name;
      assert p != x;
      assert r[p] == t[p];
      UniqueIndexOf(r, p);
      assert Registered(r, g.nodes[i].name);
    }
  }

  /** Hence registering another root keeps what the state built for `i` promises. */
  lemma SimpleBuildKeepsSimulated(g: Graph, root: nat, used: set<nat>, t: seq<Node>, stack: nat, i: nat, u: set<nat>)
    requires Closed(g.nodes) && UniqueNames(g.nodes) && root < |g.nodes| && i < |g.nodes| && i != root
    requires UniqueNames(t) && Simulated(g, t, i) && ClosureFinal(g, t, i, u)
    ensures var r := SimpleBuild(g, root, used, t, stack);
      r.Success? ==> Simulated(g, r.value.1, i) && ClosureFinal(g, r.value.1, i, u)
  {
    SimpleBuildKeepsState(g, root, used, t, stack, i);
  }

  /**
    The states of the first `i` original states are simulated by the states of
    their names, each final whenever one of its epsilon moves reaches a final state.
  */
  predicate BuiltUpTo(g: Graph, t: seq<Node>, i: nat)
    requires Closed(g.nodes) && i <= |g.nodes|
  {
    forall i' :: 0 <= i' < i ==> Simulated(g, t, i') && ClosureFinal(g, t, i', {i'})
  }

  /** The states of the first `i` original states are simulated by the states of their names. */
  predicate SimulatedUpTo(g: Graph, t: seq<Node>, i: nat)
    requires i <= |g.nodes|
  {
    forall i' :: 0 <= i' < i ==> Simulated(g, t, i')
  }

  /**
    The first pass builds a sound, deterministic arena in which every original state
    is simulated by the state of its own name, and (flags cleared before every root)
    is final whenever one of its epsilon moves reaches another final state.
  */
  lemma {:induction false} PassOneBuilds(g: Graph, i: nat, t: seq<Node>, stack: nat)
    requires WellFormed(g) && i <= |g.nodes| && Sound(g, t) && RootsOnly(g, i, t)
    requires BuiltUpTo(g, t, i)
    ensures var r := PassOne(g, i, t, stack);
      r.Success? ==> Sound(g, r.value) && RootsOnly(g, |g.nodes|, r.value) && BuiltUpTo(g, r.value, |g.nodes|)
    decreases |g.nodes| - i
  {
    if i < |g.nodes| {
      var sb := SimpleBuild(g, i, {}, t, stack);
      if sb.Success? {
        BuildsStep(g, i, t, stack);
        PassOneBuilds(g, i + 1, sb.value.1, stack);
      }
    }
  }

  /** One root of the corrected loop: the invariant of `PassOneBuilds` moves on to the next root. */
  lemma BuildsStep(g: Graph, i: nat, t: seq<Node>, stack: nat)
    requires WellFormed(g) && i < |g.nodes| && Sound(g, t) && RootsOnly(g, i, t)
    requires BuiltUpTo(g, t, i)
    ensures var sb := SimpleBuild(g, i, {}, t, stack);
      sb.Success? ==> Sound(g, sb.value.1) && RootsOnly(g, i + 1, sb.value.1) && BuiltUpTo(g, sb.value.1, i + 1)
  {
    SimpleBuildSound(g, i, {}, t, stack);
    SimpleBuildRootsOnly(g, i, {}, t, stack);
    SimpleBuildSimulates(g, i, {}, t, stack);
    var sb := SimpleBuild(g, i, {}, t, stack);
    if sb.Success? {
      assert {} + {i} == {i};
      forall i' | 0 <= i' < i
        ensures Simulated(g, sb.value.1, i') && ClosureFinal(g, sb.value.1, i', {i'})
      {
        SimpleBuildKeepsSimulated(g, i, {}, t, stack, i', {i'});
      }
    }
  }

  /**
    The root loop as written builds the same kind of arena: sound, deterministic, and
    with every original state simulated by the state of its own name. Whatever node
    flags the earlier roots left, each root's state is final when the root is and
    follows every symbol edge of the root.
  */
  lemma {:induction false} PassOneAsWrittenBuilds(g: Graph, i: nat, used: set<nat>, t: seq<Node>, stack: nat)
    requires WellFormed(g) && i <= |g.nodes| && Sound(g, t) && RootsOnly(g, i, t)
    requires SimulatedUpTo(g, t, i)
    ensures var r := PassOneAsWritten(g, i, used, t, stack);
      r.Success? ==> Sound(g, r.value) && RootsOnly(g, |g.nodes|, r.value) && SimulatedUpTo(g, r.value, |g.nodes|)
    decreases |g.nodes| - i
  {
    if i < |g.nodes| {
      var sb := SimpleBuild(g, i, used, t, stack);
      if sb.Success? {
        AsWrittenStep(g, i, used, t, stack);
        PassOneAsWrittenBuilds(g, i + 1, sb.value.0, sb.value.1, stack);
      }
    }
  }

  /** One root of the loop as written: the invariant of `PassOneAsWrittenBuilds` moves on to the next root. */
  lemma AsWrittenStep(g: Graph, i: nat, used: set<nat>, t: seq<Node>, stack: nat)
    requires WellFormed(g) && i < |g.nodes| && Sound(g, t) && RootsOnly(g, i, t)
    requires SimulatedUpTo(g, t, i)
    ensures var sb := SimpleBuild(g, i, used, t, stack);
      sb.Success? ==> Sound(g, sb.value.1) && RootsOnly(g, i + 1, sb.value.1) && SimulatedUpTo(g, sb.value.1, i + 1)
  {
    SimpleBuildSound(g, i, used, t, stack);
    SimpleBuildRootsOnly(g, i, used, t, stack);
    SimpleBuildSimulates(g, i, used, t, stack);
    var sb := SimpleBuild(g, i, used, t, stack);
    if sb.Success? {
      forall i' | 0 <= i' < i
        ensures Simulated(g, sb.value.1, i')
      {
        assert Simulated(g, t, i');
        SimpleBuildKeepsState(g, i, used, t, stack, i');
      }
    }
  }

  // ---------------------------------------------------------------------------
  // The node flags carried over from earlier roots

  /**
    Two states: `A` is final and has no edges, `B` has one epsilon move to `A`
    (the lambda symbol "0" is not in the empty alphabet). `B` accepts the empty word.
  */
  function CarryOverExample(): Graph
  {
    Graph([Node({"A"}, [], true), Node({"B"}, [Edge("0", {"A"})], false)], [], "0", "B", false)
  }

  /** `B` reaches the final `A` by an epsilon move. */
  lemma CarryOverExampleShape()
    ensures WellFormed(CarryOverExample()) && FinalMove(CarryOverExample(), 1, {1}, 0)
  {
    var g := CarryOverExample();
    assert g.nodes[0].name == {"A"};
    assert Registered(g.nodes, {"A"});
    assert Target(g.nodes, 1, 0) == 0;
  }

  /** The walk from `A` and its registration, common to both versions of the loop. */
  lemma CarryOverFirstRoot()
    ensures WellFormed(CarryOverExample())
    ensures SimpleBuild(CarryOverExample(), 0, {}, [], 1) == Success(({0}, [Node({"A"}, [], true)]))
  {
    var g := CarryOverExample();
    CarryOverExampleShape();
    var none: seq<Option<Name>> := [];
    assert NoSlots(0) == none;
    var wA := Walk({0}, {}, none, true);
    assert VisitEdges(g, 0, 0, -1, wA, 0, 1) == Success(wA);
    assert {} + {0} == {0};
    assert Visit(g, 0, 0, -1, Walk({}, {}, none, true), 1) == Success(wA);
    assert RootWalk(g, 0, {}, 1) == Success(wA);
    assert Register([], {"A"}, true, [], []) == [Node({"A"}, [], true)];
  }

  /**
    As written, the flag `A` keeps from its own walk makes the walk from `B` skip
    the epsilon move to `A`: the state built for `B` is not final although `B`
    reaches the final `A` by an epsilon move.
  */
  lemma CarryOverLosesFinal()
    ensures WellFormed(CarryOverExample()) && FinalMove(CarryOverExample(), 1, {1}, 0)
    ensures var r := PassOneAsWritten(CarryOverExample(), 0, {}, [], 1);
      r.Success? && Registered(r.value, {"B"}) && !FinalOf(r.value, {"B"})
  {
    var g := CarryOverExample();
    CarryOverExampleShape();
    CarryOverFirstRoot();
    var tA := [Node({"A"}, [], true)];
    var none: seq<Option<Name>> := [];
    assert NoSlots(0) == none;
    var wB := Walk({0, 1}, {}, none, false);
    assert Skips(g, 1, -1, wB, 0);
    assert VisitEdges(g, 1, 1, -1, wB, 1, 1) == Success(wB);
    assert {0} + {1} == {0, 1};
    assert Visit(g, 1, 1, -1, Walk({0}, {}, none, false), 1) == VisitEdges(g, 1, 1, -1, wB, 0, 1);
    assert RootWalk(g, 1, {0}, 1) == Success(wB);
    var tB := Register(tA, {"B"}, false, [], []);
    assert IndexOf(tA, {"B"}) == -1;
    assert tB == [Node({"A"}, [], true), Node({"B"}, [], false)];
    assert PassOneAsWritten(g, 0, {}, [], 1) == Success(tB);
    assert IndexOf(tB, {"B"}) == 1;
  }

  /** With the flags cleared before every root, the state built for `B` is final. */
  lemma ClearedFlagsKeepFinal()
    ensures WellFormed(CarryOverExample())
    ensures var r := PassOne(CarryOverExample(), 0, [], 1);
      r.Success? && FinalOf(r.value, {"B"})
  {
    var g := CarryOverExample();
    CarryOverExampleShape();
    CarryOverFirstRoot();
    var tA := [Node({"A"}, [], true)];
    var none: seq<Option<Name>> := [];
    assert NoSlots(0) == none;
    var wB := Walk({1}, {}, none, false);
    assert !Skips(g, 1, -1, wB, 0);
    var wA := Walk({1}, {}, none, true);
    assert Enter(g, 1, -1, wB, 0) == wA;
    assert {1} + {1} == {1};
    assert VisitEdges(g, 1, 0, -1, wA, 0, 0) == Success(wA);
    assert Visit(g, 1, 0, -1, wA, 0) == Success(wA);
    assert VisitEdges(g, 1, 1, -1, wA, 1, 1) == Success(wA);
    assert {} + {1} == {1};
    assert Visit(g, 1, 1, -1, Walk({}, {}, none, false), 1) == VisitEdges(g, 1, 1, -1, wB, 0, 1);
    assert RootWalk(g, 1, {}, 1) == Success(wA);
    var tB := Register(tA, {"B"}, true, [], []);
    assert IndexOf(tA, {"B"}) == -1;
    assert tB == [Node({"A"}, [], true), Node({"B"}, [], true)];
    assert PassOne(g, 0, [], 1) == Success(tB);
    assert IndexOf(tB, {"B"}) == 1;
  }
}

=== FILE: walk_closure.dfy ===
/**
  What one walk of `simpleBuild` collects, over paths of any length. With the node
  flags cleared before the root (the corrected loop), the only state the walk treats
  as used is the root itself, so it follows every epsilon path that does not re-enter
  the root: in the root's closure it ORs in every final flag and takes every symbol
  edge, and after a symbol it adds every state such a path reaches to that symbol's
  slot.
*/
module WalkClosure {
  import opened Wrappers
  import opened Names
  import opened Automaton
  import opened SimplePass

  // ---------------------------------------------------------------------------
  // Epsilon paths that avoid the root

  /** Edge `k` of `x` is an epsilon move to a state other than `root`. */
  predicate EpsStep(g: Graph, root: nat, x: nat, k: nat)
    requires Closed(g.nodes) && x < |g.nodes|
  {
    k < |g.nodes[x].edges| && SlotOf(g, x, k) == -1 && Target(g.nodes, x, k) != root
  }

  /** `x` reaches `z` by `n` epsilon moves, none of them into `root`. */
  predicate EpsReach(g: Graph, root: nat, x: nat, z: nat, n: nat)
    requires Closed(g.nodes) && x < |g.nodes|
    decreases n
  {
    if n == 0 then x == z
    else exists k :: 0 <= k < |g.nodes[x].edges| && EpsStep(g, root, x, k) && EpsReach(g, root, Target(g.nodes, x, k), z, n - 1)
  }

  /** Slot `a` is filled, and every state `y` reaches by such paths, `y` itself included, has its identifiers in it. */
  ghost predicate SlotDone(g: Graph, root: nat, y: nat, a: nat, out: seq<Option<Name>>)
    requires Closed(g.nodes) && y < |g.nodes| && a < |out|
  {
    && out[a].Some?
    && forall z, n: nat :: 0 <= z < |g.nodes| && EpsReach(g, root, y, z, n) ==> g.nodes[z].name <= Content(out[a])
  }

  /**
    State `x` of the root's closure is accounted for: the shared flag is final when
    `x` is, and every symbol edge of `x` has its target's epsilon paths in its slot.
  */
  ghost predicate ClosureDone(g: Graph, root: nat, x: nat, w: Walk)
    requires Closed(g.nodes) && x < |g.nodes| && |w.out| == |g.alphabet|
  {
    && (g.nodes[x].isFinal ==> w.isFinal)
    && forall j :: 0 <= j < |g.nodes[x].edges| && SlotOf(g, x, j) != -1 ==>
         SlotDone(g, root, Target(g.nodes, x, j), SlotOf(g, x, j), w.out)
  }

  /** A flagged edge is a symbol edge whose target's epsilon paths are all in its slot already. */
  ghost predicate FlagsDone(g: Graph, root: nat, flags: set<(nat, nat)>, out: seq<Option<Name>>)
    requires Closed(g.nodes) && |out| == |g.alphabet|
  {
    forall p :: p in flags ==>
      && p.0 < |g.nodes| && p.1 < |g.nodes[p.0].edges| && SlotOf(g, p.0, p.1) != -1
      && SlotDone(g, root, Target(g.nodes, p.0, p.1), SlotOf(g, p.0, p.1), out)
  }

  // ---------------------------------------------------------------------------
  // Growing slots keep what is done

  lemma SlotDoneGrows(g: Graph, root: nat, y: nat, a: nat, out: seq<Option<Name>>, out': seq<Option<Name>>)
    requires Closed(g.nodes) && y < |g.nodes| && a < |out|
    requires SlotDone(g, root, y, a, out) && SlotsGrow(out, out')
    ensures SlotDone(g, root, y, a, out')
  {
    assert Content(out[a]) <= Content(out'[a]);
  }

  lemma ClosureDoneGrows(g: Graph, root: nat, x: nat, w: Walk, w': Walk)
    requires Closed(g.nodes) && x < |g.nodes| && |w.out| == |g.alphabet|
    requires ClosureDone(g, root, x, w) && SlotsGrow(w.out, w'.out) && (w.isFinal ==> w'.isFinal)
    ensures ClosureDone(g, root, x, w')
  {
    forall j | 0 <= j < |g.nodes[x].edges| && SlotOf(g, x, j) != -1
      ensures SlotDone(g, root, Target(g.nodes, x, j), SlotOf(g, x, j), w'.out)
    {
      SlotDoneGrows(g, root, Target(g.nodes, x, j), SlotOf(g, x, j), w.out, w'.out);
    }
  }

  lemma FlagsDoneGrows(g: Graph, root: nat, flags: set<(nat, nat)>, out: seq<Option<Name>>, out': seq<Option<Name>>)
    requires Closed(g.nodes) && |out| == |g.alphabet|
    requires FlagsDone(g, root, flags, out) && SlotsGrow(out, out')
    ensures FlagsDone(g, root, flags, out')
  {
    forall p | p in flags
      ensures SlotDone(g, root, Target(g.nodes, p.0, p.1), SlotOf(g, p.0, p.1), out')
    {
      SlotDoneGrows(g, root, Target(g.nodes, p.0, p.1), SlotOf(g, p.0, p.1), out, out');
    }
  }

  // ---------------------------------------------------------------------------
  // After a symbol

  /** Slot `c` holds every state reached by an epsilon move `k..` of `cur` avoiding the root, then further such moves. */
  ghost predicate ChosenDone(g: Graph, root: nat, cur: nat, c: nat, k: nat, out: seq<Option<Name>>)
    requires Closed(g.nodes) && cur < |g.nodes| && c < |out|
  {
    forall k', z, n: nat ::
      (k <= k' < |g.nodes[cur].edges| && EpsStep(g, root, cur, k') &&
       0 <= z < |g.nodes| && EpsReach(g, root, Target(g.nodes, cur, k'), z, n)) ==>
      g.nodes[z].name <= Content(out[c])
  }

  /**
    A walk after symbol slot `c` adds to that slot every state reached from `cur` by
    at least one epsilon move avoiding the root, and flags nothing.
  */
  lemma {:induction false} VisitChosen(g: Graph, root: nat, cur: nat, c: nat, w: Walk, stack: nat)
    requires Closed(g.nodes) && root < |g.nodes| && cur < |g.nodes|
    requires c < |g.alphabet| && |w.out| == |g.alphabet| && w.used <= {root} && FlagsOnSymbols(g, w.edgeUsed)
    ensures var r := Visit(g, root, cur, c, w, stack);
      r.Success? ==>
        && r.value.edgeUsed == w.edgeUsed
        && forall z, n: nat :: 0 <= z < |g.nodes| && 1 <= n && EpsReach(g, root, cur, z, n) ==>
             g.nodes[z].name <= Content(r.value.out[c])
    decreases stack, 1, 0, 0
  {
    var w' := w.(used := w.used + {root});
    VisitEdgesChosen(g, root, cur, c, w', 0, stack);
    var r := Visit(g, root, cur, c, w, stack);
    if r.Success? {
      forall z, n: nat | 0 <= z < |g.nodes| && 1 <= n && EpsReach(g, root, cur, z, n)
        ensures g.nodes[z].name <= Content(r.value.out[c])
      {
        forall k | 0 <= k < |g.nodes[cur].edges| && EpsStep(g, root, cur, k) && EpsReach(g, root, Target(g.nodes, cur, k), z, n - 1)
          ensures g.nodes[z].name <= Content(r.value.out[c])
        {
        }
      }
    }
  }

  lemma {:induction false} VisitEdgesChosen(g: Graph, root: nat, cur: nat, c: nat, w: Walk, k: nat, stack: nat)
    requires Closed(g.nodes) && root < |g.nodes| && cur < |g.nodes| && k <= |g.nodes[cur].edges|
    requires c < |g.alphabet| && |w.out| == |g.alphabet|
    requires root in w.used && w.used <= {root} && FlagsOnSymbols(g, w.edgeUsed)
    ensures var r := VisitEdges(g, root, cur, c, w, k, stack);
      r.Success? ==> r.value.edgeUsed == w.edgeUsed && ChosenDone(g, root, cur, c, k, r.value.out)
    decreases stack, 0, |g.nodes[cur].edges| - k, 1
  {
    if k == |g.nodes[cur].edges| {
    } else if Skips(g, cur, c, w, k) {
      assert !EpsStep(g, root, cur, k);
      VisitEdgesChosen(g, root, cur, c, w, k + 1, stack);
    } else {
      ChosenStep(g, root, cur, c, w, k, stack);
    }
  }

  /** Following epsilon move `k` after a symbol, then the rest of the scan. */
  lemma {:induction false} ChosenStep(g: Graph, root: nat, cur: nat, c: nat, w: Walk, k: nat, stack: nat)
    requires Closed(g.nodes) && root < |g.nodes| && cur < |g.nodes| && k < |g.nodes[cur].edges|
    requires c < |g.alphabet| && |w.out| == |g.alphabet|
    requires root in w.used && w.used <= {root} && FlagsOnSymbols(g, w.edgeUsed)
    requires !Skips(g, cur, c, w, k)
    ensures var r := VisitEdges(g, root, cur, c, w, k, stack);
      r.Success? ==> r.value.edgeUsed == w.edgeUsed && ChosenDone(g, root, cur, c, k, r.value.out)
    decreases stack, 0, |g.nodes[cur].edges| - k, 0
  {
    if stack > 0 {
      var t := Target(g.nodes, cur, k);
      assert SlotOf(g, cur, k) == -1 && t != root;
      assert NextChosen(g, cur, c, k) == c;
      var w1 := Enter(g, cur, c, w, k);
      assert g.nodes[t].name <= Content(w1.out[c]);
      VisitChosen(g, root, t, c, w1, stack - 1);
      VisitGrows(g, root, t, c, w1, stack - 1);
      var r1 := Visit(g, root, t, c, w1, stack - 1);
      if r1.Success? {
        var w2 := r1.value;
        assert VisitEdges(g, root, cur, c, w, k, stack) == VisitEdges(g, root, cur, c, w2, k + 1, stack);
        VisitEdgesChosen(g, root, cur, c, w2, k + 1, stack);
        VisitEdgesGrows(g, root, cur, c, w2, k + 1, stack);
        var r := VisitEdges(g, root, cur, c, w2, k + 1, stack);
        if r.Success? {
          assert Content(w1.out[c]) <= Content(w2.out[c]) <= Content(r.value.out[c]);
          forall k', z, n: nat | k <= k' < |g.nodes[cur].edges| && EpsStep(g, root, cur, k') &&
              0 <= z < |g.nodes| && EpsReach(g, root, Target(g.nodes, cur, k'), z, n)
            ensures g.nodes[z].name <= Content(r.value.out[c])
          {
            if k' == k && n == 0 {
              assert z == t;
            }
          }
        }
      }
    }
  }

  // ---------------------------------------------------------------------------
  // In the root's closure

  /**
    Edge `k` of closure state `cur` is accounted for: a symbol edge has its target's
    epsilon paths in its slot, and an epsilon move avoiding the root has every state
    beyond it accounted for.
  */
  ghost predicate EdgeDone(g: Graph, root: nat, cur: nat, k: nat, w: Walk)
    requires Closed(g.nodes) && cur < |g.nodes| && k < |g.nodes[cur].edges| && |w.out| == |g.alphabet|
  {
    && (SlotOf(g, cur, k) != -1 ==> SlotDone(g, root, Target(g.nodes, cur, k), SlotOf(g, cur, k), w.out))
    && (EpsStep(g, root, cur, k) ==>
          forall x, n: nat :: 0 <= x < |g.nodes| && EpsReach(g, root, Target(g.nodes, cur, k), x, n) ==>
            ClosureDone(g, root, x, w))
  }

  /** The flags are accounted for and so is every edge `k..` of `cur`. */
  ghost predicate ScanDone(g: Graph, root: nat, cur: nat, k: nat, w: Walk)
    requires Closed(g.nodes) && cur < |g.nodes| && |w.out| == |g.alphabet|
  {
    && FlagsDone(g, root, w.edgeUsed, w.out)
    && forall k' :: k <= k' < |g.nodes[cur].edges| ==> EdgeDone(g, root, cur, k', w)
  }

  lemma EdgeDoneGrows(g: Graph, root: nat, cur: nat, k: nat, w: Walk, w': Walk)
    requires Closed(g.nodes) && cur < |g.nodes| && k < |g.nodes[cur].edges| && |w.out| == |g.alphabet|
    requires EdgeDone(g, root, cur, k, w) && SlotsGrow(w.out, w'.out) && (w.isFinal ==> w'.isFinal)
    ensures EdgeDone(g, root, cur, k, w')
  {
    if SlotOf(g, cur, k) != -1 {
      SlotDoneGrows(g, root, Target(g.nodes, cur, k), SlotOf(g, cur, k), w.out, w'.out);
    }
    if EpsStep(g, root, cur, k) {
      forall x, n: nat | 0 <= x < |g.nodes| && EpsReach(g, root, Target(g.nodes, cur, k), x, n)
        ensures ClosureDone(g, root, x, w')
      {
        ClosureDoneGrows(g, root, x, w, w');
      }
    }
  }

  /**
    A walk in the root's closure from `cur` accounts for every state `cur` reaches by
    epsilon moves avoiding the root, `cur` included when its final flag is already in.
  */
  lemma {:induction false} VisitClosure(g: Graph, root: nat, cur: nat, w: Walk, stack: nat)
    requires Closed(g.nodes) && root < |g.nodes| && cur < |g.nodes|
    requires |w.out| == |g.alphabet| && w.used <= {root} && FlagsDone(g, root, w.edgeUsed, w.out)
    requires g.nodes[cur].isFinal ==> w.isFinal
    ensures var r := Visit(g, root, cur, -1, w, stack);
      r.Success? ==>
        && FlagsDone(g, root, r.value.edgeUsed, r.value.out)
        && forall x, n: nat :: 0 <= x < |g.nodes| && EpsReach(g, root, cur, x, n) ==> ClosureDone(g, root, x, r.value)
    decreases stack, 1, 0, 0
  {
    var w' := w.(used := w.used + {root});
    VisitEdgesClosure(g, root, cur, w', 0, stack);
    VisitEdgesGrows(g, root, cur, -1, w', 0, stack);
    var r := Visit(g, root, cur, -1, w, stack);
    if r.Success? {
      forall x, n: nat | 0 <= x < |g.nodes| && EpsReach(g, root, cur, x, n)
        ensures ClosureDone(g, root, x, r.value)
      {
        if n == 0 {
          forall j | 0 <= j < |g.nodes[cur].edges| && SlotOf(g, cur, j) != -1
            ensures SlotDone(g, root, Target(g.nodes, cur, j), SlotOf(g, cur, j), r.value.out)
          {
            assert EdgeDone(g, root, cur, j, r.value);
          }
        } else {
          var k :| 0 <= k < |g.nodes[cur].edges| && EpsStep(g, root, cur, k) && EpsReach(g, root, Target(g.nodes, cur, k), x, n - 1);
          assert EdgeDone(g, root, cur, k, r.value);
        }
      }
    }
  }

  lemma {:induction false} VisitEdgesClosure(g: Graph, root: nat, cur: nat, w: Walk, k: nat, stack: nat)
    requires Closed(g.nodes) && root < |g.nodes| && cur < |g.nodes| && k <= |g.nodes[cur].edges|
    requires |w.out| == |g.alphabet| && root in w.used && w.used <= {root} && FlagsDone(g, root, w.edgeUsed, w.out)
    ensures var r := VisitEdges(g, root, cur, -1, w, k, stack);
      r.Success? ==> ScanDone(g, root, cur, k, r.value)
    decreases stack, 0, |g.nodes[cur].edges| - k, 1
  {
    if k == |g.nodes[cur].edges| {
    } else if Skips(g, cur, -1, w, k) {
      VisitEdgesClosure(g, root, cur, w, k + 1, stack);
      VisitEdgesGrows(g, root, cur, -1, w, k + 1, stack);
      var r := VisitEdges(g, root, cur, -1, w, k + 1, stack);
      if r.Success? {
        assert !EpsStep(g, root, cur, k);
        if SlotOf(g, cur, k) != -1 {
          assert (cur, k) in w.edgeUsed;
          SlotDoneGrows(g, root, Target(g.nodes, cur, k), SlotOf(g, cur, k), w.out, r.value.out);
        }
        assert EdgeDone(g, root, cur, k, r.value);
      }
    } else if SlotOf(g, cur, k) != -1 {
      ClosureSymbolStep(g, root, cur, w, k, stack);
    } else {
      ClosureEpsilonStep(g, root, cur, w, k, stack);
    }
  }

  /** Following symbol edge `k` of a closure state fills its slot and flags it. */
  lemma {:induction false} ClosureSymbolStep(g: Graph, root: nat, cur: nat, w: Walk, k: nat, stack: nat)
    requires Closed(g.nodes) && root < |g.nodes| && cur < |g.nodes| && k < |g.nodes[cur].edges|
    requires |w.out| == |g.alphabet| && root in w.used && w.used <= {root} && FlagsDone(g, root, w.edgeUsed, w.out)
    requires !Skips(g, cur, -1, w, k) && SlotOf(g, cur, k) != -1
    ensures var r := VisitEdges(g, root, cur, -1, w, k, stack);
      r.Success? ==> ScanDone(g, root, cur, k, r.value)
    decreases stack, 0, |g.nodes[cur].edges| - k, 0
  {
    if stack > 0 {
      var t := Target(g.nodes, cur, k);
      var a := SlotOf(g, cur, k);
      SymbolFollow(g, root, cur, w, k, stack - 1);
      var r1 := Visit(g, root, t, a, Enter(g, cur, -1, w, k), stack - 1);
      if r1.Success? {
        var w2 := r1.value;
        assert NextChosen(g, cur, -1, k) == a;
        assert VisitEdges(g, root, cur, -1, w, k, stack) == VisitEdges(g, root, cur, -1, w2, k + 1, stack);
        VisitEdgesClosure(g, root, cur, w2, k + 1, stack);
        VisitEdgesGrows(g, root, cur, -1, w2, k + 1, stack);
        var r := VisitEdges(g, root, cur, -1, w2, k + 1, stack);
        if r.Success? {
          assert !EpsStep(g, root, cur, k);
          SlotDoneGrows(g, root, t, a, w2.out, r.value.out);
          assert EdgeDone(g, root, cur, k, r.value);
        }
      }
    }
  }

  /** The call after symbol edge `k` of a closure state fills the edge's slot with everything its target reaches. */
  lemma SymbolFollow(g: Graph, root: nat, cur: nat, w: Walk, k: nat, stack: nat)
    requires Closed(g.nodes) && root < |g.nodes| && cur < |g.nodes| && k < |g.nodes[cur].edges|
    requires |w.out| == |g.alphabet| && root in w.used && w.used <= {root} && FlagsDone(g, root, w.edgeUsed, w.out)
    requires SlotOf(g, cur, k) != -1
    ensures var r1 := Visit(g, root, Target(g.nodes, cur, k), SlotOf(g, cur, k), Enter(g, cur, -1, w, k), stack);
      r1.Success? ==>
        && |r1.value.out| == |g.alphabet| && root in r1.value.used && r1.value.used <= {root}
        && FlagsDone(g, root, r1.value.edgeUsed, r1.value.out)
        && SlotDone(g, root, Target(g.nodes, cur, k), SlotOf(g, cur, k), r1.value.out)
  {
    var t := Target(g.nodes, cur, k);
    var a := SlotOf(g, cur, k);
    var w1 := Enter(g, cur, -1, w, k);
    assert g.nodes[t].name <= Content(w1.out[a]);
    EnterGrows(g, cur, -1, w, k);
    VisitGrows(g, root, t, a, w1, stack);
    FlagsDoneGrows(g, root, w.edgeUsed, w.out, w1.out);
    assert FlagsOnSymbols(g, w1.edgeUsed);
    VisitChosen(g, root, t, a, w1, stack);
    var r1 := Visit(g, root, t, a, w1, stack);
    if r1.Success? {
      var w2 := r1.value;
      SymbolTargetDone(g, root, t, a, w1.out, w2.out);
      FlagsDoneGrows(g, root, w.edgeUsed, w1.out, w2.out);
    }
  }

  /** The symbol's target itself sits in the slot before the walk after the symbol, which adds the rest. */
  lemma SymbolTargetDone(g: Graph, root: nat, t: nat, a: nat, out1: seq<Option<Name>>, out2: seq<Option<Name>>)
    requires Closed(g.nodes) && t < |g.nodes| && a < |out1| && SlotsGrow(out1, out2)
    requires out1[a].Some? && g.nodes[t].name <= Content(out1[a])
    requires forall z, n: nat :: 0 <= z < |g.nodes| && 1 <= n && EpsReach(g, root, t, z, n) ==>
               g.nodes[z].name <= Content(out2[a])
    ensures SlotDone(g, root, t, a, out2)
  {
    forall z, n: nat | 0 <= z < |g.nodes| && EpsReach(g, root, t, z, n)
      ensures g.nodes[z].name <= Content(out2[a])
    {
      if n == 0 {
        assert z == t;
        assert Content(out1[a]) <= Content(out2[a]);
      }
    }
  }

  /** Following epsilon move `k` of a closure state accounts for everything beyond it. */
  lemma {:induction false} ClosureEpsilonStep(g: Graph, root: nat, cur: nat, w: Walk, k: nat, stack: nat)
    requires Closed(g.nodes) && root < |g.nodes| && cur < |g.nodes| && k < |g.nodes[cur].edges|
    requires |w.out| == |g.alphabet| && root in w.used && w.used <= {root} && FlagsDone(g, root, w.edgeUsed, w.out)
    requires !Skips(g, cur, -1, w, k) && SlotOf(g, cur, k) == -1
    ensures var r := VisitEdges(g, root, cur, -1, w, k, stack);
      r.Success? ==> ScanDone(g, root, cur, k, r.value)
    decreases stack, 0, |g.nodes[cur].edges| - k, 0
  {
    if stack > 0 {
      var t := Target(g.nodes, cur, k);
      var w1 := Enter(g, cur, -1, w, k);
      assert EpsStep(g, root, cur, k) && NextChosen(g, cur, -1, k) == -1;
      VisitGrows(g, root, t, -1, w1, stack - 1);
      VisitClosure(g, root, t, w1, stack - 1);
      var r1 := Visit(g, root, t, -1, w1, stack - 1);
      if r1.Success? {
        var w2 := r1.value;
        VisitEdgesClosure(g, root, cur, w2, k + 1, stack);
        VisitEdgesGrows(g, root, cur, -1, w2, k + 1, stack);
        var r := VisitEdges(g, root, cur, -1, w2, k + 1, stack);
        if r.Success? {
          forall x, n: nat | 0 <= x < |g.nodes| && EpsReach(g, root, t, x, n)
            ensures ClosureDone(g, root, x, r.value)
          {
            ClosureDoneGrows(g, root, x, w2, r.value);
          }
          assert EdgeDone(g, root, cur, k, r.value);
        }
      }
    }
  }
  // ---------------------------------------------------------------------------
  // What the first pass registers

  /** The walk from `root` with no node flag set accounts for every state of the root's closure. */
  lemma RootWalkCloses(g: Graph, root: nat, stack: nat)
    requires Closed(g.nodes) && root < |g.nodes|
    ensures var r := RootWalk(g, root, {}, stack);
      r.Success? ==> forall x, n: nat :: 0 <= x < |g.nodes| && EpsReach(g, root, root, x, n) ==> ClosureDone(g, root, x, r.value)
  {
    VisitClosure(g, root, root, Walk({}, {}, NoSlots(|g.alphabet|), g.nodes[root].isFinal), stack);
  }

  /**
    The state built for original state `i` follows the epsilon closure of `i`, taking
    the paths that do not re-enter `i`: it is final when a state of the closure is,
    and for every symbol edge `x -a-> y` leaving a closure state it has an edge on
    `a` whose target name includes every state `y` reaches by epsilon moves that do
    not enter `i`, `y` itself included.
  */
  ghost predicate Saturated(g: Graph, t: seq<Node>, i: nat)
    requires Closed(g.nodes) && i < |g.nodes|
  {
    && Registered(t, g.nodes[i].name)
    && var p := IndexOf(t, g.nodes[i].name);
    && (forall x, n: nat :: 0 <= x < |g.nodes| && EpsReach(g, i, i, x, n) && g.nodes[x].isFinal ==> t[p].isFinal)
    && (forall x, n: nat, j, z, m: nat ::
          (&& 0 <= x < |g.nodes| && EpsReach(g, i, i, x, n)
           && 0 <= j < |g.nodes[x].edges| && SlotOf(g, x, j) != -1
           && 0 <= z < |g.nodes| && EpsReach(g, i, Target(g.nodes, x, j), z, m)) ==>
          Covers(t[p].edges, Edge(g.nodes[x].edges[j].symbol, g.nodes[z].name)))
  }

  /** With no node flag set before the walk, the state `simpleBuild` registers for the root follows its closure. */
  lemma SimpleBuildSaturates(g: Graph, root: nat, t: seq<Node>, stack: nat)
    requires Closed(g.nodes) && Distinct(g.alphabet) && root < |g.nodes| && UniqueNames(t)
    ensures var r := SimpleBuild(g, root, {}, t, stack);
      r.Success? ==> Saturated(g, r.value.1, root)
  {
    var rw := RootWalk(g, root, {}, stack);
    if rw.Success? {
      var w := rw.value;
      RootWalkCloses(g, root, stack);
      var name := g.nodes[root].name;
      var p := GetNodeIndex(name, t, w.isFinal).0;
      var r := Register(t, name, w.isFinal, g.alphabet, w.out);
      RegisterAt(t, name, w.isFinal, g.alphabet, w.out);
      RegisterKeepsUnique(t, name, w.isFinal, g.alphabet, w.out);
      UniqueIndexOf(r, p);
      assert IndexOf(r, name) == p;
      forall x, n: nat | 0 <= x < |g.nodes| && EpsReach(g, root, root, x, n) && g.nodes[x].isFinal
        ensures r[p].isFinal
      {
        assert ClosureDone(g, root, x, w);
      }
      forall x, n: nat, j, z, m: nat |
          && 0 <= x < |g.nodes| && EpsReach(g, root, root, x, n)
          && 0 <= j < |g.nodes[x].edges| && SlotOf(g, x, j) != -1
          && 0 <= z < |g.nodes| && EpsReach(g, root, Target(g.nodes, x, j), z, m)
        ensures Covers(r[p].edges, Edge(g.nodes[x].edges[j].symbol, g.nodes[z].name))
      {
        assert ClosureDone(g, root, x, w);
        var a := SlotOf(g, x, j);
        assert SlotDone(g, root, Target(g.nodes, x, j), a, w.out);
        SlotEdgesContents(g.alphabet, w.out, 0, a);
        var e :| e in SlotEdges(g.alphabet, w.out, 0) && e.symbol == g.alphabet[a];
        assert e in r[p].edges;
      }
    }
  }

  /** The states built for the first `i` original states follow their closures. */
  ghost predicate SaturatedUpTo(g: Graph, t: seq<Node>, i: nat)
    requires Closed(g.nodes) && i <= |g.nodes|
  {
    forall i' :: 0 <= i' < i ==> Saturated(g, t, i')
  }

  /**
    The corrected root loop registers, for every original state, a state that follows
    its closure in that sense.
  */
  lemma {:induction false} PassOneSaturates(g: Graph, i: nat, t: seq<Node>, stack: nat)
    requires WellFormed(g) && i <= |g.nodes| && Sound(g, t)
    requires SaturatedUpTo(g, t, i)
    ensures var r := PassOne(g, i, t, stack);
      r.Success? ==> SaturatedUpTo(g, r.value, |g.nodes|)
    decreases |g.nodes| - i
  {
    if i < |g.nodes| {
      var sb := SimpleBuild(g, i, {}, t, stack);
      if sb.Success? {
        SaturatesStep(g, i, t, stack);
        PassOneSaturates(g, i + 1, sb.value.1, stack);
      }
    }
  }

  /** One root of the corrected loop: the invariant of `PassOneSaturates` moves on to the next root. */
  lemma SaturatesStep(g: Graph, i: nat, t: seq<Node>, stack: nat)
    requires WellFormed(g) && i < |g.nodes| && Sound(g, t)
    requires SaturatedUpTo(g, t, i)
    ensures var sb := SimpleBuild(g, i, {}, t, stack);
      sb.Success? ==> Sound(g, sb.value.1) && SaturatedUpTo(g, sb.value.1, i + 1)
  {
    SimpleBuildSound(g, i, {}, t, stack);
    SimpleBuildSaturates(g, i, t, stack);
    var sb := SimpleBuild(g, i, {}, t, stack);
    if sb.Success? {
      forall i' | 0 <= i' < i
        ensures Saturated(g, sb.value.1, i')
      {
        SimpleBuildKeepsSaturated(g, i, t, stack, i');
      }
    }
  }

  /** Registering another root keeps the state built for `i`, hence what it follows. */
  lemma SimpleBuildKeepsSaturated(g: Graph, root: nat, t: seq<Node>, stack: nat, i: nat)
    requires Closed(g.nodes) && UniqueNames(g.nodes) && root < |g.nodes| && i < |g.nodes| && i != root
    requires UniqueNames(t) && Saturated(g, t, i)
    ensures var r := SimpleBuild(g, root, {}, t, stack);
      r.Success? ==> Saturated(g, r.value.1, i)
  {
    SimpleBuildKeepsState(g, root, {}, t, stack, i);
  }

  // ---------------------------------------------------------------------------
  // Nothing else: every identifier collected and every final flag has a path

  /** One more epsilon move avoiding the root extends a path. */
  lemma {:induction false} EpsReachExtend(g: Graph, root: nat, y: nat, cur: nat, m: nat, k: nat)
    requires Closed(g.nodes) && y < |g.nodes| && cur < |g.nodes|
    requires EpsReach(g, root, y, cur, m) && EpsStep(g, root, cur, k)
    ensures EpsReach(g, root, y, Target(g.nodes, cur, k), m + 1)
    decreases m
  {
    var t := Target(g.nodes, cur, k);
    if m == 0 {
      EpsReachOne(g, root, cur, k);
    } else {
      forall k0 | 0 <= k0 < |g.nodes[y].edges| && EpsStep(g, root, y, k0) && EpsReach(g, root, Target(g.nodes, y, k0), cur, m - 1)
        ensures EpsReach(g, root, y, t, m + 1)
      {
        EpsReachExtend(g, root, Target(g.nodes, y, k0), cur, m - 1, k);
      }
    }
  }

  /** One epsilon move avoiding the root is a path. */
  lemma EpsReachOne(g: Graph, root: nat, cur: nat, k: nat)
    requires Closed(g.nodes) && cur < |g.nodes| && EpsStep(g, root, cur, k)
    ensures EpsReach(g, root, cur, Target(g.nodes, cur, k), 1)
  {
    assert EpsReach(g, root, Target(g.nodes, cur, k), Target(g.nodes, cur, k), 0);
  }

  /** The shared final flag is set only when a state of the root's closure is final. */
  ghost predicate FinalFound(g: Graph, root: nat, w: Walk)
    requires Closed(g.nodes) && root < |g.nodes|
  {
    w.isFinal ==> exists x, n: nat :: 0 <= x < |g.nodes| && EpsReach(g, root, root, x, n) && g.nodes[x].isFinal
  }

  /**
    Identifier `s` belongs to a state `z` reached by epsilon moves avoiding the root
    from the target of a symbol edge on slot `a` that leaves the root's closure.
  */
  ghost predicate Found(g: Graph, root: nat, a: int, s: string)
    requires Closed(g.nodes) && root < |g.nodes|
  {
    exists x, n: nat, j, z, m: nat ::
      && 0 <= x < |g.nodes| && EpsReach(g, root, root, x, n)
      && 0 <= j < |g.nodes[x].edges| && SlotOf(g, x, j) == a
      && 0 <= z < |g.nodes| && EpsReach(g, root, Target(g.nodes, x, j), z, m)
      && s in g.nodes[z].name
  }

  /** Every identifier in a slot is found in that sense. */
  ghost predicate SlotsFound(g: Graph, root: nat, out: seq<Option<Name>>)
    requires Closed(g.nodes) && root < |g.nodes|
  {
    forall a, s :: 0 <= a < |out| && s in Content(out[a]) ==> Found(g, root, a, s)
  }

  /**
    Where a recursive call stands: in the root's closure (`chosen == -1`), or after a
    symbol edge on slot `chosen` leaving the closure, at a state reached from its
    target by epsilon moves avoiding the root.
  */
  ghost predicate Phase(g: Graph, root: nat, cur: nat, chosen: int)
    requires Closed(g.nodes) && root < |g.nodes| && cur < |g.nodes|
  {
    if chosen == -1 then exists n: nat :: EpsReach(g, root, root, cur, n)
    else exists x, n: nat, j, m: nat ::
      && 0 <= x < |g.nodes| && EpsReach(g, root, root, x, n)
      && 0 <= j < |g.nodes[x].edges| && SlotOf(g, x, j) == chosen
      && EpsReach(g, root, Target(g.nodes, x, j), cur, m)
  }

  /** Entering edge `k` keeps everything found and moves the phase to the edge's target. */
  lemma EnterFound(g: Graph, root: nat, cur: nat, chosen: int, w: Walk, k: nat)
    requires Closed(g.nodes) && root < |g.nodes| && cur < |g.nodes| && k < |g.nodes[cur].edges|
    requires -1 <= chosen < |g.alphabet| && |w.out| == |g.alphabet|
    requires root in w.used && w.used <= {root} && !Skips(g, cur, chosen, w, k)
    requires Phase(g, root, cur, chosen) && FinalFound(g, root, w) && SlotsFound(g, root, w.out)
    ensures var w1 := Enter(g, cur, chosen, w, k);
      && w1.used <= {root} && FinalFound(g, root, w1) && SlotsFound(g, root, w1.out)
      && Phase(g, root, Target(g.nodes, cur, k), NextChosen(g, cur, chosen, k))
  {
    if SlotOf(g, cur, k) != -1 {
      EnterSymbolFound(g, root, cur, w, k);
    } else if chosen != -1 {
      EnterAfterSymbolFound(g, root, cur, chosen, w, k);
    } else {
      EnterClosureFound(g, root, cur, w, k);
    }
  }

  /** A symbol edge leaving the closure starts its slot's phase and adds only its target's identifiers. */
  lemma EnterSymbolFound(g: Graph, root: nat, cur: nat, w: Walk, k: nat)
    requires Closed(g.nodes) && root < |g.nodes| && cur < |g.nodes| && k < |g.nodes[cur].edges|
    requires |w.out| == |g.alphabet| && SlotOf(g, cur, k) != -1
    requires Phase(g, root, cur, -1) && SlotsFound(g, root, w.out)
    ensures var w1 := Enter(g, cur, -1, w, k);
      SlotsFound(g, root, w1.out) && Phase(g, root, Target(g.nodes, cur, k), SlotOf(g, cur, k))
  {
    var t := Target(g.nodes, cur, k);
    var a := SlotOf(g, cur, k);
    var w1 := Enter(g, cur, -1, w, k);
    assert EpsReach(g, root, t, t, 0);
    forall n0: nat | EpsReach(g, root, root, cur, n0)
      ensures Phase(g, root, t, a) && forall s :: s in g.nodes[t].name ==> Found(g, root, a, s)
    {
    }
    forall a', s | 0 <= a' < |w1.out| && s in Content(w1.out[a'])
      ensures Found(g, root, a', s)
    {
      if a' == a && s !in Content(w.out[a]) {
        assert s in g.nodes[t].name;
      }
    }
  }

  /** An epsilon move after a symbol extends the phase's path and adds only identifiers it reaches. */
  lemma EnterAfterSymbolFound(g: Graph, root: nat, cur: nat, chosen: nat, w: Walk, k: nat)
    requires Closed(g.nodes) && root < |g.nodes| && cur < |g.nodes| && k < |g.nodes[cur].edges|
    requires chosen < |g.alphabet| && |w.out| == |g.alphabet| && SlotOf(g, cur, k) == -1
    requires root in w.used && !Skips(g, cur, chosen, w, k)
    requires Phase(g, root, cur, chosen) && SlotsFound(g, root, w.out)
    ensures var w1 := Enter(g, cur, chosen, w, k);
      SlotsFound(g, root, w1.out) && Phase(g, root, Target(g.nodes, cur, k), chosen)
  {
    var t := Target(g.nodes, cur, k);
    var w1 := Enter(g, cur, chosen, w, k);
    assert EpsStep(g, root, cur, k);
    forall x, n: nat, j, m: nat |
      && 0 <= x < |g.nodes| && EpsReach(g, root, root, x, n)
      && 0 <= j < |g.nodes[x].edges| && SlotOf(g, x, j) == chosen
      && EpsReach(g, root, Target(g.nodes, x, j), cur, m)
      ensures Phase(g, root, t, chosen) && forall s :: s in g.nodes[t].name ==> Found(g, root, chosen, s)
    {
      EpsReachExtend(g, root, Target(g.nodes, x, j), cur, m, k);
    }
    forall a', s | 0 <= a' < |w1.out| && s in Content(w1.out[a'])
      ensures Found(g, root, a', s)
    {
      if a' == chosen && s !in Content(w.out[chosen]) {
        assert s in g.nodes[t].name;
      }
    }
  }

  /** An epsilon move inside the closure extends the closure path and ORs in a final flag of the closure. */
  lemma EnterClosureFound(g: Graph, root: nat, cur: nat, w: Walk, k: nat)
    requires Closed(g.nodes) && root < |g.nodes| && cur < |g.nodes| && k < |g.nodes[cur].edges|
    requires |w.out| == |g.alphabet| && SlotOf(g, cur, k) == -1
    requires root in w.used && w.used <= {root} && !Skips(g, cur, -1, w, k)
    requires Phase(g, root, cur, -1) && FinalFound(g, root, w)
    ensures var w1 := Enter(g, cur, -1, w, k);
      FinalFound(g, root, w1) && Phase(g, root, Target(g.nodes, cur, k), -1)
  {
    var t := Target(g.nodes, cur, k);
    assert EpsStep(g, root, cur, k);
    forall n0: nat | EpsReach(g, root, root, cur, n0)
      ensures EpsReach(g, root, root, t, n0 + 1)
    {
      EpsReachExtend(g, root, root, cur, n0, k);
    }
  }

  /** A walk only collects what is found, whatever phase it is in. */
  lemma {:induction false} VisitFound(g: Graph, root: nat, cur: nat, chosen: int, w: Walk, stack: nat)
    requires Closed(g.nodes) && root < |g.nodes| && cur < |g.nodes|
    requires -1 <= chosen < |g.alphabet| && |w.out| == |g.alphabet| && w.used <= {root}
    requires Phase(g, root, cur, chosen) && FinalFound(g, root, w) && SlotsFound(g, root, w.out)
    ensures var r := Visit(g, root, cur, chosen, w, stack);
      r.Success? ==> FinalFound(g, root, r.value) && SlotsFound(g, root, r.value.out)
    decreases stack, 1, 0, 0
  {
    VisitEdgesFound(g, root, cur, chosen, w.(used := w.used + {root}), 0, stack);
  }

  lemma {:induction false} VisitEdgesFound(g: Graph, root: nat, cur: nat, chosen: int, w: Walk, k: nat, stack: nat)
    requires Closed(g.nodes) && root < |g.nodes| && cur < |g.nodes| && k <= |g.nodes[cur].edges|
    requires -1 <= chosen < |g.alphabet| && |w.out| == |g.alphabet| && root in w.used && w.used <= {root}
    requires Phase(g, root, cur, chosen) && FinalFound(g, root, w) && SlotsFound(g, root, w.out)
    ensures var r := VisitEdges(g, root, cur, chosen, w, k, stack);
      r.Success? ==> FinalFound(g, root, r.value) && SlotsFound(g, root, r.value.out)
    decreases stack, 0, |g.nodes[cur].edges| - k, 1
  {
    if k == |g.nodes[cur].edges| {
    } else if Skips(g, cur, chosen, w, k) {
      VisitEdgesFound(g, root, cur, chosen, w, k + 1, stack);
    } else {
      EdgeFound(g, root, cur, chosen, w, k, stack);
    }
  }

  /** Following edge `k`, then the rest of the scan, keeps what is found. */
  lemma {:induction false} EdgeFound(g: Graph, root: nat, cur: nat, chosen: int, w: Walk, k: nat, stack: nat)
    requires Closed(g.nodes) && root < |g.nodes| && cur < |g.nodes| && k < |g.nodes[cur].edges|
    requires -1 <= chosen < |g.alphabet| && |w.out| == |g.alphabet| && root in w.used && w.used <= {root}
    requires Phase(g, root, cur, chosen) && FinalFound(g, root, w) && SlotsFound(g, root, w.out)
    requires !Skips(g, cur, chosen, w, k)
    ensures var r := VisitEdges(g, root, cur, chosen, w, k, stack);
      r.Success? ==> FinalFound(g, root, r.value) && SlotsFound(g, root, r.value.out)
    decreases stack, 0, |g.nodes[cur].edges| - k, 0
  {
    if stack > 0 {
      FollowFound(g, root, cur, chosen, w, k, stack - 1);
      var r1 := Visit(g, root, Target(g.nodes, cur, k), NextChosen(g, cur, chosen, k), Enter(g, cur, chosen, w, k), stack - 1);
      if r1.Success? {
        assert VisitEdges(g, root, cur, chosen, w, k, stack) == VisitEdges(g, root, cur, chosen, r1.value, k + 1, stack);
        VisitEdgesFound(g, root, cur, chosen, r1.value, k + 1, stack);
      }
    }
  }

  /** The recursive call for edge `k` keeps what is found and the flags within the root's. */
  lemma {:induction false} FollowFound(g: Graph, root: nat, cur: nat, chosen: int, w: Walk, k: nat, stack: nat)
    requires Closed(g.nodes) && root < |g.nodes| && cur < |g.nodes| && k < |g.nodes[cur].edges|
    requires -1 <= chosen < |g.alphabet| && |w.out| == |g.alphabet| && root in w.used && w.used <= {root}
    requires Phase(g, root, cur, chosen) && FinalFound(g, root, w) && SlotsFound(g, root, w.out)
    requires !Skips(g, cur, chosen, w, k)
    ensures var r := Visit(g, root, Target(g.nodes, cur, k), NextChosen(g, cur, chosen, k), Enter(g, cur, chosen, w, k), stack);
      r.Success? ==>
        && FinalFound(g, root, r.value) && SlotsFound(g, root, r.value.out)
        && root in r.value.used && r.value.used <= {root}
    decreases stack, 1, 1, 0
  {
    var t := Target(g.nodes, cur, k);
    var next := NextChosen(g, cur, chosen, k);
    var w1 := Enter(g, cur, chosen, w, k);
    EnterFound(g, root, cur, chosen, w, k);
    VisitFound(g, root, t, next, w1, stack);
    VisitGrows(g, root, t, next, w1, stack);
  }

  /** The walk from `root` with no node flag set collects only what is found. */
  lemma RootWalkFound(g: Graph, root: nat, stack: nat)
    requires Closed(g.nodes) && root < |g.nodes|
    ensures var r := RootWalk(g, root, {}, stack);
      r.Success? ==> FinalFound(g, root, r.value) && SlotsFound(g, root, r.value.out)
  {
    var w := Walk({}, {}, NoSlots(|g.alphabet|), g.nodes[root].isFinal);
    assert EpsReach(g, root, root, root, 0);
    VisitFound(g, root, root, -1, w, stack);
  }

  // ---------------------------------------------------------------------------
  // What the first pass registers, conversely

  /** An edge among the slot edges carries the symbol of a filled slot to that slot's name. */
  lemma {:induction false} SlotEdgeFrom(alphabet: seq<string>, out: seq<Option<Name>>, i: nat, e: Edge)
    requires |out| == |alphabet| && i <= |alphabet| && e in SlotEdges(alphabet, out, i)
    ensures exists a :: i <= a < |alphabet| && out[a].Some? && e == Edge(alphabet[a], out[a].value)
    decreases |alphabet| - i
  {
    if out[i].Some? && e == Edge(alphabet[i], out[i].value) {
    } else {
      SlotEdgeFrom(alphabet, out, i + 1, e);
    }
  }

  /** Only states named after one of the first `i` original states are final. */
  predicate FinalOnlyAtRoots(g: Graph, i: nat, t: seq<Node>)
  {
    forall j :: 0 <= j < |t| && t[j].isFinal ==> 0 <= IndexOf(g.nodes, t[j].name) < i
  }

  /**
    Identifier `s` belongs to a state `z` reached by epsilon moves avoiding `i` from
    the target of a symbol edge on `symbol` that leaves the closure of `i`.
  */
  ghost predicate Traced(g: Graph, i: nat, symbol: string, s: string)
    requires Closed(g.nodes) && i < |g.nodes|
  {
    exists x, n: nat, j, z, m: nat ::
      && 0 <= x < |g.nodes| && EpsReach(g, i, i, x, n)
      && 0 <= j < |g.nodes[x].edges| && g.nodes[x].edges[j].symbol == symbol
      && 0 <= z < |g.nodes| && EpsReach(g, i, Target(g.nodes, x, j), z, m)
      && s in g.nodes[z].name
  }

  /**
    The state built for original state `i` holds nothing beyond its closure: it is
    final only when a state of the closure of `i` is, and every identifier on its
    edge for a symbol is traced, as in `Saturated`, to a symbol edge on that symbol
    leaving the closure.
  */
  ghost predicate Exact(g: Graph, t: seq<Node>, i: nat)
    requires Closed(g.nodes) && i < |g.nodes|
  {
    && Registered(t, g.nodes[i].name)
    && var p := IndexOf(t, g.nodes[i].name);
    && (t[p].isFinal ==> exists x, n: nat :: 0 <= x < |g.nodes| && EpsReach(g, i, i, x, n) && g.nodes[x].isFinal)
    && forall e, s :: e in t[p].edges && s in e.target ==> Traced(g, i, e.symbol, s)
  }

  /** The states built for the first `i` original states hold nothing beyond their closures. */
  ghost predicate ExactUpTo(g: Graph, t: seq<Node>, i: nat)
    requires Closed(g.nodes) && i <= |g.nodes|
  {
    forall i' :: 0 <= i' < i ==> Exact(g, t, i')
  }

  /**
    With no node flag set before the walk, and the root's state not built yet, the
    state `simpleBuild` registers for the root holds nothing beyond its closure.
  */
  lemma SimpleBuildExact(g: Graph, root: nat, t: seq<Node>, stack: nat)
    requires Closed(g.nodes) && UniqueNames(g.nodes) && root < |g.nodes|
    requires UniqueNames(t) && RootsOnly(g, root, t) && FinalOnlyAtRoots(g, root, t)
    ensures var r := SimpleBuild(g, root, {}, t, stack);
      r.Success? ==> Exact(g, r.value.1, root) && FinalOnlyAtRoots(g, root + 1, r.value.1)
  {
    var rw := RootWalk(g, root, {}, stack);
    if rw.Success? {
      RootWalkFound(g, root, stack);
      RegisterRoot(g, root, t, rw.value);
      ExactFromWalk(g, root, Register(t, g.nodes[root].name, rw.value.isFinal, g.alphabet, rw.value.out), rw.value);
    }
  }

  /**
    Registering the root's walk into an arena where the root's state, if present,
    has no edges and is not final: the root's state holds exactly what the walk
    collected, and only named after the first `root + 1` states are final.
  */
  lemma RegisterRoot(g: Graph, root: nat, t: seq<Node>, w: Walk)
    requires Closed(g.nodes) && UniqueNames(g.nodes) && root < |g.nodes| && |w.out| == |g.alphabet|
    requires UniqueNames(t) && RootsOnly(g, root, t) && FinalOnlyAtRoots(g, root, t)
    ensures var name := g.nodes[root].name;
      var r := Register(t, name, w.isFinal, g.alphabet, w.out);
      && Registered(r, name)
      && r[IndexOf(r, name)].edges == SlotEdges(g.alphabet, w.out, 0)
      && r[IndexOf(r, name)].isFinal == w.isFinal
      && FinalOnlyAtRoots(g, root + 1, r)
  {
    var name := g.nodes[root].name;
    var p := GetNodeIndex(name, t, w.isFinal).0;
    var r := Register(t, name, w.isFinal, g.alphabet, w.out);
    RegisterAt(t, name, w.isFinal, g.alphabet, w.out);
    RegisterElsewhere(t, name, w.isFinal, g.alphabet, w.out);
    RegisterAppends(t, name, w.isFinal, g.alphabet, w.out);
    RegisterKeepsUnique(t, name, w.isFinal, g.alphabet, w.out);
    UniqueIndexOf(r, p);
    UniqueIndexOf(g.nodes, root);
    if Registered(t, name) {
      assert t[p].name == name;
      assert t[p].edges == [] && !t[p].isFinal;
    }
    forall j | 0 <= j < |r| && r[j].isFinal
      ensures 0 <= IndexOf(g.nodes, r[j].name) < root + 1
    {
      if j < |t| && j != p {
        assert r[j] == t[j];
      }
    }
  }

  /** A state holding exactly what a walk found from the root is exact for the root. */
  lemma ExactFromWalk(g: Graph, root: nat, r: seq<Node>, w: Walk)
    requires Closed(g.nodes) && root < |g.nodes| && |w.out| == |g.alphabet|
    requires FinalFound(g, root, w) && SlotsFound(g, root, w.out)
    requires Registered(r, g.nodes[root].name)
    requires r[IndexOf(r, g.nodes[root].name)].edges == SlotEdges(g.alphabet, w.out, 0)
    requires r[IndexOf(r, g.nodes[root].name)].isFinal == w.isFinal
    ensures Exact(g, r, root)
  {
    var p := IndexOf(r, g.nodes[root].name);
    forall e, s | e in r[p].edges && s in e.target
      ensures Traced(g, root, e.symbol, s)
    {
      SlotEdgeFrom(g.alphabet, w.out, 0, e);
      var a :| 0 <= a < |g.alphabet| && w.out[a].Some? && e == Edge(g.alphabet[a], w.out[a].value);
      FoundIsTraced(g, root, a, s);
    }
  }

  /** Found on slot `a` is traced on the slot's symbol. */
  lemma FoundIsTraced(g: Graph, root: nat, a: nat, s: string)
    requires Closed(g.nodes) && root < |g.nodes| && a < |g.alphabet|
    requires Found(g, root, a, s)
    ensures Traced(g, root, g.alphabet[a], s)
  {
    forall x, n: nat, j, z, m: nat |
      && 0 <= x < |g.nodes| && EpsReach(g, root, root, x, n)
      && 0 <= j < |g.nodes[x].edges| && SlotOf(g, x, j) == a
      && 0 <= z < |g.nodes| && EpsReach(g, root, Target(g.nodes, x, j), z, m)
      && s in g.nodes[z].name
      ensures Traced(g, root, g.alphabet[a], s)
    {
      assert g.nodes[x].edges[j].symbol == g.alphabet[a];
    }
  }

  /** Registering another root keeps the state built for `i`, hence its exactness. */
  lemma SimpleBuildKeepsExact(g: Graph, root: nat, t: seq<Node>, stack: nat, i: nat)
    requires Closed(g.nodes) && UniqueNames(g.nodes) && root < |g.nodes| && i < |g.nodes| && i != root
    requires UniqueNames(t) && Exact(g, t, i)
    ensures var r := SimpleBuild(g, root, {}, t, stack);
      r.Success? ==> Exact(g, r.value.1, i)
  {
    SimpleBuildKeepsState(g, root, {}, t, stack, i);
  }

  /** The corrected root loop registers, for every original state, a state holding nothing beyond its closure. */
  lemma {:induction false} PassOneExact(g: Graph, i: nat, t: seq<Node>, stack: nat)
    requires WellFormed(g) && i <= |g.nodes| && Sound(g, t) && RootsOnly(g, i, t) && FinalOnlyAtRoots(g, i, t)
    requires ExactUpTo(g, t, i)
    ensures var r := PassOne(g, i, t, stack);
      r.Success? ==> ExactUpTo(g, r.value, |g.nodes|)
    decreases |g.nodes| - i
  {
    if i < |g.nodes| {
      var sb := SimpleBuild(g, i, {}, t, stack);
      if sb.Success? {
        ExactStep(g, i, t, stack);
        PassOneExact(g, i + 1, sb.value.1, stack);
      }
    }
  }

  /** One root of the corrected loop: the invariant of `PassOneExact` moves on to the next root. */
  lemma ExactStep(g: Graph, i: nat, t: seq<Node>, stack: nat)
    requires WellFormed(g) && i < |g.nodes| && Sound(g, t) && RootsOnly(g, i, t) && FinalOnlyAtRoots(g, i, t)
    requires ExactUpTo(g, t, i)
    ensures var sb := SimpleBuild(g, i, {}, t, stack);
      sb.Success? ==>
        && Sound(g, sb.value.1) && RootsOnly(g, i + 1, sb.value.1) && FinalOnlyAtRoots(g, i + 1, sb.value.1)
        && ExactUpTo(g, sb.value.1, i + 1)
  {
    SimpleBuildSound(g, i, {}, t, stack);
    SimpleBuildRootsOnly(g, i, {}, t, stack);
    SimpleBuildExact(g, i, t, stack);
    var sb := SimpleBuild(g, i, {}, t, stack);
    if sb.Success? {
      forall i' | 0 <= i' < i
        ensures Exact(g, sb.value.1, i')
      {
        SimpleBuildKeepsExact(g, i, t, stack, i');
      }
    }
  }

  /** Both properties depend only on the state of the name: an arena holding the same state keeps them. */
  lemma SameStateKeepsClosure(g: Graph, t: seq<Node>, t': seq<Node>, i: nat)
    requires Closed(g.nodes) && i < |g.nodes| && Saturated(g, t, i) && Exact(g, t, i)
    requires Registered(t', g.nodes[i].name)
    requires t'[IndexOf(t', g.nodes[i].name)] == t[IndexOf(t, g.nodes[i].name)]
    ensures Saturated(g, t', i) && Exact(g, t', i)
  {
  }
}

=== FILE: walk_depth.dfy ===
/**
  How deep the first pass recurses. `simpleBuild` follows every edge it does not
  skip by a recursive call, so its depth is bounded only by the automaton: without
  epsilon moves one level below the root suffices, and an epsilon cycle that avoids
  the root recurses until the stack overflows, however large the stack.
*/
module WalkDepth {
  import opened Wrappers
  import opened Names
  import opened Automaton
  import opened SimplePass
  import opened Determinize

  /** Every edge carries a symbol of the alphabet: there is no epsilon move. */
  predicate NoEpsilon(g: Graph)
  {
    forall x, k :: 0 <= x < |g.nodes| && 0 <= k < |g.nodes[x].edges| ==> g.nodes[x].edges[k].symbol in g.alphabet
  }

  /**
    After a symbol, an automaton without epsilon moves gives the walk nothing to
    follow: it passes over every edge and returns the walk as it was, whatever the
    stack.
  */
  lemma {:induction false} AfterSymbolPassesOver(g: Graph, root: nat, cur: nat, chosen: int, w: Walk, k: nat, stack: nat)
    requires Closed(g.nodes) && NoEpsilon(g) && root < |g.nodes| && cur < |g.nodes| && k <= |g.nodes[cur].edges|
    requires 0 <= chosen < |g.alphabet| && |w.out| == |g.alphabet|
    ensures VisitEdges(g, root, cur, chosen, w, k, stack) == Success(w)
    decreases |g.nodes[cur].edges| - k
  {
    if k < |g.nodes[cur].edges| {
      assert SlotOf(g, cur, k) != -1;
      assert Skips(g, cur, chosen, w, k);
      AfterSymbolPassesOver(g, root, cur, chosen, w, k + 1, stack);
    }
  }

  /** The scan of the root's edges `k..` succeeds with one level of stack to spare. */
  lemma {:induction false} RootEdgesNeedOneLevel(g: Graph, root: nat, w: Walk, k: nat, stack: nat)
    requires Closed(g.nodes) && NoEpsilon(g) && root < |g.nodes| && k <= |g.nodes[root].edges|
    requires |w.out| == |g.alphabet| && stack >= 1
    ensures VisitEdges(g, root, root, -1, w, k, stack).Success?
    decreases |g.nodes[root].edges| - k
  {
    if k < |g.nodes[root].edges| {
      if Skips(g, root, -1, w, k) {
        RootEdgesNeedOneLevel(g, root, w, k + 1, stack);
      } else {
        var t := Target(g.nodes, root, k);
        assert SlotOf(g, root, k) != -1;
        var next := NextChosen(g, root, -1, k);
        var w1 := Enter(g, root, -1, w, k);
        AfterSymbolPassesOver(g, root, t, next, w1.(used := w1.used + {root}), 0, stack - 1);
        var w2 := w1.(used := w1.used + {root});
        assert Visit(g, root, t, next, w1, stack - 1) == Success(w2);
        RootEdgesNeedOneLevel(g, root, w2, k + 1, stack);
      }
    }
  }

  /** Without epsilon moves the walk from any root succeeds as soon as the stack allows one call. */
  lemma RootWalkNeedsOneLevel(g: Graph, root: nat, used: set<nat>, stack: nat)
    requires Closed(g.nodes) && NoEpsilon(g) && root < |g.nodes| && stack >= 1
    ensures RootWalk(g, root, used, stack).Success?
  {
    var w := Walk(used, {}, NoSlots(|g.alphabet|), g.nodes[root].isFinal);
    RootEdgesNeedOneLevel(g, root, w.(used := w.used + {root}), 0, stack);
  }

  /** Hence the corrected root loop succeeds from any root on, whatever arena it starts with. */
  lemma {:induction false} PassOneNeedsOneLevel(g: Graph, i: nat, t: seq<Node>, stack: nat)
    requires Closed(g.nodes) && NoEpsilon(g) && i <= |g.nodes| && stack >= 1
    ensures PassOne(g, i, t, stack).Success?
    decreases |g.nodes| - i
  {
    if i < |g.nodes| {
      RootWalkNeedsOneLevel(g, i, {}, stack);
      var sb := SimpleBuild(g, i, {}, t, stack);
      assert sb.Success?;
      PassOneNeedsOneLevel(g, i + 1, sb.value.1, stack);
    }
  }

  /** And so does the loop as written, whatever flags the earlier roots left. */
  lemma {:induction false} PassOneAsWrittenNeedsOneLevel(g: Graph, i: nat, used: set<nat>, t: seq<Node>, stack: nat)
    requires Closed(g.nodes) && NoEpsilon(g) && i <= |g.nodes| && stack >= 1
    ensures PassOneAsWritten(g, i, used, t, stack).Success?
    decreases |g.nodes| - i
  {
    if i < |g.nodes| {
      RootWalkNeedsOneLevel(g, i, used, stack);
      var sb := SimpleBuild(g, i, used, t, stack);
      assert sb.Success?;
      PassOneAsWrittenNeedsOneLevel(g, i + 1, sb.value.0, sb.value.1, stack);
    }
  }

  /**
    An automaton read from the usual input (single identifiers) without epsilon moves
    is determinized by both versions, with or without `deleteUnused`, given one
    level of stack, and the result is deterministic.
  */
  lemma DeterminizeNeedsOneLevel(g: Graph, deleteUnused: bool, stack: nat)
    requires WellFormed(g) && SingletonNames(g) && NoEpsilon(g) && stack >= 1
    ensures var r := Determinize.Determinize(g, deleteUnused, stack);
      r.Success? && Deterministic(r.value.nodes, g.alphabet)
    ensures var r := DeterminizeCorrected(g, deleteUnused, stack);
      r.Success? && Deterministic(r.value.nodes, g.alphabet)
  {
    PassOneNeedsOneLevel(g, 0, [], stack);
    PassOneAsWrittenNeedsOneLevel(g, 0, {}, [], stack);
    DeterminizeDeterministic(g, deleteUnused, stack);
    DeterminizeCorrectedDeterministic(g, deleteUnused, stack);
  }

  // ---------------------------------------------------------------------------
  // An epsilon cycle that avoids the root

  /** `A -ε-> B -ε-> C -ε-> B`, with the empty alphabet and the epsilon symbol "0". */
  function CycleExample(): Graph
  {
    Graph([Node({"A"}, [Edge("0", {"B"})], false),
           Node({"B"}, [Edge("0", {"C"})], false),
           Node({"C"}, [Edge("0", {"B"})], false)], [], "0", "A", false)
  }

  lemma CycleExampleShape()
    ensures WellFormed(CycleExample()) && SingletonNames(CycleExample())
    ensures Target(CycleExample().nodes, 0, 0) == 1
    ensures Target(CycleExample().nodes, 1, 0) == 2
    ensures Target(CycleExample().nodes, 2, 0) == 1
  {
    var g := CycleExample();
    assert g.nodes[1].name == {"B"} && g.nodes[2].name == {"C"};
    assert Registered(g.nodes, {"B"}) && Registered(g.nodes, {"C"});
    assert {"A"} != {"B"} by { assert "A" in {"A"}; }
    assert {"A"} != {"C"} by { assert "A" in {"A"}; }
    assert {"B"} != {"C"} by { assert "B" in {"B"}; }
  }

  /** Walking from `B` or from `C` with only `A` flagged never returns. */
  lemma {:induction false} CycleOverflows(w: Walk, stack: nat)
    requires w.used == {0} && w.edgeUsed == {} && w.out == []
    ensures Closed(CycleExample().nodes)
    ensures Visit(CycleExample(), 0, 1, -1, w, stack) == Failure(StackOverflow)
    ensures Visit(CycleExample(), 0, 2, -1, w, stack) == Failure(StackOverflow)
    decreases stack
  {
    var g := CycleExample();
    CycleExampleShape();
    assert w.(used := w.used + {0}) == w;
    assert SlotOf(g, 1, 0) == -1 && SlotOf(g, 2, 0) == -1;
    assert !Skips(g, 1, -1, w, 0) && !Skips(g, 2, -1, w, 0);
    if stack > 0 {
      var w1 := Enter(g, 1, -1, w, 0);
      var w2 := Enter(g, 2, -1, w, 0);
      assert w1.used == {0} && w1.edgeUsed == {} && w1.out == [];
      assert w2.used == {0} && w2.edgeUsed == {} && w2.out == [];
      CycleOverflows(w1, stack - 1);
      CycleOverflows(w2, stack - 1);
    }
  }

  /** So the walk from `A`, the first pass and `determinize` overflow whatever the stack. */
  lemma CycleExampleOverflows()
    ensures WellFormed(CycleExample())
    ensures forall stack: nat :: RootWalk(CycleExample(), 0, {}, stack) == Failure(StackOverflow)
    ensures forall stack: nat, deleteUnused: bool ::
      && Determinize.Determinize(CycleExample(), deleteUnused, stack) == Failure(StackOverflow)
      && DeterminizeCorrected(CycleExample(), deleteUnused, stack) == Failure(StackOverflow)
  {
    var g := CycleExample();
    CycleExampleShape();
    forall stack: nat ensures RootWalk(g, 0, {}, stack) == Failure(StackOverflow) {
      var w := Walk({0}, {}, [], false);
      assert NoSlots(0) == [];
      assert Walk({}, {}, NoSlots(0), false).(used := {} + {0}) == w;
      assert SlotOf(g, 0, 0) == -1 && NextChosen(g, 0, -1, 0) == -1;
      assert !Skips(g, 0, -1, w, 0);
      assert RootWalk(g, 0, {}, stack) == VisitEdges(g, 0, 0, -1, w, 0, stack);
      if stack > 0 {
        assert Enter(g, 0, -1, w, 0) == w;
        CycleOverflows(w, stack - 1);
        assert Visit(g, 0, 1, -1, w, stack - 1) == Failure(StackOverflow);
      }
    }
    forall stack: nat, deleteUnused: bool
      ensures Determinize.Determinize(g, deleteUnused, stack) == Failure(StackOverflow)
      ensures DeterminizeCorrected(g, deleteUnused, stack) == Failure(StackOverflow)
    {
      assert SimpleBuild(g, 0, {}, [], stack) == Failure(StackOverflow);
    }
  }
}

=== FILE: wrappers.dfy ===
/** Failure-compatible result types shared by the automaton modules. */
module Wrappers {

  /** A value that may be absent; stands for a Java reference that may be null. */
  datatype Option<+T> = None | Some(value: T)

  /** The outcome of an operation that can abort with an error. */
  datatype Result<+R, +E> = Success(value: R) | Failure(error: E)
}
